=== FILE: README.md ===
# Donkomi storefront — a Dafny model of its state logic

Donkomi is a browser storefront with four parts:

- **Order relay** (`server.js`): a small Node process. It keeps a newest-first log of orders and the set of connected dashboards. It accepts orders and status changes over a WebSocket and over a REST mirror, and pushes the whole log to every open connection after each change.
- **Storefront page** (`script.js`):
  - a shopping `Cart`;
  - the product catalogue, a dictionary from category key to product list, kept in step with the admin portal by `ProductDatabaseSync`;
  - the helpers that choose which products a category page shows.
- **Customer portal** (`user.js`): sign-up and sign-in, addresses and payment methods that keep at most one default, a wishlist, per-user notifications capped at fifty with a "99+" badge, and a support chat with the shop.
- **Admin back office** (`admin.js`): a hard-coded login, the product and category editors with their fallbacks when the catalogue sync is not present, the merged and sorted category list, search filters, and the admin side of the support chat.

The model keeps the form of the code:

- Objects whose fields the code updates in place are Dafny classes whose methods change `seq` fields: `RelayServer`, `Cart`, `ProductDatabaseSync`, `UserPortal`, `AdminPortal`.
- Every such method is proved against a pure function of the old state.
- What the code promises is proved about those functions as lemmas.

Modelling choices that follow JavaScript semantics:

- JavaScript values that cross a loose boundary (order payloads, ids, `undefined`) are the `Common.Value` datatype. `===` is equality on it, so a number id and its string never match.
- A JS object used as an ordered dictionary (`productDatabase`) is an association list with distinct keys, because `for...in` order decides which category wins.
- Clock readings, generated ids, `confirm()` answers, form fields and the saved storage contents are parameters.

Files:

| file | module | models |
|---|---|---|
| common.dfy | `Common` | JS values, `filter`/`findIndex`/`splice`/`reduce`, `trim`, `toLowerCase`, `includes`, number-to-text, elapsed-time buckets |
| relay.dfy | `Relay` | `server.js` |
| cart.dfy | `Storefront` | `Cart` in `script.js` |
| catalogue.dfy | `Catalogue` | `productDatabase` and `ProductDatabaseSync` in `script.js` |
| showcase.dfy | `Showcase` | `getCategoryDisplayName`, `loadProductsForCategory`, `displayProducts` in `script.js` |
| chat.dfy | `Chat` | the chat history shared by `user.js` and `admin.js` |
| portal.dfy | `Portal` | `UserPortal` in `user.js` |
| admin.dfy | `BackOffice` | `AdminPortal` in `admin.js` |

## Model

| member | source | states |
|---|---|---|
| Relay.StampCarriesPayload | server.js:36-40 | a stored order keeps every payload field except `id` and `timestamp`, which the relay overwrites with the values it assigns |
| Relay.IngestShifts | server.js:36-41 | a new order goes to index 0, the log grows by one, and every earlier order moves down one place unchanged |
| Relay.IngestAllReverses | server.js:41 | after a batch of ingests and nothing else, the log is the batch reversed in front of the old log |
| Relay.RunIngestsAll | server.js:33-41 | a run of socket frames that are all `new_order` is the ingestion, first to last, of the orders they stamp |
| Relay.RunOfNewOrdersReverses | server.js:33-41 | after a run of `new_order` frames the log holds their stamped orders newest first, in front of the old log |
| Relay.StatusUpdateOnlyFirstMatch | server.js:54-57 | a status update touches only the first order whose `orderId` equals the key, setting `status` and `updatedAt` and keeping its other fields; every other order and the length are unchanged; with no match the log is unchanged |
| Relay.QuietFramesKeepLog | server.js:33-79 | `get_orders`, an unknown type, a parse error and an update for an absent `orderId` leave the log unchanged |
| Relay.RestatusKeepsIdentity | server.js:56-57 | a status change keeps the relay-assigned `id` and `timestamp` of the order |
| Relay.StepKeepsOlder | server.js:33-79 | one frame adds at most one order (exactly one for `new_order`), and every order already logged keeps its identity at the tail |
| Relay.RunKeepsHistory | server.js:29-80 | over any sequence of frames the log grows by the number of `new_order` frames, and the earlier history stays at the tail with unchanged identities |
| Relay.RelayServer.constructor | server.js:15-16 | the relay starts with no orders and no clients |
| Relay.RelayServer.Connect | server.js:19-27 | connecting adds the client and sends it a snapshot of the current log |
| Relay.RelayServer.Close | server.js:82-85 | closing removes the client; closing an absent client changes nothing; the log is untouched |
| Relay.RelayServer.Broadcast | server.js:89-96 | the same message goes to exactly the connected clients that are open, once each |
| Relay.RelayServer.Ingest | server.js:36-41 | the stamped order is put in front of the log; the clients are unchanged |
| Relay.RelayServer.UpdateStatus | server.js:54-57 | reports whether some order has the key, and leaves the log as `WithStatus` describes |
| Relay.RelayServer.HandleMessage | server.js:29-80 | the log follows `Step`; a change is broadcast to every open client; `get_orders` answers only the sender; any other frame sends nothing |
| Relay.RelayServer.PostOrder | server.js:99-115 | the REST ingest changes the log like a `new_order` frame, broadcasts it, and answers 200 with the payload's `orderId` |
| Relay.RelayServer.ListOrders | server.js:117-119 | the REST listing is the log, newest first |
| Relay.RelayServer.PutStatus | server.js:121-140 | the REST status update changes the log like the socket update; a match is broadcast and answered 200; no match answers 404 "Order not found" and sends nothing |
| Relay.RelayServer.Health | server.js:143-149 | the health report counts the connected clients and the logged orders |
| Storefront.AddItemEffect | script.js:66-77 | adding a product whose name is already in the cart raises that line's quantity by one, keeps its id, name and price and the length, and raises the total by its price; otherwise the product is appended; either way the count rises by the units added |
| Storefront.RemoveItemKeepsOthers | script.js:102-106 | removal drops every line with the id and keeps the other lines in their order |
| Storefront.RemoveItemCount | script.js:102-106 | the count after removal plus the units removed is the count before |
| Storefront.UpdateQuantityEffect | script.js:108-114 | only the first line with the id changes: its quantity becomes the larger of the new quantity and 1 and its id, name and price stay; with no match the cart is unchanged; positive quantities stay positive |
| Storefront.OperationsKeepPositive | script.js:66-106 | adding a product with a positive quantity and removing by id keep every quantity at least 1 |
| Storefront.Cart.constructor | script.js:3-11 | a new cart starts empty with total 0 and then takes the saved items and total when a saved cart is present (each missing part stays empty or 0) |
| Storefront.Cart.LoadFromStorage | script.js:347-354 | a saved cart replaces the items and the total, each defaulting to empty and 0; with nothing saved the cart is unchanged |
| Storefront.Cart.UpdateCart | script.js:116-121 | the total becomes the sum of price × quantity over the lines |
| Storefront.Cart.AddItem | script.js:66-77 | the items follow `ItemAdded` and the total is recomputed |
| Storefront.Cart.RemoveItem | script.js:102-106 | the items follow `ItemRemoved` and the total is recomputed |
| Storefront.Cart.UpdateQuantity | script.js:108-114 | the items follow `QuantityUpdated`; the total is recomputed only when a line matched |
| Storefront.Cart.UpdateCartCount | script.js:159-162 | the badge count is the sum of the quantities |
| Storefront.Cart.Checkout | script.js:178-186 | checkout is rejected with "Your cart is empty!" exactly when the cart has no lines |
| Catalogue.KeysAreLookups | script.js:876-878 | `Object.keys` lists a key exactly when a lookup finds it, and a lookup answers with that key's position in the list |
| Catalogue.ProductsAt | script.js:872-874 | with distinct keys, the lookup of a category's key finds that category's products |
| Catalogue.ProductsAbsent | script.js:872-874 | looking up a missing category gives the empty list |
| Catalogue.SameShelvesSameProducts | script.js:872-874 | two catalogues that hold the same category entry for a key answer the same lookup |
| Catalogue.WithIdSettles | script.js:771-774 | with a non-empty generated id, an added product always has a truthy id, so settling its id again changes nothing |
| Catalogue.AppendedEffect | script.js:766-776 | pushing to a category creates it when missing, appends the product there, and keeps every other category and the distinct keys |
| Catalogue.AddProductEffect | script.js:765-784 | `addProduct` appends the product, with its id settled, to its own category; all other categories are unchanged and the product count grows by one |
| Catalogue.FindProduct | script.js:787-789 | the search finds the first category in key order, and the first index in it, whose product id is `===` the given id, or reports that none exists |
| Catalogue.UpdateProductEffect | script.js:786-811 | with no match the catalogue is unchanged; a product that stays in its category is replaced at its index; one that moves leaves its old list and is appended to the new one; the count is unchanged |
| Catalogue.DeleteProductEffect | script.js:813-829 | with no match nothing changes; otherwise exactly the first match is removed, other categories and the keys are unchanged, and the count drops by one |
| Catalogue.AddCategoryEffect | script.js:831-844 | a missing key is added with an empty list and a present one changes nothing; every lookup and the count are unchanged |
| Catalogue.DeleteCategoryEffect | script.js:846-859 | the key is gone, every other category is unchanged, and the count drops by that category's size |
| Catalogue.FlattenContents | script.js:861-870 | the flattened list has one entry per product, each tagged with its category's key, and nothing else |
| Catalogue.MergeDistinct | script.js:748 | merging a saved catalogue over the current one keeps the keys distinct |
| Catalogue.MergeKeys | script.js:748 | the merge keeps the current key order and adds the saved catalogue's new keys |
| Catalogue.MergeProducts | script.js:748 | after the merge a saved category's list wins, and other categories keep their current list |
| Catalogue.ProductDatabaseSync.constructor | script.js:732-739 | the sync holds the seed catalogue, with the saved catalogue merged over it when one is present, and keys stay distinct |
| Catalogue.ProductDatabaseSync.LoadFromStorage | script.js:742-754 | a saved catalogue is merged over the current one; with nothing saved the catalogue is unchanged |
| Catalogue.ProductDatabaseSync.AddProduct | script.js:765-784 | the catalogue becomes `ProductAdded` of the old one and keeps distinct keys |
| Catalogue.ProductDatabaseSync.Locate | script.js:787-789 | the `for...in` / `findIndex` scan finds what `FindProduct` specifies |
| Catalogue.ProductDatabaseSync.UpdateProduct | script.js:786-811 | returns true exactly when some category holds the id, and leaves the catalogue as `ProductUpdated` |
| Catalogue.ProductDatabaseSync.DeleteProduct | script.js:813-829 | returns true exactly when some category holds the id, and leaves the catalogue as `ProductDeleted` |
| Catalogue.ProductDatabaseSync.AddCategory | script.js:831-844 | returns true exactly when the key was missing, and adds it |
| Catalogue.ProductDatabaseSync.DeleteCategory | script.js:846-859 | returns true exactly when the key was present, and removes it |
| Catalogue.ProductDatabaseSync.GetAllProducts | script.js:861-870 | returns every product tagged with its key; the length is the sum of the category sizes |
| Catalogue.ProductDatabaseSync.GetProductsByCategory | script.js:872-874 | returns the category's list, or the empty list for a missing key |
| Catalogue.ProductDatabaseSync.GetCategories | script.js:876-878 | returns the keys in order |
| Showcase.DisplayNameFallback | script.js:1116-1153 | a category's display name is the key itself exactly when the key has no entry in the name table |
| Showcase.CategoriesToShow | script.js:1454-1467 | a group key expands to its member categories (four to nine of them); any other key shows only itself |
| Showcase.GroupMembersNamed | script.js:1456-1463 | every member of a group has a display name and is not itself a group |
| Showcase.LeadingProductsNest | script.js:1421-1424 | a larger limit shows more of the same leading products, and a limit no smaller than the category shows all of it |
| Showcase.GroupCardsContents | script.js:1469-1475 | a category page shows at most four products per member category, each one among the first four of its own category |
| Showcase.FeaturedPoolContents | script.js:1437-1444 | the featured pool takes at most the first two products of each category |
| Showcase.FeaturedShown | script.js:1447 | the featured grid shows twelve shuffled pool entries, or the whole pool when it is smaller, with no entry twice |
| Showcase.DisplayCategory | script.js:1452-1480 | a category page shows the empty-state message exactly when none of its categories has products; otherwise only its own categories' leading products |
| Showcase.DisplayFeatured | script.js:1435-1451 | the featured page shows at most twelve pool entries, and the empty-state message exactly when every category is empty |
| Chat.ReadMarkedEffect | user.js:984-994 | read-marking sets `read` on every message from the given side, leaves the other side's messages alone, and is idempotent |
| Chat.MarkRead | admin.js:1178-1184 | the loop's result equals `ReadMarked`, and its flag is set exactly when there was an unread message from that side |
| Chat.PostedEffect | user.js:907-927 | posting appends the message to the conversation with that key, or starts a new one at the end; other conversations are unchanged |
| Chat.UserSentEffect | user.js:900-939 | a customer's whitespace-only text changes nothing; otherwise the trimmed text is appended, unread, to the customer's conversation with its earlier messages and details kept, or starts a new conversation at the end; every other conversation is unchanged |
| Chat.AdminSentEffect | admin.js:1138-1170 | an admin message is appended exactly when a conversation is active, exists and the trimmed text is non-empty; that conversation keeps its key, customer details and earlier messages, and every other conversation is unchanged |
| Chat.ByRecencySorts | admin.js:1015-1022 | conversations are ordered by the time of their last message, most recent first (an empty one counts as time 0), as a permutation that keeps ties in their original order |
| Chat.UserBadge | user.js:1003-1025 | the customer's chat badge is decided exactly when the customer has a conversation |
| Chat.ReadingClearsUserBadge | user.js:1003-1025 | after the customer reads the admin's messages the badge is hidden |
| Portal.SignInMatch | user.js:205-231 | sign-in finds a user exactly when one matches both email and password, and what it finds matches both |
| Portal.SignInUnique | user.js:213 | with distinct emails, sign-in finds precisely the matching user |
| Portal.CheckSignUp | user.js:233-251 | sign-up is refused for mismatched passwords and, after that, for an email already in use |
| Portal.SignUpKeepsEmailsDistinct | user.js:253-270 | an accepted sign-up keeps emails distinct, and the new user can then sign in |
| Portal.SavedEffect | user.js:813-828 | saving writes the current user over the first stored record with its id; with no such record nothing changes |
| Portal.EntryAddedEffect | user.js:773-777 | adding a default entry clears the flag on every other entry; a non-default entry leaves them alone; at most one default is kept |
| Portal.ClearDefaults | user.js:773-775 | the loop clears every default flag and keeps everything else |
| Portal.EntriesWithoutEffect | user.js:1318-1343 | deleting an address or payment method removes exactly the entries with that id and keeps at most one default |
| Portal.WishlistWithoutEffect | user.js:1304-1311 | removing from the wishlist removes exactly the items with that id |
| Portal.NotificationTitle | user.js:1128-1140 | a kind outside the known eight is titled "Notification" |
| Portal.WithNoteEffect | user.js:1113-1121 | a new notification comes first among its user's, at most fifty of that user's are kept, and other users' notifications are unchanged in order |
| Portal.WelcomedOnce | user.js:1270-1290 | after initialisation the user has a welcome notification, and initialising again adds nothing |
| Portal.NotificationBadgeShows | user.js:1251-1268 | the badge is hidden at 0, reads "99+" above 99, and otherwise shows the decimal count in at most two digits |
| Portal.NoteReadEffect | user.js:1217-1229 | only the first notification with that id that belongs to the current user becomes read, and the unread count drops by one exactly when it was unread |
| Portal.AllNotesReadEffect | user.js:1231-1249 | every one of the user's notifications becomes read and no one else's changes |
| Portal.UserPortal.constructor | user.js:3-10 | the portal starts signed out over the stored users, notifications and chats |
| Portal.UserPortal.AddPersistentNotification | user.js:1096-1126 | the notification list becomes `Notified` of the old one for the current user |
| Portal.UserPortal.ShowNotification | user.js:1069-1094 | every toast also records a notification with the kind's default title |
| Portal.UserPortal.InitializeNotifications | user.js:1270-1282 | initialisation adds the welcome notification only when missing |
| Portal.UserPortal.Login | user.js:287-295 | login marks the user signed in and initialises notifications |
| Portal.UserPortal.Logout | user.js:297-305 | logout clears the current user and keeps the stored notifications |
| Portal.UserPortal.SignIn | user.js:205-231 | succeeds exactly when `SignInMatch` finds a user, who becomes current, with a welcome toast; otherwise only an error toast is recorded |
| Portal.UserPortal.SignUp | user.js:233-285 | a refused form leaves the users unchanged and records its error; an accepted one appends exactly one user and signs them in |
| Portal.UserPortal.SaveUserData | user.js:813-828 | the users become `Saved` of the old list and the current user |
| Portal.UserPortal.AddAddress | user.js:754-782 | a signed-in user's addresses follow `EntryAdded` and are saved with an "Address Added" notification; signed out, nothing changes |
| Portal.UserPortal.AddPaymentMethod | user.js:784-811 | the same for payment methods, with the first hyphen of the kind shown as a space |
| Portal.UserPortal.RemoveFromWishlist | user.js:1304-1311 | a signed-in user's wishlist loses the items with that id, and the change is saved |
| Portal.UserPortal.DeleteAddress | user.js:1318-1327 | a confirmed delete removes the address with that id and saves; otherwise nothing changes |
| Portal.UserPortal.DeletePayment | user.js:1334-1343 | a confirmed delete removes the payment method with that id and saves; otherwise nothing changes |
| Portal.UserPortal.MarkNotificationAsRead | user.js:1217-1229 | the notifications become `NoteRead` for the current user |
| Portal.UserPortal.MarkAllNotificationsRead | user.js:1231-1249 | the loop reads all of the current user's notifications and reports a change exactly when some were unread |
| Portal.UserPortal.SendMessage | user.js:900-939 | a signed-in customer's chat follows `UserSent` |
| Portal.UserPortal.MarkMessagesAsRead | user.js:980-1001 | the customer's conversation has its admin messages read; the result says whether that conversation exists and held an unread admin message |
| BackOffice.Dedupe | admin.js:851-861 | the duplicate-free list has the same members as its input, each once |
| BackOffice.SortStringsSorts | admin.js:864 | the sort leaves a duplicate-free list strictly ascending with the same members |
| BackOffice.AllCategoriesEffect | admin.js:817-867 | the category list is strictly ascending and holds exactly the predefined names and the existing ones |
| BackOffice.DisplayNameShape | admin.js:881-882 | formatting keeps the length, turns every hyphen into a space, upper-cases each lower-case letter that begins a word, and leaves every other character alone |
| BackOffice.DisplayNameExamples | admin.js:903-904 | "face-care" becomes "Face Care" and "tv-dvd" becomes "Tv Dvd" |
| BackOffice.SearchResultsEffect | admin.js:747-760 | the search keeps, in order, exactly the products whose name or category contains the term ignoring case; the empty term keeps everything |
| BackOffice.ByCategoryEffect | admin.js:762-777 | the empty category keeps everything; otherwise exactly the products of that category |
| BackOffice.CategoryCountAgrees | admin.js:644-650 | counting a category in the flattened catalogue gives the size of that category |
| BackOffice.ButtonArgument | admin.js:275-279 | the id a product button passes is always a string, equal to the id when the id is already one |
| BackOffice.NumericIdNotDeletable | admin.js:279 | a seed product with a number id is listed, yet the delete button cannot find it and leaves the catalogue unchanged |
| BackOffice.ListedProductsDeletable | script.js:813-829 | any listed product is found by its own id, and deleting it lowers the count by one |
| BackOffice.ButtonAgreesOnStringIds | admin.js:806 | for string ids the button path and the direct delete agree |
| BackOffice.ProductReplacedEffect | admin.js:588-597 | the fallback update replaces the first product with that id at its index and nothing else; with no match nothing changes |
| BackOffice.ProductsWithoutEffect | admin.js:613-616 | the fallback delete keeps exactly the products with another id |
| BackOffice.SelectingClearsConversation | admin.js:1067-1085 | selecting a conversation reads its user messages, and the badge stays only if another conversation has unread messages |
| BackOffice.AdminPortal.constructor | admin.js:3-16 | the portal's products come from the sync when present and from the saved list otherwise; it is signed in exactly when the stored `adminLoggedIn` flag is `'true'` (`checkAuth`, admin.js:74-79) |
| BackOffice.AdminPortal.HandleLogin | admin.js:81-92 | login succeeds exactly for the user `admin` with the password `donkomi2024`; otherwise an error toast |
| BackOffice.AdminPortal.Logout | admin.js:101-107 | logout clears the session |
| BackOffice.AdminPortal.CreateAndSaveProduct | admin.js:425-461 | with the sync the product is added to the catalogue; without it the product is appended to the local list |
| BackOffice.AdminPortal.AddCategory | admin.js:463-496 | with the sync the key is added when missing, and the toast says whether it already existed; without it a category record is appended |
| BackOffice.AdminPortal.SaveUpdatedProduct | admin.js:550-601 | the sync path updates the catalogue; the fallback replaces the product at its index; "Product not found!" exactly when nothing matched |
| BackOffice.AdminPortal.DeleteProduct | admin.js:603-621 | an unconfirmed delete changes nothing; a confirmed one deletes through the sync or filters the local list |
| BackOffice.AdminPortal.DeleteCategory | admin.js:623-642 | an unconfirmed delete changes nothing; a confirmed one deletes through the sync or filters the local records |
| BackOffice.AdminPortal.GetProductCountByCategory | admin.js:644-650 | the count is the number of listed products in that category, and with the sync it is that category's size |
| BackOffice.AdminPortal.GetAllCategories | admin.js:817-867 | the list is `AllCategories` over the sync keys, or over the local record names |
| BackOffice.AdminPortal.FilterProducts | admin.js:747-760 | the shown products are the search results over the listed ones |
| BackOffice.AdminPortal.FilterProductsByCategory | admin.js:762-777 | the shown products are the category filter over the listed ones |
| BackOffice.AdminPortal.MarkMessagesAsRead | admin.js:1172-1189 | the conversation's user messages become read and nothing else changes |
| BackOffice.AdminPortal.UpdateMessageBadge | admin.js:1215-1229 | the badge is shown exactly when some conversation has an unread user message |
| BackOffice.AdminPortal.SelectConversation | admin.js:1067-1085 | the conversation becomes active, its user messages read, and the badge is recomputed |
| BackOffice.AdminPortal.LoadConversations | admin.js:1015-1064 | the list is ordered by recency; with none active, the first one is selected |
| BackOffice.AdminPortal.SendAdminMessage | admin.js:1138-1170 | the chats follow `AdminSent` for the active conversation |
| Common.TrimEmptyIffBlank | user.js:904 | trimmed text is empty exactly when every character is JavaScript white space |
| Common.Includes | admin.js:756-757 | `includes` holds exactly when the needle occurs at some position |
| Common.ReplaceFirst | user.js:810 | a string pattern in `replace` changes only the first occurrence |
| Common.NatToStringRoundTrip | user.js:1262 | the decimal text of a count reads back as that count |
| Common.IndexWhere | admin.js:589 | `findIndex` gives the first accepted position, or -1 exactly when there is none |
| Common.TimeAgoBuckets | user.js:1202-1215 | "Just now" under a minute, then whole minutes under an hour, hours under a day, days under a week, and a calendar date after that |

## Left out

- DOM rendering: HTML templates, modals, scrolling, animations, click handlers and toasts on screen. A toast is modelled only as the message and kind it would show, or as the notification it records.
- Storage encoding: `localStorage` / `sessionStorage` JSON parsing and writing are left out. Saved contents are parameters (`Option` when absent) and writes are the new field values. `storage` events and sharing between the portals are left out. A malformed saved value is treated as absent. In the source only `ProductDatabaseSync.loadFromStorage` (script.js:745-753) and the user portal's `checkAuth` (user.js:164-173) catch a parse error. `Cart.loadFromStorage` (script.js:350), the admin portal's `loadData` (admin.js:115, 120) and the user portal's account readers (user.js:212, 244) call `JSON.parse` unguarded and throw on such a value, which the model does not capture.
- Transport: WebSocket and express transport, `readyState`, `server.listen` and shutdown are left out. Whether a connection is open is the parameter `open`.
- Timers and uploads: polling with `setTimeout` / `setInterval`, `FileReader` uploads and the image resolution in `saveUpdatedProduct` (admin.js:564-577) are asynchronous I/O. Image fields are not modelled.
- Clock and randomness: `Date.now`, `toISOString`, generated ids and the `Math.random` shuffle are parameters. The shuffle is an arbitrary permutation `order`.
- Common.TimeAgoBuckets: the text of the calendar-date bucket (`toLocaleDateString`) is not modelled. Only the bucket is.
- Numbers: prices are integers. Floating point, `parseFloat` and `toFixed` are not modelled.
- Text: `toLowerCase` / `toUpperCase` are modelled on ASCII letters only, and `.sort()` compares Dafny characters rather than UTF-16 code units.
- JavaScript object semantics: integer-like keys that JavaScript enumerates first, and keys inherited from `Object.prototype`, are not modelled. A `null`, number or boolean payload spreads to no fields. String and array payloads, which JavaScript spreads into index-keyed fields (`"0"`, `"1"`, ...), are not modelled.
- Showcase.DisplayFeatured: the `categoryKey` property that `displayProducts` writes onto each shared product object is not modelled. Each card carries its category instead.
- Chat: a conversation stored without a `messages` array is not modelled. Every conversation has a message list.
- BackOffice.AdminPortal.SendAdminMessage: the reload of the conversation list after sending is not modelled. It changes only the display.
- Accounts: the orders, reviews and avatar of an account, profile and photo updates, "remember me" and the session record are not modelled.
- Checkout: the checkout modal, `processOrder` and the order confirmation are not modelled. Only the empty-cart refusal is.
- Catalogue: the seed product data is not modelled, apart from the one seed product used in the finding below.
- Admin records: the orders dashboard of the admin portal is not modelled, and neither is `dateAdded` on products and categories.

## Findings

| source | as written | input that shows it | evidently intended | confidence | as-written member | corrected member |
|---|---|---|---|---|---|---|
| admin.js:279 | The product list's delete button calls `deleteProduct('${product.id}')`, which turns the id into text. `deleteProduct` of the catalogue sync (script.js:813-829) then looks for it with `===`. The edit button quotes the id the same way, but `editProduct` finds the product with `==` (admin.js:503), so the edit form still opens; saving fails for a different reason: the id comes back from the form's `productId` field as text (admin.js:514, 534) and `updateProduct` of the sync (script.js:786-788) also uses `===`. | The seed product `{ id: 1, name: "Vitamin C 1000mg Tablets" }` in `vitamins` (script.js:539). Its delete button passes `"1"`, which no stored id equals, so the product stays. The same happens on admin.js:806. | A listed product can be deleted from its button: the id reaches `deleteProduct` with the type it is stored with (and, for editing, reaches `updateProduct` with that type too). | not executed | BackOffice.NumericIdNotDeletable | BackOffice.ListedProductsDeletable |

=== FILE: admin.dfy ===
/** The administrator's back office: sign-in, the category list offered in
    the product forms, display names, product search and filters, the
    product and category operations (through the shared catalogue when it
    is present, on the portal's own lists otherwise) and the
    administrator's side of the chat. */
module BackOffice {
  import opened Common
  import C = Catalogue
  import Chat

  // ------------------------------------------------------------ sign-in

  const AdminUsername: string := "admin"
  const AdminPassword: string := "donkomi2024"

  // ----------------------------------------------------- the category list

  /** The category keys always offered, whatever the catalogue holds. */
  const Predefined: seq<string> := [
    "vitamins", "fragrances", "face-care", "hair-beauty", "body-care", "sexual-wellness", "oral-care",
    "makeup", "tools-accessories", "tv-dvd", "audio-music", "laptops-computers", "electronics-accessories",
    "computer-accessories", "networking", "printers-scanners", "security-surveillance", "computer-hardware",
    "vehicle-parts", "cars", "motorcycles", "trucks-trailers", "buses", "construction-machinery",
    "watercraft", "food-beverages", "farm-machinery", "feeds-supplements", "farm-animals"]

  predicate NoDuplicates<T(==)>(s: seq<T>)
  {
    forall i, j :: 0 <= i < j < |s| ==> s[i] != s[j]
  }

  /** The set of a list's elements. */
  function Members<T>(s: seq<T>): set<T>
  {
    set x | x in s
  }

  /** `[...new Set(s)]`: the first occurrence of each element, in order. */
  function Dedupe<T(==)>(s: seq<T>): (r: seq<T>)
    ensures NoDuplicates(r)
    ensures Members(r) == Members(s)
  {
    if s == [] then []
    else
      var init, x := s[..|s| - 1], s[|s| - 1];
      var d := Dedupe(init);
      assert s == init + [x];
      assert Members(s) == Members(init) + {x};
      assert Members(d + [x]) == Members(d) + {x};
      if x in d then d else d + [x]
  }

  /** `Array.prototype.sort()` without a comparator on strings: code-unit
      order, a proper prefix first. */
  predicate LexLess(a: string, b: string)
  {
    if a == [] then b != []
    else if b == [] then false
    else a[0] < b[0] || (a[0] == b[0] && LexLess(a[1..], b[1..]))
  }

  lemma {:induction false} LexIrreflexive(a: string)
    ensures !LexLess(a, a)
  {
    if a != [] {
      LexIrreflexive(a[1..]);
    }
  }

  lemma {:induction false} LexTotal(a: string, b: string)
    requires a != b
    ensures LexLess(a, b) || LexLess(b, a)
  {
    if a != [] && b != [] && a[0] == b[0] {
      assert a == [a[0]] + a[1..] && b == [b[0]] + b[1..];
      LexTotal(a[1..], b[1..]);
    }
  }

  lemma {:induction false} LexTransitive(a: string, b: string, c: string)
    requires LexLess(a, b) && LexLess(b, c)
    ensures LexLess(a, c)
  {
    if a != [] && b != [] && c != [] && a[0] == b[0] && b[0] == c[0] {
      LexTransitive(a[1..], b[1..], c[1..]);
    }
  }

  predicate StrictlySorted(s: seq<string>)
  {
    forall i, j :: 0 <= i < j < |s| ==> LexLess(s[i], s[j])
  }

  /** Places `x` before the first element that does not sort below it. */
  function Insert(x: string, s: seq<string>): seq<string>
  {
    if s == [] || !LexLess(s[0], x) then [x] + s else [s[0]] + Insert(x, s[1..])
  }

  /** Inserting a new element into a strictly sorted list keeps it strictly
      sorted and adds exactly that element. */
  lemma {:induction false} InsertSorted(x: string, s: seq<string>)
    requires StrictlySorted(s) && x !in s
    ensures StrictlySorted(Insert(x, s))
    ensures Members(Insert(x, s)) == Members(s) + {x}
    ensures |Insert(x, s)| == |s| + 1
  {
    if s == [] {
    } else if !LexLess(s[0], x) {
      LexTotal(x, s[0]);
      forall j | 0 <= j < |s| ensures LexLess(x, s[j]) {
        if j > 0 {
          LexTransitive(x, s[0], s[j]);
        }
      }
      assert s == [s[0]] + s[1..];
    } else {
      var rest := Insert(x, s[1..]);
      InsertSorted(x, s[1..]);
      assert s == [s[0]] + s[1..];
      var r := [s[0]] + rest;
      forall i, j | 0 <= i < j < |r| ensures LexLess(r[i], r[j]) {
        if i == 0 {
          assert r[j] in Members(rest);
          if r[j] != x {
            var k :| 0 <= k < |s[1..]| && s[1..][k] == r[j];
            assert s[k + 1] == r[j];
          }
        }
      }
    }
  }

  /** An insertion sort of a duplicate-free list. */
  function SortStrings(s: seq<string>): seq<string>
  {
    if s == [] then [] else Insert(s[|s| - 1], SortStrings(s[..|s| - 1]))
  }

  /** Sorting a duplicate-free list gives the same elements in strictly
      increasing order. */
  lemma {:induction false} SortStringsSorts(s: seq<string>)
    requires NoDuplicates(s)
    ensures StrictlySorted(SortStrings(s))
    ensures Members(SortStrings(s)) == Members(s)
    ensures |SortStrings(s)| == |s|
  {
    if s != [] {
      var init, x := s[..|s| - 1], s[|s| - 1];
      SortStringsSorts(init);
      assert s == init + [x];
      forall k | 0 <= k < |init| ensures init[k] != x {
        assert s[k] == init[k];
      }
      assert x !in Members(SortStrings(init));
      InsertSorted(x, SortStrings(init));
      assert Members(s) == Members(init) + {x};
    }
  }

  /** `getAllCategories`: the predefined keys and the existing ones, without
      duplicates, sorted. */
  function AllCategories(existing: seq<string>): seq<string>
  {
    SortStrings(Dedupe(Predefined + existing))
  }

  /** The list is strictly sorted (so duplicate-free) and holds exactly the
      predefined and the existing categories. */
  lemma AllCategoriesEffect(existing: seq<string>)
    ensures StrictlySorted(AllCategories(existing))
    ensures Members(AllCategories(existing)) == Members(Predefined) + Members(existing)
  {
    var d := Dedupe(Predefined + existing);
    SortStringsSorts(d);
    assert Members(Predefined + existing) == Members(Predefined) + Members(existing);
  }

  // ---------------------------------------------------------- display names

  /** A character `\w` matches. */
  predicate WordChar(c: char)
  {
    'a' <= c <= 'z' || 'A' <= c <= 'Z' || '0' <= c <= '9' || c == '_'
  }

  function UpperChar(c: char): char
  {
    if 'a' <= c <= 'z' then (c as int - 32) as char else c
  }

  /** `replace(/-/g, ' ')`. */
  function Dehyphenated(s: string): (r: string)
    ensures |r| == |s|
  {
    seq(|s|, i requires 0 <= i < |s| => if s[i] == '-' then ' ' else s[i])
  }

  /** Position `i` is matched by `\b\w`: a word character not preceded by one. */
  predicate StartsWord(s: string, i: int)
  {
    0 <= i < |s| && WordChar(s[i]) && (i == 0 || !WordChar(s[i - 1]))
  }

  /** `replace(/\b\w/g, l => l.toUpperCase())`. */
  function Capitalized(s: string): (r: string)
    ensures |r| == |s|
  {
    seq(|s|, i requires 0 <= i < |s| => if StartsWord(s, i) then UpperChar(s[i]) else s[i])
  }

  /** The label the category selects show for a category key. */
  function DisplayName(key: string): string
  {
    Capitalized(Dehyphenated(key))
  }

  /** The display name at one position. */
  lemma DisplayNameAt(key: string, i: nat)
    requires i < |key|
    ensures var r := DisplayName(key);
      && r[i] != '-'
      && (key[i] == '-' ==> r[i] == ' ')
      && (key[i] != '-' ==> LowerChar(r[i]) == LowerChar(key[i]))
      && (StartsWord(key, i) ==> !('a' <= r[i] <= 'z'))
      && (key[i] != '-' && !StartsWord(key, i) ==> r[i] == key[i])
  {
    var d := Dehyphenated(key);
    assert d[i] == if key[i] == '-' then ' ' else key[i];
    if i > 0 {
      assert d[i - 1] == if key[i - 1] == '-' then ' ' else key[i - 1];
    }
    assert StartsWord(d, i) <==> StartsWord(key, i);
  }

  /** No hyphen survives; every hyphen became a space; characters change
      only in case; a character that starts a word (at the start or after a
      hyphen, a space or other non-word character) is not a lower-case
      letter, and one after a hyphen is upper-case; every other character
      is kept. */
  lemma DisplayNameShape(key: string)
    ensures var r := DisplayName(key);
      && |r| == |key|
      && (forall i :: 0 <= i < |r| ==> r[i] != '-')
      && (forall i :: 0 <= i < |key| && key[i] == '-' ==> r[i] == ' ')
      && (forall i :: 0 <= i < |key| && key[i] != '-' ==> LowerChar(r[i]) == LowerChar(key[i]))
      && (forall i :: StartsWord(key, i) ==> !('a' <= r[i] <= 'z'))
      && (forall i :: 0 < i < |key| && key[i - 1] == '-' && 'a' <= key[i] <= 'z' ==> 'A' <= r[i] <= 'Z')
      && (forall i :: 0 <= i < |key| && key[i] != '-' && !StartsWord(key, i) ==> r[i] == key[i])
  {
    var r := DisplayName(key);
    forall i | 0 <= i < |key|
      ensures r[i] != '-'
      ensures key[i] == '-' ==> r[i] == ' '
      ensures key[i] != '-' ==> LowerChar(r[i]) == LowerChar(key[i])
      ensures StartsWord(key, i) ==> !('a' <= r[i] <= 'z')
      ensures i > 0 && key[i - 1] == '-' && 'a' <= key[i] <= 'z' ==> 'A' <= r[i] <= 'Z'
      ensures key[i] != '-' && !StartsWord(key, i) ==> r[i] == key[i]
    {
      DisplayNameAt(key, i);
      if i > 0 && key[i - 1] == '-' && 'a' <= key[i] <= 'z' {
        assert StartsWord(key, i);
      }
    }
  }

  /** Two keys as the selects show them. */
  lemma DisplayNameExamples()
    ensures DisplayName("face-care") == "Face Care"
    ensures DisplayName("tv-dvd") == "Tv Dvd"
  {
    assert StartsWord(Dehyphenated("face-care"), 5);
    assert StartsWord(Dehyphenated("tv-dvd"), 3);
  }

  // ---------------------------------------------------------- product search

  function Term(term: string): C.Product -> bool
  {
    (p: C.Product) => Includes(Lower(p.name), Lower(term)) || Includes(Lower(p.category), Lower(term))
  }

  /** `filterProducts(term)`: the products whose name or category contains
      the term, ignoring case. */
  function SearchResults(products: seq<C.Product>, term: string): seq<C.Product>
  {
    Filter(products, Term(term))
  }

  /** A product is found exactly when its name or category contains the term
      case-insensitively; results keep the catalogue's order (searching a
      concatenation concatenates the results); an empty term finds everything. */
  lemma SearchResultsEffect(products: seq<C.Product>, term: string, a: seq<C.Product>, b: seq<C.Product>)
    ensures forall p :: p in SearchResults(products, term) <==>
      p in products && ((exists i :: OccursAt(Lower(p.name), Lower(term), i)) ||
                        (exists i :: OccursAt(Lower(p.category), Lower(term), i)))
    ensures SearchResults(a + b, term) == SearchResults(a, term) + SearchResults(b, term)
    ensures term == "" ==> SearchResults(products, term) == products
  {
    forall p ensures p in SearchResults(products, term) <==> p in products && Term(term)(p) {
      FilterMembers(products, Term(term), p);
    }
    FilterConcat(a, b, Term(term));
    if term == "" {
      forall p | p in products ensures Term(term)(p) {
        assert OccursAt(Lower(p.name), Lower(term), 0);
      }
      FilterKeepsAll(products, Term(term));
    }
  }

  function CategoryIs(category: string): C.Product -> bool
  {
    (p: C.Product) => p.category == category
  }

  /** `filterProductsByCategory(category)`: an empty choice shows every
      product, any other the products with exactly that category. */
  function ByCategory(products: seq<C.Product>, category: string): seq<C.Product>
  {
    if category == "" then products else Filter(products, CategoryIs(category))
  }

  lemma ByCategoryEffect(products: seq<C.Product>, category: string)
    ensures category == "" ==> ByCategory(products, category) == products
    ensures category != "" ==>
      forall p :: p in ByCategory(products, category) <==> p in products && p.category == category
  {
    if category != "" {
      forall p ensures p in ByCategory(products, category) <==> p in products && p.category == category {
        FilterMembers(products, CategoryIs(category), p);
      }
    }
  }

  /** A category's tagged products all carry its key. */
  lemma TaggedByCategory(shelf: C.Shelf, key: string)
    ensures Filter(C.Tagged(shelf), CategoryIs(key)) == if shelf.key == key then C.Tagged(shelf) else []
  {
    if shelf.key == key {
      FilterKeepsAll(C.Tagged(shelf), CategoryIs(key));
    } else {
      FilterKeepsNone(C.Tagged(shelf), CategoryIs(key));
    }
  }

  /** No flattened product carries a key the catalogue does not have. */
  lemma FlattenWithoutKey(db: seq<C.Shelf>, key: string)
    requires key !in C.Keys(db)
    ensures Filter(C.Flatten(db), CategoryIs(key)) == []
  {
    forall p | p in C.Flatten(db) ensures p.category != key {
      C.FlattenContents(db);
      var c, j :| 0 <= c < |db| && 0 <= j < |db[c].products| && p == db[c].products[j].(category := db[c].key);
      assert C.Keys(db)[c] == db[c].key;
    }
    FilterKeepsNone(C.Flatten(db), CategoryIs(key));
  }

  /** Dropping the last category does not change another key's products. */
  lemma ProductsOfInit(db: seq<C.Shelf>, key: string)
    requires C.DistinctKeys(db) && db != [] && db[|db| - 1].key != key
    ensures C.ProductsOf(db, key) == C.ProductsOf(db[..|db| - 1], key)
  {
    var init := db[..|db| - 1];
    if key in C.Keys(init) {
      var i :| 0 <= i < |init| && C.Keys(init)[i] == key;
      C.ProductsAt(init, i);
      C.ProductsAt(db, i);
    } else {
      forall i | 0 <= i < |db| ensures C.Keys(db)[i] != key {
        if i < |init| {
          assert C.Keys(init)[i] == db[i].key;
        }
      }
      C.ProductsAbsent(init, key);
      C.ProductsAbsent(db, key);
    }
  }

  /** Counting a category through the catalogue agrees with counting the
      flattened list by category, so both branches of
      `getProductCountByCategory` mean the same number. */
  lemma {:induction false} CategoryCountAgrees(db: seq<C.Shelf>, key: string)
    requires C.DistinctKeys(db)
    ensures |Filter(C.Flatten(db), CategoryIs(key))| == |C.ProductsOf(db, key)|
  {
    if db != [] {
      var init, last := db[..|db| - 1], db[|db| - 1];
      assert C.DistinctKeys(init);
      FilterConcat(C.Flatten(init), C.Tagged(last), CategoryIs(key));
      TaggedByCategory(last, key);
      if last.key == key {
        forall i | 0 <= i < |init| ensures C.Keys(init)[i] != key {
          assert db[i].key != db[|db| - 1].key;
        }
        FlattenWithoutKey(init, key);
        C.ProductsAt(db, |db| - 1);
      } else {
        CategoryCountAgrees(init, key);
        ProductsOfInit(db, key);
      }
    }
  }

  // ------------------------------------------- product ids from the buttons

  /** What a button built with `'${product.id}'` hands back to
      `editProduct` / `deleteProduct`: the id converted to text. */
  function ButtonArgument(id: Value): (r: Value)
    ensures r.Str?
    ensures id.Str? ==> r == id
  {
    match id
    case Str(s) => Str(s)
    case Num(n) => Str(if n < 0 then "-" + NatToString(-n) else NatToString(n))
    case Undefined => Str("undefined")
    case Null => Str("null")
    case Bool(b) => Str(if b then "true" else "false")
    case Ref(_) => Str("[object Object]")
  }

  /** The delete button as written: the catalogue is searched, with `===`,
      for the id's text. */
  function DeletedFromButton(db: seq<C.Shelf>, p: C.Product): seq<C.Shelf>
  {
    C.ProductDeleted(db, ButtonArgument(p.id))
  }

  /** The first seed product, numeric id 1 in "vitamins". */
  const SeedVitamin: C.Product := C.Product(Num(1), "Vitamin C 1000mg Tablets", "vitamins", map[])

  /** As written, a listed product with a numeric id cannot be deleted: the
      catalogue holds `1`, the button passes `"1"`, and nothing matches. */
  lemma NumericIdNotDeletable()
    ensures var db := [C.Shelf("vitamins", [SeedVitamin])];
      && SeedVitamin in C.Flatten(db)
      && C.FindProduct(db, ButtonArgument(SeedVitamin.id)).None?
      && DeletedFromButton(db, SeedVitamin) == db
  {
    var db := [C.Shelf("vitamins", [SeedVitamin])];
    assert ButtonArgument(SeedVitamin.id) == Str("1");
    assert C.Flatten(db) == C.Flatten([]) + C.Tagged(db[0]);
    assert C.Tagged(db[0])[0] == SeedVitamin;
  }

  /** Passing the product's own id instead finds every listed product, and
      deleting it removes exactly one product. */
  lemma ListedProductsDeletable(db: seq<C.Shelf>, p: C.Product)
    requires C.DistinctKeys(db) && p in C.Flatten(db)
    ensures C.FindProduct(db, p.id).Some?
    ensures C.ProductCount(C.ProductDeleted(db, p.id)) == C.ProductCount(db) - 1
  {
    C.FlattenContents(db);
    var c, j :| 0 <= c < |db| && 0 <= j < |db[c].products| && p == db[c].products[j].(category := db[c].key);
    assert db[c].products[j].id == p.id;
    C.DeleteProductEffect(db, p.id);
  }

  /** The two agree whenever the id is already a string, as for products the
      back office creates. */
  lemma ButtonAgreesOnStringIds(db: seq<C.Shelf>, p: C.Product)
    requires p.id.Str?
    ensures DeletedFromButton(db, p) == C.ProductDeleted(db, p.id)
  {
  }

  // ---------------------------------------------------- the portal's own lists

  /** A record of the portal's own category list (`donkomi-categories`). */
  datatype CategoryRecord = CategoryRecord(id: string, name: string)

  /** A toast: its text and its kind. */
  datatype Toast = Toast(message: string, kind: string)

  function Names(categories: seq<CategoryRecord>): (r: seq<string>)
    ensures |r| == |categories|
  {
    seq(|categories|, i requires 0 <= i < |categories| => categories[i].name)
  }

  function ProductIdIsNot(pid: Value): C.Product -> bool
  {
    (p: C.Product) => p.id != pid
  }

  function RecordIdIsNot(id: string): CategoryRecord -> bool
  {
    (c: CategoryRecord) => c.id != id
  }

  /** The portal's own list after `saveUpdatedProduct`: the first product
      with the id is replaced, and nothing changes when there is none. */
  function ProductReplaced(products: seq<C.Product>, pid: Value, updated: C.Product): seq<C.Product>
  {
    match FindFirst(products, C.IdIs(pid))
    case None => products
    case Some(i) => products[i := updated]
  }

  /** Replacing touches only the found position, and a replacement that
      keeps the id is found there again. */
  lemma ProductReplacedEffect(products: seq<C.Product>, pid: Value, updated: C.Product)
    ensures var r := ProductReplaced(products, pid, updated);
      match FindFirst(products, C.IdIs(pid))
      case None => r == products
      case Some(i) =>
        && |r| == |products| && r[i] == updated
        && (forall j :: 0 <= j < |products| && j != i ==> r[j] == products[j])
        && (updated.id == pid ==> FindFirst(r, C.IdIs(pid)) == Some(i))
  {
    match FindFirst(products, C.IdIs(pid))
    case None =>
    case Some(i) =>
      if updated.id == pid {
        FindFirstIs(products[i := updated], C.IdIs(pid), i);
      }
  }

  /** The portal's own list after `deleteProduct`: no product with the id is left. */
  lemma ProductsWithoutEffect(products: seq<C.Product>, pid: Value)
    ensures forall p :: p in Filter(products, ProductIdIsNot(pid)) <==> p in products && p.id != pid
  {
    forall p ensures p in Filter(products, ProductIdIsNot(pid)) <==> p in products && p.id != pid {
      FilterMembers(products, ProductIdIsNot(pid), p);
    }
  }

  /** Opening a conversation leaves it without unread customer messages, so
      the administrator's badge then depends on the other conversations only. */
  lemma SelectingClearsConversation(chats: seq<Chat.Conversation>, key: string)
    requires Chat.Find(chats, key).Some?
    ensures var i := Chat.Find(chats, key).value;
      var r := Chat.ConversationRead(chats, key, Chat.User);
      && !Chat.HasUnreadFrom(r[i].messages, Chat.User)
      && (Chat.AdminBadgeShown(r) <==>
            exists j :: 0 <= j < |chats| && j != i && Chat.HasUnreadFrom(chats[j].messages, Chat.User))
  {
    var i := Chat.Find(chats, key).value;
    Chat.ReadMarkedEffect(chats[i].messages, Chat.User);
    var r := Chat.ConversationRead(chats, key, Chat.User);
    assert forall j :: 0 <= j < |chats| && j != i ==> r[j] == chats[j];
  }

  // ---------------------------------------------------------------- portal

  class AdminPortal {
    var isLoggedIn: bool
    var products: seq<C.Product>
    var categories: seq<CategoryRecord>
    var chats: seq<Chat.Conversation>
    var activeConversation: Option<string>
    /** `window.productSync`, or null when the storefront script is absent. */
    const sync: C.ProductDatabaseSync?

    ghost predicate Valid()
      reads this, sync
    {
      sync != null ==> sync.Valid()
    }

    /** The products the back office lists: the shared catalogue flattened,
      or the portal's own list. */
    function Listed(): seq<C.Product>
      reads this, sync
    {
      if sync != null then C.Flatten(sync.shelves) else products
    }

    /** `constructor`, `loadData` and `checkAuth`: products taken from the
      shared catalogue when present, otherwise from the saved list; signed in
      exactly when the stored `adminLoggedIn` flag is `'true'`. */
    constructor (sync: C.ProductDatabaseSync?, savedProducts: seq<C.Product>, savedCategories: seq<CategoryRecord>,
                 chats: seq<Chat.Conversation>, adminLoggedIn: bool)
      requires sync != null ==> sync.Valid()
      ensures Valid() && this.sync == sync && isLoggedIn == adminLoggedIn && activeConversation.None?
      ensures products == (if sync != null then C.Flatten(sync.shelves) else savedProducts)
      ensures categories == savedCategories && this.chats == chats
    {
      var loaded := savedProducts;
      if sync != null {
        loaded := sync.GetAllProducts();
      }
      this.sync := sync;
      isLoggedIn := adminLoggedIn;
      products := loaded;
      categories := savedCategories;
      this.chats := chats;
      activeConversation := None;
    }

    /** `handleLogin`: only the fixed administrator account signs in. */
    method HandleLogin(username: string, password: string) returns (toast: Option<Toast>)
      modifies this`isLoggedIn
      ensures username == AdminUsername && password == AdminPassword ==> isLoggedIn && toast.None?
      ensures !(username == AdminUsername && password == AdminPassword) ==>
        isLoggedIn == old(isLoggedIn) && toast == Some(Toast("Invalid credentials", "error"))
    {
      if username == AdminUsername && password == AdminPassword {
        isLoggedIn := true;
        toast := None;
      } else {
        toast := Some(Toast("Invalid credentials", "error"));
      }
    }

    /** `logout`. */
    method Logout()
      modifies this`isLoggedIn
      ensures !isLoggedIn
    {
      isLoggedIn := false;
    }

    /** `createAndSaveProduct`: into the shared catalogue, or appended to the
      portal's own list. */
    method CreateAndSaveProduct(product: C.Product, freshId: string) returns (toast: Toast)
      requires Valid()
      modifies this`products, sync
      ensures Valid()
      ensures isLoggedIn == old(isLoggedIn) && activeConversation == old(activeConversation) && chats == old(chats)
      ensures sync != null ==> sync.shelves == C.ProductAdded(old(sync.shelves), product, freshId) && products == old(products)
      ensures sync == null ==> products == old(products) + [product]
      ensures categories == old(categories) && chats == old(chats)
      ensures toast == Toast("Product added successfully!", "success")
    {
      if sync != null {
        sync.AddProduct(product, freshId);
      } else {
        products := products + [product];
      }
      toast := Toast("Product added successfully!", "success");
    }

    /** `addCategory`: the shared catalogue refuses an existing key; the
      portal's own list takes any record, duplicates included. */
    method AddCategory(id: string, name: string) returns (toast: Toast)
      requires Valid()
      modifies this`categories, sync
      ensures Valid()
      ensures isLoggedIn == old(isLoggedIn) && activeConversation == old(activeConversation) && chats == old(chats)
      ensures sync != null ==>
        && sync.shelves == C.CategoryAdded(old(sync.shelves), name)
        && categories == old(categories)
        && toast == (if name !in C.Keys(old(sync.shelves)) then Toast("Category added successfully!", "success")
                     else Toast("Category already exists!", "error"))
      ensures sync == null ==>
        categories == old(categories) + [CategoryRecord(id, name)] && toast == Toast("Category added successfully!", "success")
      ensures products == old(products)
    {
      if sync != null {
        var added := sync.AddCategory(name);
        toast := if added then Toast("Category added successfully!", "success") else Toast("Category already exists!", "error");
      } else {
        categories := categories + [CategoryRecord(id, name)];
        toast := Toast("Category added successfully!", "success");
      }
    }

    /** `saveUpdatedProduct`: the record takes the edited id; it replaces the
      product with that id in the shared catalogue (moving it when its
      category changed) or in the portal's own list. */
    method SaveUpdatedProduct(productId: Value, edited: C.Product) returns (toast: Toast)
      requires Valid()
      modifies this`products, sync
      ensures Valid()
      ensures isLoggedIn == old(isLoggedIn) && activeConversation == old(activeConversation) && chats == old(chats)
      ensures categories == old(categories)
      ensures sync != null ==>
        && sync.shelves == C.ProductUpdated(old(sync.shelves), productId, edited.(id := productId))
        && products == old(products)
        && (toast.kind == "success" <==> C.FindProduct(old(sync.shelves), productId).Some?)
      ensures sync == null ==>
        && products == ProductReplaced(old(products), productId, edited.(id := productId))
        && (toast.kind == "success" <==> FindFirst(old(products), C.IdIs(productId)).Some?)
      ensures toast == Toast("Product updated successfully!", "success") || toast == Toast("Product not found!", "error")
    {
      var updated := edited.(id := productId);
      var found: bool;
      if sync != null {
        found := sync.UpdateProduct(productId, updated);
      } else {
        var i := IndexWhere(products, C.IdIs(productId));
        found := i >= 0;
        if found {
          products := products[i := updated];
        }
      }
      toast := if found then Toast("Product updated successfully!", "success") else Toast("Product not found!", "error");
    }

    /** `deleteProduct`; `confirmed` is the answer to the confirmation dialog.
      The portal's own list reports success even when nothing matched. */
    method DeleteProduct(productId: Value, confirmed: bool) returns (toast: Option<Toast>)
      requires Valid()
      modifies this`products, sync
      ensures Valid()
      ensures isLoggedIn == old(isLoggedIn) && activeConversation == old(activeConversation) && chats == old(chats)
      ensures categories == old(categories)
      ensures !confirmed ==> toast.None? && products == old(products) && (sync != null ==> sync.shelves == old(sync.shelves))
      ensures confirmed && sync != null ==>
        && sync.shelves == C.ProductDeleted(old(sync.shelves), productId)
        && products == old(products)
        && toast == Some(if C.FindProduct(old(sync.shelves), productId).Some? then Toast("Product deleted successfully!", "success")
                         else Toast("Product not found!", "error"))
      ensures confirmed && sync == null ==>
        products == Filter(old(products), ProductIdIsNot(productId)) && toast == Some(Toast("Product deleted successfully!", "success"))
    {
      if !confirmed {
        return None;
      }
      if sync != null {
        var found := sync.DeleteProduct(productId);
        toast := Some(if found then Toast("Product deleted successfully!", "success") else Toast("Product not found!", "error"));
      } else {
        products := Filter(products, ProductIdIsNot(productId));
        toast := Some(Toast("Product deleted successfully!", "success"));
      }
    }

    /** `deleteCategory`: by key in the shared catalogue, by record id in the
      portal's own list. */
    method DeleteCategory(categoryId: string, confirmed: bool) returns (toast: Option<Toast>)
      requires Valid()
      modifies this`categories, sync
      ensures Valid()
      ensures isLoggedIn == old(isLoggedIn) && activeConversation == old(activeConversation) && chats == old(chats)
      ensures products == old(products)
      ensures !confirmed ==> toast.None? && categories == old(categories) && (sync != null ==> sync.shelves == old(sync.shelves))
      ensures confirmed && sync != null ==>
        && sync.shelves == C.CategoryDeleted(old(sync.shelves), categoryId)
        && categories == old(categories)
        && toast == Some(if categoryId in C.Keys(old(sync.shelves)) then Toast("Category deleted successfully!", "success")
                         else Toast("Category not found!", "error"))
      ensures confirmed && sync == null ==>
        categories == Filter(old(categories), RecordIdIsNot(categoryId)) && toast == Some(Toast("Category deleted successfully!", "success"))
    {
      if !confirmed {
        return None;
      }
      if sync != null {
        var deleted := sync.DeleteCategory(categoryId);
        toast := Some(if deleted then Toast("Category deleted successfully!", "success") else Toast("Category not found!", "error"));
      } else {
        categories := Filter(categories, RecordIdIsNot(categoryId));
        toast := Some(Toast("Category deleted successfully!", "success"));
      }
    }

    /** `getProductCountByCategory`: the length of the category's list in
      the shared catalogue, or the number of own products with that category;
      either way the number of listed products in that category. */
    method GetProductCountByCategory(name: string) returns (count: nat)
      requires Valid()
      ensures sync != null ==> count == |C.ProductsOf(sync.shelves, name)|
      ensures count == |Filter(Listed(), CategoryIs(name))|
    {
      if sync != null {
        var ps := sync.GetProductsByCategory(name);
        count := |ps|;
        if name in C.Keys(sync.shelves) {
          C.ProductsOfMember(sync.shelves, C.Shelf(name, ps));
        } else {
          C.ProductsAbsent(sync.shelves, name);
        }
        CategoryCountAgrees(sync.shelves, name);
      } else {
        count := |Filter(products, CategoryIs(name))|;
      }
    }

    /** `getAllCategories`: predefined keys with the shared catalogue's keys,
      or with the names of the portal's own records. */
    method GetAllCategories() returns (all: seq<string>)
      ensures sync != null ==> all == AllCategories(C.Keys(sync.shelves))
      ensures sync == null ==> all == AllCategories(Names(categories))
    {
      var existing: seq<string>;
      if sync != null {
        existing := sync.GetCategories();
        assert existing == C.Keys(sync.shelves);
      } else {
        existing := Names(categories);
      }
      all := AllCategories(existing);
    }

    /** `filterProducts(term)`. */
    method FilterProducts(term: string) returns (shown: seq<C.Product>)
      ensures shown == SearchResults(Listed(), term)
    {
      var all := products;
      if sync != null {
        all := sync.GetAllProducts();
      }
      shown := Filter(all, Term(term));
    }

    /** `filterProductsByCategory(category)`; an empty choice reloads the
      full list. */
    method FilterProductsByCategory(category: string) returns (shown: seq<C.Product>)
      ensures shown == ByCategory(Listed(), category)
    {
      var all := products;
      if sync != null {
        all := sync.GetAllProducts();
      }
      if category == "" {
        shown := all;
      } else {
        shown := Filter(all, CategoryIs(category));
      }
    }

    /** `markMessagesAsRead(id)`: the customer's messages in one
      conversation become read. */
    method MarkMessagesAsRead(key: string)
      modifies this`chats
      ensures chats == Chat.ConversationRead(old(chats), key, Chat.User)
    {
      var i := IndexWhere(chats, Chat.KeyIs(key));
      if i < 0 {
        return;
      }
      var marked, hasUnread := Chat.MarkRead(chats[i].messages, Chat.User);
      Chat.ReadMarkedEffect(chats[i].messages, Chat.User);
      if hasUnread {
        chats := chats[i := chats[i].(messages := marked)];
      }
    }

    /** `updateMessageBadge`: one pass over the conversations with a flag. */
    method UpdateMessageBadge() returns (shown: bool)
      ensures shown <==> Chat.AdminBadgeShown(chats)
    {
      shown := false;
      var i := 0;
      while i < |chats|
        invariant 0 <= i <= |chats|
        invariant shown <==> exists j :: 0 <= j < i && Chat.HasUnreadFrom(chats[j].messages, Chat.User)
      {
        if Chat.HasUnreadFrom(chats[i].messages, Chat.User) {
          shown := true;
        }
        i := i + 1;
      }
    }

    /** `selectConversation(id)`: make it active, read it, refresh the badge. */
    method SelectConversation(key: string) returns (badge: bool)
      modifies this`chats, this`activeConversation
      ensures activeConversation == Some(key)
      ensures chats == Chat.ConversationRead(old(chats), key, Chat.User)
      ensures badge <==> Chat.AdminBadgeShown(chats)
    {
      activeConversation := Some(key);
      MarkMessagesAsRead(key);
      badge := UpdateMessageBadge();
    }

    /** `loadConversations`: the conversations most recent first; with none
      active, the first one listed is opened. */
    method LoadConversations() returns (listed: seq<Chat.Conversation>)
      modifies this`chats, this`activeConversation
      ensures listed == Chat.ByRecency(old(chats))
      ensures old(activeConversation).None? && |listed| > 0 ==>
        activeConversation == Some(listed[0].key) && chats == Chat.ConversationRead(old(chats), listed[0].key, Chat.User)
      ensures old(activeConversation).Some? || |listed| == 0 ==>
        activeConversation == old(activeConversation) && chats == old(chats)
    {
      listed := Chat.ByRecency(chats);
      if activeConversation.None? && |listed| > 0 {
        var _ := SelectConversation(listed[0].key);
      }
    }

    /** `sendAdminMessage(text)`. */
    method SendAdminMessage(text: string, msgId: string, now: int)
      modifies this`chats
      ensures chats == Chat.AdminSent(old(chats), activeConversation, text, msgId, now)
    {
      if activeConversation.None? || Trim(text) == "" {
        return;
      }
      var i := IndexWhere(chats, Chat.KeyIs(activeConversation.value));
      if i < 0 {
        return;
      }
      var m := Chat.ChatMessage(msgId, Chat.Admin, Trim(text), now, false);
      chats := chats[i := chats[i].(messages := chats[i].messages + [m])];
    }
  }
}

=== FILE: cart.dfy ===
/** The storefront's shopping cart: a list of line items, merged by product
    name, with a cached total (sum of price times quantity) and a count (sum
    of quantities). Prices are integers in minor currency units. */
module Storefront {
  import opened Common

  /** A cart line `{id, name, category, price, image, quantity}`. */
  datatype CartItem = CartItem(id: int, name: string, category: string, price: int, image: string, quantity: int)

  /** What the saved cart (`donkomi-cart`) holds: `items` and `total`, either
      of which may be missing. */
  datatype SavedCart = SavedCart(items: Option<seq<CartItem>>, total: Option<int>)

  /** The result of pressing the checkout button. */
  datatype CheckoutOutcome = Rejected(message: string) | CheckoutFormShown

  function LineTotal(item: CartItem): int
  {
    item.price * item.quantity
  }

  function Quantity(item: CartItem): int
  {
    item.quantity
  }

  /** The cart total `updateCart` computes: the sum of price × quantity. */
  function CartTotal(items: seq<CartItem>): int
  {
    SumOf(items, LineTotal)
  }

  /** The badge count `updateCartCount` computes: the sum of quantities. */
  function CartCount(items: seq<CartItem>): int
  {
    SumOf(items, Quantity)
  }

  /** Every line holds at least one unit. */
  predicate AllPositive(items: seq<CartItem>)
  {
    forall i :: 0 <= i < |items| ==> items[i].quantity >= 1
  }

  /** The lines after `addItem(product)`: the first line with the same name
      gains one unit, or the product is appended when no name matches. */
  function ItemAdded(items: seq<CartItem>, product: CartItem): seq<CartItem>
  {
    match FindFirst(items, (it: CartItem) => it.name == product.name)
    case Some(i) => items[i := items[i].(quantity := items[i].quantity + 1)]
    case None => items + [product]
  }

  /** The lines after `removeItem(id)`. */
  function ItemRemoved(items: seq<CartItem>, id: int): seq<CartItem>
  {
    Filter(items, (it: CartItem) => it.id != id)
  }

  /** The lines after `updateQuantity(id, quantity)`. */
  function QuantityUpdated(items: seq<CartItem>, id: int, quantity: int): seq<CartItem>
  {
    match FindFirst(items, (it: CartItem) => it.id == id)
    case Some(i) => items[i := items[i].(quantity := if quantity > 1 then quantity else 1)]
    case None => items
  }

  /** Adding a product whose name is already in the cart raises that line by
      one and keeps the length; otherwise the product becomes the last line.
      Either way the count grows by the units added. */
  lemma {:induction false} AddItemEffect(items: seq<CartItem>, product: CartItem)
    ensures var r := ItemAdded(items, product);
      match FindFirst(items, (it: CartItem) => it.name == product.name)
      case Some(i) =>
        && |r| == |items|
        && r[i] == items[i].(quantity := items[i].quantity + 1)
        && (forall j :: 0 <= j < |items| && j != i ==> r[j] == items[j])
        && CartCount(r) == CartCount(items) + 1
        && CartTotal(r) == CartTotal(items) + items[i].price
      case None =>
        && r == items + [product]
        && CartCount(r) == CartCount(items) + product.quantity
  {
    match FindFirst(items, (it: CartItem) => it.name == product.name)
    case Some(i) =>
      var bumped := items[i].(quantity := items[i].quantity + 1);
      SumOfUpdate(items, i, bumped, Quantity);
      SumOfUpdate(items, i, bumped, LineTotal);
      OneMoreUnit(items[i]);
    case None =>
      SumOfConcat(items, [product], Quantity);
      assert [product][..0] == [];
  }

  /** One more unit on a line adds its price to the line's total. */
  lemma OneMoreUnit(item: CartItem)
    ensures LineTotal(item.(quantity := item.quantity + 1)) == LineTotal(item) + item.price
  {
    assert item.price * (item.quantity + 1) == item.price * item.quantity + item.price;
  }

  /** Removing by id drops every line with that id and keeps the other lines
      in their order (removal distributes over concatenation). */
  lemma RemoveItemKeepsOthers(items: seq<CartItem>, id: int, a: seq<CartItem>, b: seq<CartItem>)
    ensures forall it :: it in ItemRemoved(items, id) <==> it in items && it.id != id
    ensures ItemRemoved(a + b, id) == ItemRemoved(a, id) + ItemRemoved(b, id)
  {
    forall it ensures it in ItemRemoved(items, id) <==> it in items && it.id != id {
      FilterMembers(items, (it: CartItem) => it.id != id, it);
    }
    FilterConcat(a, b, (it: CartItem) => it.id != id);
  }

  /** Removing by id lowers the count by exactly the units of the removed lines. */
  lemma RemoveItemCount(items: seq<CartItem>, id: int)
    ensures CartCount(ItemRemoved(items, id)) + CartCount(Filter(items, (it: CartItem) => it.id == id))
            == CartCount(items)
  {
    SumOfPartition(items, (it: CartItem) => it.id != id, (it: CartItem) => it.id == id, Quantity);
  }

  /** Updating a quantity sets the first line with that id to max(1, q) and
      keeps everything else; with no such line the cart is unchanged. Lines
      never drop below one unit. */
  lemma UpdateQuantityEffect(items: seq<CartItem>, id: int, quantity: int)
    ensures var r := QuantityUpdated(items, id, quantity);
      match FindFirst(items, (it: CartItem) => it.id == id)
      case Some(i) =>
        && |r| == |items|
        && r[i].quantity >= 1
        && r[i].quantity == (if quantity > 1 then quantity else 1)
        && r[i] == items[i].(quantity := if quantity > 1 then quantity else 1)
        && (forall j :: 0 <= j < |items| && j != i ==> r[j] == items[j])
      case None => r == items
    ensures AllPositive(items) ==> AllPositive(QuantityUpdated(items, id, quantity))
  {
  }

  /** The cart operations keep every line at one unit or more, given that
      each product enters the cart with at least one unit. */
  lemma {:induction false} OperationsKeepPositive(items: seq<CartItem>, product: CartItem, id: int)
    requires AllPositive(items) && product.quantity >= 1
    ensures AllPositive(ItemAdded(items, product))
    ensures AllPositive(ItemRemoved(items, id))
  {
    var removed := ItemRemoved(items, id);
    forall i | 0 <= i < |removed| ensures removed[i].quantity >= 1 {
      assert removed[i] in removed;
      FilterMembers(items, (it: CartItem) => it.id != id, removed[i]);
    }
  }

  class Cart {
    var items: seq<CartItem>
    var total: int

    /** `new Cart()`: an empty cart, then `init` loads the saved cart. */
    constructor (saved: Option<SavedCart>)
      ensures saved.None? ==> items == [] && total == 0
      ensures saved.Some? ==> items == (if saved.value.items.Some? then saved.value.items.value else [])
      ensures saved.Some? ==> total == (if saved.value.total.Some? then saved.value.total.value else 0)
    {
      items := [];
      total := 0;
      new;
      LoadFromStorage(saved);
    }

    /** `loadFromStorage`: a saved cart replaces the state, a missing part
      defaulting to empty; no saved cart leaves it as it is. */
    method LoadFromStorage(saved: Option<SavedCart>)
      modifies this
      ensures saved.None? ==> items == old(items) && total == old(total)
      ensures saved.Some? ==> items == (if saved.value.items.Some? then saved.value.items.value else [])
      ensures saved.Some? ==> total == (if saved.value.total.Some? then saved.value.total.value else 0)
    {
      if saved.Some? {
        items := if saved.value.items.Some? then saved.value.items.value else [];
        total := if saved.value.total.Some? then saved.value.total.value else 0;
      }
    }

    /** `updateCart`: the cached total is recomputed from the lines. */
    method UpdateCart()
      modifies this`total
      ensures total == CartTotal(items)
    {
      total := CartTotal(items);
    }

    /** `addItem`: merge by name or append, then recompute the total. */
    method AddItem(product: CartItem)
      modifies this
      ensures items == ItemAdded(old(items), product)
      ensures total == CartTotal(items)
    {
      var i := IndexWhere(items, (it: CartItem) => it.name == product.name);
      if i >= 0 {
        items := items[i := items[i].(quantity := items[i].quantity + 1)];
      } else {
        items := items + [product];
      }
      UpdateCart();
    }

    /** `removeItem`: keep the lines with another id, then recompute the total. */
    method RemoveItem(id: int)
      modifies this
      ensures items == ItemRemoved(old(items), id)
      ensures total == CartTotal(items)
    {
      items := Filter(items, (it: CartItem) => it.id != id);
      UpdateCart();
    }

    /** `updateQuantity`: the first line with that id gets max(1, quantity) and
      the total is recomputed; nothing happens when no line has that id. */
    method UpdateQuantity(id: int, quantity: int)
      modifies this
      ensures items == QuantityUpdated(old(items), id, quantity)
      ensures FindFirst(old(items), (it: CartItem) => it.id == id).Some? ==> total == CartTotal(items)
      ensures FindFirst(old(items), (it: CartItem) => it.id == id).None? ==> total == old(total)
    {
      var i := IndexWhere(items, (it: CartItem) => it.id == id);
      if i >= 0 {
        items := items[i := items[i].(quantity := if quantity > 1 then quantity else 1)];
        UpdateCart();
      }
    }

    /** `updateCartCount`: the number shown on the cart badge. */
    method UpdateCartCount() returns (count: int)
      ensures count == CartCount(items)
    {
      count := CartCount(items);
    }

    /** `checkout`: an empty cart is refused with an error and no form opens. */
    method Checkout() returns (outcome: CheckoutOutcome)
      ensures outcome.Rejected? <==> |items| == 0
      ensures outcome.Rejected? ==> outcome.message == "Your cart is empty!"
    {
      if |items| == 0 {
        return Rejected("Your cart is empty!");
      }
      outcome := CheckoutFormShown;
    }
  }
}

=== FILE: catalogue.dfy ===
/** The storefront's product catalogue (`productDatabase`) and the
    `ProductDatabaseSync` object that edits it. The catalogue is a JavaScript
    object from category keys to product arrays; its keys enumerate in
    insertion order, so it is modelled as a list of shelves with distinct
    keys, a new key going to the end. */
module Catalogue {
  import opened Common

  /** A catalogue product. Only the id, the name and the category take part in
      the catalogue's logic; price, image, description and the rest ride along. */
  datatype Product = Product(id: Value, name: string, category: string, attributes: Fields)

  /** One property of `productDatabase`: a category key and its products. */
  datatype Shelf = Shelf(key: string, products: seq<Product>)

  /** Where a product sits: the shelf's position and the index on it. */
  datatype Place = Place(shelf: nat, index: nat)

  /** `Object.keys(productDatabase)`. The ensures give the proofs below
      index-wise access to the keys. */
  function Keys(db: seq<Shelf>): (r: seq<string>)
    ensures |r| == |db|
    ensures forall i :: 0 <= i < |db| ==> r[i] == db[i].key
  {
    seq(|db|, i requires 0 <= i < |db| => db[i].key)
  }

  /** An object has each property at most once. */
  predicate DistinctKeys(db: seq<Shelf>)
  {
    forall i, j :: 0 <= i < j < |db| ==> db[i].key != db[j].key
  }

  function KeyIs(key: string): Shelf -> bool
  {
    (s: Shelf) => s.key == key
  }

  function IdIs(pid: Value): Product -> bool
  {
    (p: Product) => p.id == pid
  }

  /** The position of a category key, if the object has it. */
  function KeyIndex(db: seq<Shelf>, key: string): Option<nat>
  {
    FindFirst(db, KeyIs(key))
  }

  /** `Object.keys` lists exactly the keys a lookup finds, and a lookup
      answers with the position of its key in that list. */
  lemma KeysAreLookups(db: seq<Shelf>, key: string)
    ensures key in Keys(db) <==> KeyIndex(db, key).Some?
    ensures KeyIndex(db, key).Some? ==> Keys(db)[KeyIndex(db, key).value] == key
  {
    if key in Keys(db) {
      var i :| 0 <= i < |db| && Keys(db)[i] == key;
      assert KeyIs(key)(db[i]);
    }
  }

  /** `productDatabase[key] || []`: a present key's array (an empty array is
      still truthy), otherwise an empty list. */
  function ProductsOf(db: seq<Shelf>, key: string): seq<Product>
  {
    match KeyIndex(db, key)
    case Some(i) => db[i].products
    case None => []
  }

  /** With distinct keys, a key's products are those of the one shelf holding it. */
  lemma ProductsAt(db: seq<Shelf>, i: nat)
    requires DistinctKeys(db) && i < |db|
    ensures KeyIndex(db, db[i].key) == Some(i)
    ensures ProductsOf(db, db[i].key) == db[i].products
  {
    FindFirstIs(db, KeyIs(db[i].key), i);
  }

  /** A key no shelf carries has no index and an empty list. */
  lemma ProductsAbsent(db: seq<Shelf>, key: string)
    requires key !in Keys(db)
    ensures KeyIndex(db, key).None? && ProductsOf(db, key) == []
  {
  }

  /** Reading a key through a shelf that is known to be in the database. */
  lemma ProductsOfMember(db: seq<Shelf>, s: Shelf)
    requires DistinctKeys(db) && s in db
    ensures s.key in Keys(db)
    ensures ProductsOf(db, s.key) == s.products
  {
    var i :| 0 <= i < |db| && db[i] == s;
    assert Keys(db)[i] == s.key;
    ProductsAt(db, i);
  }

  /** Two catalogues give a key the same list when they hold the same shelves
      under that key. */
  lemma {:induction false} SameShelvesSameProducts(a: seq<Shelf>, b: seq<Shelf>, key: string)
    requires DistinctKeys(a) && DistinctKeys(b)
    requires forall s: Shelf :: s.key == key ==> (s in a <==> s in b)
    ensures ProductsOf(a, key) == ProductsOf(b, key)
  {
    if key in Keys(a) {
      var i :| 0 <= i < |a| && Keys(a)[i] == key;
      ProductsOfMember(a, a[i]);
      ProductsOfMember(b, a[i]);
    } else {
      ProductsAbsent(a, key);
      ProductsAbsent(b, key);
    }
  }

  function ShelfSize(s: Shelf): int
  {
    |s.products|
  }

  /** The number of products over all categories. */
  function ProductCount(db: seq<Shelf>): int
  {
    SumOf(db, ShelfSize)
  }

  /** `if (!db[key]) db[key] = []; db[key].push(p)`. */
  function Appended(db: seq<Shelf>, key: string, p: Product): seq<Shelf>
  {
    match KeyIndex(db, key)
    case Some(i) => db[i := Shelf(key, db[i].products + [p])]
    case None => db + [Shelf(key, [p])]
  }

  /** Pushing onto a category puts the product last in that category alone,
      creates the category at the end when it is missing, and adds one product. */
  lemma {:induction false} AppendedEffect(db: seq<Shelf>, key: string, p: Product)
    requires DistinctKeys(db)
    ensures var r := Appended(db, key, p);
      && DistinctKeys(r)
      && Keys(r) == (if key in Keys(db) then Keys(db) else Keys(db) + [key])
      && ProductsOf(r, key) == ProductsOf(db, key) + [p]
      && (forall k :: k != key ==> ProductsOf(r, k) == ProductsOf(db, k))
      && ProductCount(r) == ProductCount(db) + 1
  {
    match KeyIndex(db, key)
    case Some(i) => AppendedToExisting(db, key, p, i);
    case None => AppendedAsNew(db, key, p);
  }

  lemma AppendedToExisting(db: seq<Shelf>, key: string, p: Product, i: nat)
    requires DistinctKeys(db) && KeyIndex(db, key) == Some(i)
    ensures var r := Appended(db, key, p);
      && DistinctKeys(r)
      && key in Keys(db) && Keys(r) == Keys(db)
      && ProductsOf(r, key) == ProductsOf(db, key) + [p]
      && (forall k :: k != key ==> ProductsOf(r, k) == ProductsOf(db, k))
      && ProductCount(r) == ProductCount(db) + 1
  {
    var r := Appended(db, key, p);
    assert Keys(db)[i] == key;
    assert Keys(r) == Keys(db);
    assert DistinctKeys(r) by {
      assert forall j :: 0 <= j < |r| ==> r[j].key == db[j].key;
    }
    ProductsAt(db, i);
    ProductsAt(r, i);
    SumOfUpdate(db, i, r[i], ShelfSize);
    forall k | k != key
      ensures ProductsOf(r, k) == ProductsOf(db, k)
    {
      forall s: Shelf | s.key == k
        ensures s in r <==> s in db
      {
        if s in r {
          var j :| 0 <= j < |r| && r[j] == s;
          assert j != i && db[j] == s;
        }
        if s in db {
          var j :| 0 <= j < |db| && db[j] == s;
          assert j != i && r[j] == s;
        }
      }
      SameShelvesSameProducts(r, db, k);
    }
  }

  lemma AppendedAsNew(db: seq<Shelf>, key: string, p: Product)
    requires DistinctKeys(db) && KeyIndex(db, key).None?
    ensures var r := Appended(db, key, p);
      && DistinctKeys(r)
      && key !in Keys(db) && Keys(r) == Keys(db) + [key]
      && ProductsOf(r, key) == ProductsOf(db, key) + [p]
      && (forall k :: k != key ==> ProductsOf(r, k) == ProductsOf(db, k))
      && ProductCount(r) == ProductCount(db) + 1
  {
    assert forall i :: 0 <= i < |db| ==> db[i].key != key;
    assert key !in Keys(db);
    ProductsAbsent(db, key);
    AppendShelf(db, Shelf(key, [p]));
  }

  /** A shelf under a new key goes last: the keys stay distinct, the new key
      lists the shelf's products, the others keep theirs, and the count grows
      by the shelf's size. */
  lemma AppendShelf(db: seq<Shelf>, shelf: Shelf)
    requires DistinctKeys(db) && shelf.key !in Keys(db)
    ensures var r := db + [shelf];
      && DistinctKeys(r)
      && Keys(r) == Keys(db) + [shelf.key]
      && ProductsOf(r, shelf.key) == shelf.products
      && (forall k :: k != shelf.key ==> ProductsOf(r, k) == ProductsOf(db, k))
      && ProductCount(r) == ProductCount(db) + |shelf.products|
  {
    var r := db + [shelf];
    assert forall i :: 0 <= i < |db| ==> Keys(db)[i] == db[i].key;
    assert DistinctKeys(r) by {
      forall i, j | 0 <= i < j < |r|
        ensures r[i].key != r[j].key
      {
        if j == |db| {
          assert r[i] == db[i];
        } else {
          assert r[i] == db[i] && r[j] == db[j];
        }
      }
    }
    assert Keys(r) == Keys(db) + [shelf.key];
    ProductsAt(r, |db|);
    SumOfConcat(db, [shelf], ShelfSize);
    assert [shelf][..0] == [];
    forall k | k != shelf.key
      ensures ProductsOf(r, k) == ProductsOf(db, k)
    {
      forall s: Shelf | s.key == k
        ensures s in r <==> s in db
      {
        if s in r {
          assert s != shelf;
        }
      }
      SameShelvesSameProducts(r, db, k);
    }
  }

  /** `addProduct`'s product: its own id when truthy, otherwise the fresh one.
      The ensures give the proofs below the case split without unfolding. */
  function WithId(product: Product, freshId: string): (r: Product)
    ensures Truthy(product.id) ==> r == product
    ensures !Truthy(product.id) ==> r.id == Str(freshId)
    ensures r.name == product.name && r.category == product.category && r.attributes == product.attributes
  {
    if Truthy(product.id) then product else product.(id := Str(freshId))
  }

  /** With a non-empty generated id, the product always comes out with a
      truthy id, so settling it a second time changes nothing. */
  lemma WithIdSettles(product: Product, freshId: string, laterId: string)
    requires freshId != ""
    ensures Truthy(WithId(product, freshId).id)
    ensures WithId(WithId(product, freshId), laterId) == WithId(product, freshId)
  {
  }

  /** The catalogue after `addProduct(product)`. */
  function ProductAdded(db: seq<Shelf>, product: Product, freshId: string): seq<Shelf>
  {
    Appended(db, product.category, WithId(product, freshId))
  }

  /** A shelf holds a product with that id (`findIndex(...) !== -1`). */
  predicate Holds(s: Shelf, pid: Value)
  {
    FindFirst(s.products, IdIs(pid)).Some?
  }

  function HoldsId(pid: Value): Shelf -> bool
  {
    (s: Shelf) => Holds(s, pid)
  }

  /** Where `updateProduct` and `deleteProduct` find a product: categories in
      key order, and the first match within the first category that has one. */
  function FindProduct(db: seq<Shelf>, pid: Value): (r: Option<Place>)
    ensures r.None? <==> forall c, j :: 0 <= c < |db| && 0 <= j < |db[c].products| ==> db[c].products[j].id != pid
    ensures r.Some? ==> r.value.shelf < |db| && r.value.index < |db[r.value.shelf].products|
    ensures r.Some? ==> db[r.value.shelf].products[r.value.index].id == pid
    ensures r.Some? ==> forall c :: 0 <= c < r.value.shelf ==> !Holds(db[c], pid)
    ensures r.Some? ==> forall j :: 0 <= j < r.value.index ==> db[r.value.shelf].products[j].id != pid
  {
    match FindFirst(db, HoldsId(pid))
    case None =>
      assert forall c :: 0 <= c < |db| ==> !Holds(db[c], pid);
      None
    case Some(c) =>
      Some(Place(c, FindFirst(db[c].products, IdIs(pid)).value))
  }

  /** The catalogue after `updateProduct(pid, updated)`: a product that keeps
      its category is replaced where it stands; one whose category changes is
      spliced out and pushed onto its new category. */
  function ProductUpdated(db: seq<Shelf>, pid: Value, updated: Product): seq<Shelf>
  {
    match FindProduct(db, pid)
    case None => db
    case Some(Place(c, i)) =>
      if updated.category != db[c].key then
        Appended(db[c := Shelf(db[c].key, RemoveAt(db[c].products, i))], updated.category, updated)
      else
        db[c := Shelf(db[c].key, db[c].products[i := updated])]
  }

  /** The catalogue after `deleteProduct(pid)`. */
  function ProductDeleted(db: seq<Shelf>, pid: Value): seq<Shelf>
  {
    match FindProduct(db, pid)
    case None => db
    case Some(Place(c, i)) => db[c := Shelf(db[c].key, RemoveAt(db[c].products, i))]
  }

  /** The catalogue after `addCategory({name})`: a new empty category at the end. */
  function CategoryAdded(db: seq<Shelf>, name: string): seq<Shelf>
  {
    match KeyIndex(db, name)
    case Some(_) => db
    case None => db + [Shelf(name, [])]
  }

  /** The catalogue after `deleteCategory(name)`: the key and its products go. */
  function CategoryDeleted(db: seq<Shelf>, name: string): seq<Shelf>
  {
    match KeyIndex(db, name)
    case Some(i) => RemoveAt(db, i)
    case None => db
  }

  /** Replacing the shelf at `c` by one with the same key keeps the keys and
      changes only that key's products. */
  lemma {:induction false} ReplaceShelf(db: seq<Shelf>, c: nat, ps: seq<Product>)
    requires DistinctKeys(db) && c < |db|
    ensures var r := db[c := Shelf(db[c].key, ps)];
      && DistinctKeys(r)
      && Keys(r) == Keys(db)
      && ProductsOf(r, db[c].key) == ps
      && (forall k :: k != db[c].key ==> ProductsOf(r, k) == ProductsOf(db, k))
      && ProductCount(r) == ProductCount(db) - |db[c].products| + |ps|
  {
    var r := db[c := Shelf(db[c].key, ps)];
    assert forall j :: 0 <= j < |r| ==> r[j].key == db[j].key;
    assert Keys(r) == Keys(db);
    ProductsAt(r, c);
    SumOfUpdate(db, c, r[c], ShelfSize);
    forall k | k != db[c].key
      ensures ProductsOf(r, k) == ProductsOf(db, k)
    {
      forall s: Shelf | s.key == k
        ensures s in r <==> s in db
      {
        if s in r {
          var j :| 0 <= j < |r| && r[j] == s;
          assert j != c && db[j] == s;
        }
        if s in db {
          var j :| 0 <= j < |db| && db[j] == s;
          assert j != c && r[j] == s;
        }
      }
      SameShelvesSameProducts(r, db, k);
    }
  }

  /** Adding a product keeps the keys distinct, puts the product (with an id
      assigned only when it had a falsy one) last in its category, leaves
      every other category alone and adds one to the count. */
  lemma AddProductEffect(db: seq<Shelf>, product: Product, freshId: string)
    requires DistinctKeys(db)
    ensures var r := ProductAdded(db, product, freshId);
      && DistinctKeys(r)
      && product.category in Keys(r)
      && ProductsOf(r, product.category) == ProductsOf(db, product.category) + [WithId(product, freshId)]
      && (forall k :: k != product.category ==> ProductsOf(r, k) == ProductsOf(db, k))
      && ProductCount(r) == ProductCount(db) + 1
  {
    AppendedEffect(db, product.category, WithId(product, freshId));
    var r := ProductAdded(db, product, freshId);
    if product.category !in Keys(db) {
      assert Keys(r)[|db|] == product.category;
    }
  }

  /** Updating finds the product exactly when some category holds its id and
      never changes the number of products. A product that stays in its
      category is replaced at its index; one that moves leaves its old
      category and becomes the last of its new one. */
  lemma {:induction false} UpdateProductEffect(db: seq<Shelf>, pid: Value, updated: Product)
    requires DistinctKeys(db)
    ensures var r := ProductUpdated(db, pid, updated);
      && DistinctKeys(r)
      && ProductCount(r) == ProductCount(db)
      && (FindProduct(db, pid).None? ==> r == db)
      && (FindProduct(db, pid).Some? ==>
            var c, i := FindProduct(db, pid).value.shelf, FindProduct(db, pid).value.index;
            if updated.category == db[c].key then
              && ProductsOf(r, db[c].key) == db[c].products[i := updated]
              && (forall k :: k != db[c].key ==> ProductsOf(r, k) == ProductsOf(db, k))
            else
              && ProductsOf(r, db[c].key) == RemoveAt(db[c].products, i)
              && ProductsOf(r, updated.category) == ProductsOf(db, updated.category) + [updated]
              && (forall k :: k != db[c].key && k != updated.category ==> ProductsOf(r, k) == ProductsOf(db, k)))
  {
    match FindProduct(db, pid)
    case None =>
    case Some(Place(c, i)) =>
      var key := db[c].key;
      if updated.category == key {
        ReplaceShelf(db, c, db[c].products[i := updated]);
      } else {
        MoveProduct(db, c, i, updated);
      }
  }

  /** A product whose category changes leaves its old shelf and goes last on
      its new one; the count is unchanged. */
  lemma MoveProduct(db: seq<Shelf>, c: nat, i: nat, updated: Product)
    requires DistinctKeys(db) && c < |db| && i < |db[c].products| && updated.category != db[c].key
    ensures var r := Appended(db[c := Shelf(db[c].key, RemoveAt(db[c].products, i))], updated.category, updated);
      && DistinctKeys(r)
      && ProductCount(r) == ProductCount(db)
      && ProductsOf(r, db[c].key) == RemoveAt(db[c].products, i)
      && ProductsOf(r, updated.category) == ProductsOf(db, updated.category) + [updated]
      && (forall k :: k != db[c].key && k != updated.category ==> ProductsOf(r, k) == ProductsOf(db, k))
  {
    var db1 := db[c := Shelf(db[c].key, RemoveAt(db[c].products, i))];
    ReplaceShelf(db, c, RemoveAt(db[c].products, i));
    AppendedEffect(db1, updated.category, updated);
  }

  /** Deleting finds the product exactly when some category holds its id,
      removes that one entry from its category and lowers the count by one;
      otherwise nothing changes. */
  lemma {:induction false} DeleteProductEffect(db: seq<Shelf>, pid: Value)
    requires DistinctKeys(db)
    ensures var r := ProductDeleted(db, pid);
      && DistinctKeys(r)
      && Keys(r) == Keys(db)
      && (FindProduct(db, pid).None? ==> r == db)
      && (FindProduct(db, pid).Some? ==>
            var c, i := FindProduct(db, pid).value.shelf, FindProduct(db, pid).value.index;
            && ProductsOf(r, db[c].key) == RemoveAt(db[c].products, i)
            && (forall k :: k != db[c].key ==> ProductsOf(r, k) == ProductsOf(db, k))
            && ProductCount(r) == ProductCount(db) - 1)
  {
    match FindProduct(db, pid)
    case None =>
    case Some(Place(c, i)) =>
      ReplaceShelf(db, c, RemoveAt(db[c].products, i));
  }

  /** Adding a category succeeds only for a new key, which goes last with no
      products; an existing category is left as it is. */
  lemma AddCategoryEffect(db: seq<Shelf>, name: string)
    requires DistinctKeys(db)
    ensures var r := CategoryAdded(db, name);
      && DistinctKeys(r)
      && (KeyIndex(db, name).None? <==> name !in Keys(db))
      && Keys(r) == (if name in Keys(db) then Keys(db) else Keys(db) + [name])
      && (forall k :: ProductsOf(r, k) == ProductsOf(db, k))
      && ProductCount(r) == ProductCount(db)
  {
    var r := CategoryAdded(db, name);
    if name in Keys(db) {
      var i :| 0 <= i < |db| && Keys(db)[i] == name;
      ProductsAt(db, i);
    } else {
      ProductsAbsent(db, name);
      AppendShelf(db, Shelf(name, []));
    }
  }

  /** Dropping the shelf at `i` keeps the keys distinct, removes exactly its
      key, leaves the other keys' products and lowers the count by its size. */
  lemma {:induction false} RemoveShelf(db: seq<Shelf>, i: nat)
    requires DistinctKeys(db) && i < |db|
    ensures var r := RemoveAt(db, i);
      && DistinctKeys(r)
      && ProductCount(r) == ProductCount(db) - |db[i].products|
  {
    var r := RemoveAt(db, i);
    assert DistinctKeys(r) by {
      forall a, b | 0 <= a < b < |r|
        ensures r[a].key != r[b].key
      {
        var a', b' := if a < i then a else a + 1, if b < i then b else b + 1;
        assert r[a] == db[a'] && r[b] == db[b'];
      }
    }
    assert r == db[..i] + db[i + 1..];
    assert db == db[..i] + [db[i]] + db[i + 1..];
    SumOfConcat(db[..i], db[i + 1..], ShelfSize);
    SumOfAround(db[..i], db[i], db[i + 1..], ShelfSize);
  }

  lemma {:induction false} RemoveShelfKeys(db: seq<Shelf>, i: nat)
    requires DistinctKeys(db) && i < |db|
    ensures var r := RemoveAt(db, i);
      && (forall k :: k in Keys(r) <==> k in Keys(db) && k != db[i].key)
      && (forall k :: k != db[i].key ==> ProductsOf(r, k) == ProductsOf(db, k))
  {
    var r := RemoveAt(db, i);
    RemoveShelf(db, i);
    forall k ensures k in Keys(r) <==> k in Keys(db) && k != db[i].key {
      if k in Keys(r) {
        var j :| 0 <= j < |r| && Keys(r)[j] == k;
        if j < i { assert Keys(db)[j] == k; } else { assert Keys(db)[j + 1] == k; }
      }
      if k in Keys(db) && k != db[i].key {
        var j :| 0 <= j < |db| && Keys(db)[j] == k;
        if j < i { assert Keys(r)[j] == k; } else { assert Keys(r)[j - 1] == k; }
      }
    }
    forall k | k != db[i].key
      ensures ProductsOf(r, k) == ProductsOf(db, k)
    {
      forall s: Shelf | s.key == k
        ensures s in r <==> s in db
      {
        if s in db {
          var j :| 0 <= j < |db| && db[j] == s;
          if j < i { assert r[j] == s; } else { assert r[j - 1] == s; }
        }
      }
      SameShelvesSameProducts(r, db, k);
    }
  }

  /** Deleting a category succeeds only for a present key; the key and all its
      products go, the other keys keep their order and their products. */
  lemma {:induction false} DeleteCategoryEffect(db: seq<Shelf>, name: string)
    requires DistinctKeys(db)
    ensures var r := CategoryDeleted(db, name);
      && DistinctKeys(r)
      && name !in Keys(r)
      && ProductCount(r) == ProductCount(db) - |ProductsOf(db, name)|
      && (forall k :: k != name ==> ProductsOf(r, k) == ProductsOf(db, k))
      && (forall k :: k in Keys(r) <==> k in Keys(db) && k != name)
  {
    match KeyIndex(db, name)
    case None =>
      assert name !in Keys(db);
    case Some(i) =>
      ProductsAt(db, i);
      RemoveShelf(db, i);
      RemoveShelfKeys(db, i);
  }

  /** One category's products as `getAllProducts` lists them: each one's
      `category` set to the key it is stored under. */
  function Tagged(s: Shelf): (r: seq<Product>)
    ensures |r| == |s.products|
  {
    seq(|s.products|, j requires 0 <= j < |s.products| => s.products[j].(category := s.key))
  }

  /** Every category's products, in key order. */
  function Flatten(db: seq<Shelf>): seq<Product>
  {
    if db == [] then [] else Flatten(db[..|db| - 1]) + Tagged(db[|db| - 1])
  }

  /** The flattened list has one entry per stored product, each a stored
      product carrying its key as category; conversely every stored product
      appears in it. */
  lemma {:induction false} FlattenContents(db: seq<Shelf>)
    ensures |Flatten(db)| == ProductCount(db)
    ensures forall p :: p in Flatten(db) ==>
      exists c, j :: 0 <= c < |db| && 0 <= j < |db[c].products| && p == db[c].products[j].(category := db[c].key)
    ensures forall c, j :: 0 <= c < |db| && 0 <= j < |db[c].products| ==>
      db[c].products[j].(category := db[c].key) in Flatten(db)
  {
    if db != [] {
      var db', last := db[..|db| - 1], db[|db| - 1];
      FlattenContents(db');
      forall p | p in Flatten(db)
        ensures exists c, j :: 0 <= c < |db| && 0 <= j < |db[c].products| && p == db[c].products[j].(category := db[c].key)
      {
        if p in Flatten(db') {
          var c, j :| 0 <= c < |db'| && 0 <= j < |db'[c].products| && p == db'[c].products[j].(category := db'[c].key);
          assert db[c] == db'[c];
        } else {
          assert p in Tagged(last);
          var j :| 0 <= j < |last.products| && Tagged(last)[j] == p;
          assert db[|db| - 1] == last;
        }
      }
      forall c, j | 0 <= c < |db| && 0 <= j < |db[c].products|
        ensures db[c].products[j].(category := db[c].key) in Flatten(db)
      {
        if c < |db'| {
          assert db'[c] == db[c];
          assert db'[c].products[j].(category := db'[c].key) in Flatten(db');
        } else {
          assert Tagged(last)[j] == db[c].products[j].(category := db[c].key);
        }
      }
    }
  }

  /** `{ ...a, ...b }`: every key of `a` in its place, with `b`'s value when
      `b` has that key, followed by `b`'s new keys in `b`'s order. */
  function Merged(a: seq<Shelf>, b: seq<Shelf>): seq<Shelf>
  {
    Overlay(a, b) + Filter(b, NewIn(a))
  }

  function Overlay(a: seq<Shelf>, b: seq<Shelf>): (r: seq<Shelf>)
    ensures |r| == |a|
  {
    seq(|a|, i requires 0 <= i < |a| =>
      match KeyIndex(b, a[i].key)
      case Some(j) => b[j]
      case None => a[i])
  }

  function NewIn(a: seq<Shelf>): Shelf -> bool
  {
    (s: Shelf) => KeyIndex(a, s.key).None?
  }

  /** Keeping only some shelves keeps keys distinct. */
  lemma {:induction false} FilterDistinct(db: seq<Shelf>, keep: Shelf -> bool)
    requires DistinctKeys(db)
    ensures DistinctKeys(Filter(db, keep))
  {
    if db != [] {
      var db', x := db[..|db| - 1], db[|db| - 1];
      FilterDistinct(db', keep);
      var f := Filter(db', keep);
      forall s | s in f ensures s.key != x.key {
        FilterMembers(db', keep, s);
        var m :| 0 <= m < |db'| && db'[m] == s;
        assert db[m] == s;
      }
    }
  }

  /** The merged catalogue keeps keys distinct. */
  lemma {:induction false} MergeDistinct(a: seq<Shelf>, b: seq<Shelf>)
    requires DistinctKeys(a) && DistinctKeys(b)
    ensures DistinctKeys(Merged(a, b))
  {
    var o, n := Overlay(a, b), Filter(b, NewIn(a));
    var r := o + n;
    FilterDistinct(b, NewIn(a));
    forall i, j | 0 <= i < j < |r|
      ensures r[i].key != r[j].key
    {
      if j < |a| {
        assert r[i] == o[i] && r[j] == o[j];
        assert o[i].key == a[i].key && o[j].key == a[j].key;
      } else if i >= |a| {
        assert r[i] == n[i - |a|] && r[j] == n[j - |a|];
      } else {
        assert r[j] in n;
        FilterMembers(b, NewIn(a), r[j]);
        assert KeyIndex(a, r[j].key).None?;
        assert r[i] == o[i] && o[i].key == a[i].key;
      }
    }
  }

  /** The merged catalogue has the keys of both, the current ones first and
      in their order. */
  lemma {:induction false} MergeKeys(a: seq<Shelf>, b: seq<Shelf>)
    ensures var r := Merged(a, b);
      && Keys(r)[..|a|] == Keys(a)
      && (forall k :: k in Keys(r) <==> k in Keys(a) || k in Keys(b))
  {
    var o, n := Overlay(a, b), Filter(b, NewIn(a));
    var r := o + n;
    assert forall i :: 0 <= i < |a| ==> Keys(r)[i] == o[i].key == a[i].key;
    assert Keys(r)[..|a|] == Keys(a);
    forall k ensures k in Keys(r) <==> k in Keys(a) || k in Keys(b) {
      if k in Keys(r) {
        var j :| 0 <= j < |r| && Keys(r)[j] == k;
        if j < |a| {
          assert Keys(a)[j] == k;
        } else {
          assert r[j] in n;
          FilterMembers(b, NewIn(a), r[j]);
          MemberKey(b, r[j]);
        }
      }
      if k in Keys(a) {
        var j :| 0 <= j < |a| && Keys(a)[j] == k;
        assert Keys(r)[j] == k;
      } else if k in Keys(b) {
        var j :| 0 <= j < |b| && Keys(b)[j] == k;
        ProductsAbsent(a, k);
        FilterMembers(b, NewIn(a), b[j]);
        MemberKey(r, b[j]);
      }
    }
  }

  /** In the merged catalogue a key the saved catalogue has takes the saved
      products, and any other key keeps its own. */
  lemma {:induction false} MergeProducts(a: seq<Shelf>, b: seq<Shelf>, k: string)
    requires DistinctKeys(a) && DistinctKeys(b)
    ensures ProductsOf(Merged(a, b), k) == if k in Keys(b) then ProductsOf(b, k) else ProductsOf(a, k)
  {
    var o, n := Overlay(a, b), Filter(b, NewIn(a));
    var r := o + n;
    MergeDistinct(a, b);
    MergeKeys(a, b);
    if k in Keys(b) {
      var j :| 0 <= j < |b| && Keys(b)[j] == k;
      ProductsAt(b, j);
      if k in Keys(a) {
        var i :| 0 <= i < |a| && Keys(a)[i] == k;
        assert o[i] == b[j];
        assert r[i] == b[j];
      } else {
        ProductsAbsent(a, k);
        FilterMembers(b, NewIn(a), b[j]);
      }
      ProductsOfMember(r, b[j]);
    } else if k in Keys(a) {
      var i :| 0 <= i < |a| && Keys(a)[i] == k;
      ProductsAbsent(b, k);
      assert o[i] == a[i];
      assert r[i] == a[i];
      ProductsAt(a, i);
      ProductsOfMember(r, a[i]);
    } else {
      ProductsAbsent(r, k);
      ProductsAbsent(a, k);
      ProductsAbsent(b, k);
    }
  }

  lemma MemberKey(db: seq<Shelf>, s: Shelf)
    requires s in db
    ensures s.key in Keys(db)
  {
    var i :| 0 <= i < |db| && db[i] == s;
    assert Keys(db)[i] == s.key;
  }

  /** The storefront's `ProductDatabaseSync`, holding `productDatabase`. */
  class ProductDatabaseSync {
    var shelves: seq<Shelf>

    ghost predicate Valid()
      reads this
    {
      DistinctKeys(shelves)
    }

    /** The catalogue starts from the built-in products, given here as `seed`,
      and `init` then spreads the saved catalogue, if any, over them. */
    constructor (seed: seq<Shelf>, saved: Option<seq<Shelf>>)
      requires DistinctKeys(seed)
      requires saved.Some? ==> DistinctKeys(saved.value)
      ensures Valid()
      ensures saved.None? ==> shelves == seed
      ensures saved.Some? ==> shelves == Merged(seed, saved.value)
    {
      shelves := seed;
      new;
      LoadFromStorage(saved);
    }

    /** `loadFromStorage` and the storage-event listener: a saved catalogue,
      when one is present and parses, is spread over the current one. */
    method LoadFromStorage(saved: Option<seq<Shelf>>)
      requires Valid()
      requires saved.Some? ==> DistinctKeys(saved.value)
      modifies this
      ensures Valid()
      ensures saved.None? ==> shelves == old(shelves)
      ensures saved.Some? ==> shelves == Merged(old(shelves), saved.value)
    {
      if saved.Some? {
        MergeDistinct(shelves, saved.value);
        shelves := Merged(shelves, saved.value);
      }
    }

    /** Push onto a category, creating it when missing. */
    method PushTo(key: string, p: Product)
      requires Valid()
      modifies this
      ensures Valid()
      ensures shelves == Appended(old(shelves), key, p)
    {
      AppendedEffect(shelves, key, p);
      var i := IndexWhere(shelves, KeyIs(key));
      if i == -1 {
        shelves := shelves + [Shelf(key, [p])];
      } else {
        shelves := shelves[i := Shelf(key, shelves[i].products + [p])];
      }
    }

    /** `addProduct`; `freshId` stands for the generated `admin_<time>_<random>` id. */
    method AddProduct(product: Product, freshId: string)
      requires Valid()
      modifies this
      ensures Valid()
      ensures shelves == ProductAdded(old(shelves), product, freshId)
    {
      var p := if Truthy(product.id) then product else product.(id := Str(freshId));
      PushTo(product.category, p);
    }

    /** The scan shared by `updateProduct` and `deleteProduct`: categories in
      key order, `findIndex` within each. */
    method Locate(pid: Value) returns (place: Option<Place>)
      ensures place == FindProduct(shelves, pid)
    {
      var c := 0;
      while c < |shelves|
        invariant 0 <= c <= |shelves|
        invariant forall c' :: 0 <= c' < c ==> !Holds(shelves[c'], pid)
      {
        var i := IndexWhere(shelves[c].products, IdIs(pid));
        if i != -1 {
          FindFirstIs(shelves, HoldsId(pid), c);
          return Some(Place(c, i));
        }
        c := c + 1;
      }
      return None;
    }

    /** `updateProduct`: reports whether some category held the id. */
    method UpdateProduct(pid: Value, updated: Product) returns (found: bool)
      requires Valid()
      modifies this
      ensures Valid()
      ensures found <==> FindProduct(old(shelves), pid).Some?
      ensures shelves == ProductUpdated(old(shelves), pid, updated)
    {
      UpdateProductEffect(shelves, pid, updated);
      var place := Locate(pid);
      if place.None? {
        return false;
      }
      var c, i := place.value.shelf, place.value.index;
      var key := shelves[c].key;
      if updated.category != key {
        ReplaceShelf(shelves, c, RemoveAt(shelves[c].products, i));
        shelves := shelves[c := Shelf(key, RemoveAt(shelves[c].products, i))];
        PushTo(updated.category, updated);
      } else {
        shelves := shelves[c := Shelf(key, shelves[c].products[i := updated])];
      }
      return true;
    }

    /** `deleteProduct`: the same scan, splicing the product out. */
    method DeleteProduct(pid: Value) returns (found: bool)
      requires Valid()
      modifies this
      ensures Valid()
      ensures found <==> FindProduct(old(shelves), pid).Some?
      ensures shelves == ProductDeleted(old(shelves), pid)
    {
      DeleteProductEffect(shelves, pid);
      var place := Locate(pid);
      if place.None? {
        return false;
      }
      var c, i := place.value.shelf, place.value.index;
      shelves := shelves[c := Shelf(shelves[c].key, RemoveAt(shelves[c].products, i))];
      return true;
    }

    /** `addCategory({name})`: true when the key was new. */
    method AddCategory(name: string) returns (added: bool)
      requires Valid()
      modifies this
      ensures Valid()
      ensures added <==> name !in Keys(old(shelves))
      ensures shelves == CategoryAdded(old(shelves), name)
    {
      AddCategoryEffect(shelves, name);
      var i := IndexWhere(shelves, KeyIs(name));
      if i == -1 {
        shelves := shelves + [Shelf(name, [])];
        return true;
      }
      return false;
    }

    /** `deleteCategory(name)`: true when the key was present. */
    method DeleteCategory(name: string) returns (deleted: bool)
      requires Valid()
      modifies this
      ensures Valid()
      ensures deleted <==> name in Keys(old(shelves))
      ensures shelves == CategoryDeleted(old(shelves), name)
    {
      DeleteCategoryEffect(shelves, name);
      KeysAreLookups(shelves, name);
      var i := IndexWhere(shelves, KeyIs(name));
      if i != -1 {
        shelves := RemoveAt(shelves, i);
        return true;
      }
      return false;
    }

    /** `getAllProducts`: every category's products in key order, each tagged
      with its key. */
    method GetAllProducts() returns (all: seq<Product>)
      ensures all == Flatten(shelves)
      ensures |all| == ProductCount(shelves)
    {
      FlattenContents(shelves);
      all := [];
      var c := 0;
      while c < |shelves|
        invariant 0 <= c <= |shelves|
        invariant all == Flatten(shelves[..c])
      {
        assert shelves[..c + 1][..c] == shelves[..c];
        all := all + Tagged(shelves[c]);
        c := c + 1;
      }
      assert shelves[..c] == shelves;
    }

    /** `getProductsByCategory(key)`: the key's array, or an empty list. */
    method GetProductsByCategory(key: string) returns (products: seq<Product>)
      requires Valid()
      ensures key in Keys(shelves) ==> Shelf(key, products) in shelves
      ensures key !in Keys(shelves) ==> products == []
    {
      products := ProductsOf(shelves, key);
      if key in Keys(shelves) {
        var i :| 0 <= i < |shelves| && Keys(shelves)[i] == key;
        ProductsAt(shelves, i);
        assert shelves[i] == Shelf(key, products);
      } else {
        ProductsAbsent(shelves, key);
      }
    }

    /** `getCategories`: the keys in order. */
    method GetCategories() returns (keys: seq<string>)
      ensures |keys| == |shelves|
      ensures forall i :: 0 <= i < |shelves| ==> keys[i] == shelves[i].key
    {
      keys := Keys(shelves);
    }
  }
}

=== FILE: chat.dfy ===
/** The support chat both portals share (`donkomi-chat`): conversations keyed
    `user_<id>`, in the order they were created, each a list of messages from
    the customer or the administrator with a read flag. */
module Chat {
  import opened Common

  datatype Sender = User | Admin

  datatype ChatMessage = ChatMessage(id: string, from: Sender, text: string, time: int, read: bool)

  /** One property of the chat object: its key and the stored conversation. */
  datatype Conversation = Conversation(key: string, userId: string, userName: string, userEmail: string, messages: seq<ChatMessage>)

  predicate DistinctKeys(chats: seq<Conversation>)
  {
    forall i, j :: 0 <= i < j < |chats| ==> chats[i].key != chats[j].key
  }

  function KeyIs(key: string): Conversation -> bool
  {
    (c: Conversation) => c.key == key
  }

  /** `chats[key]`: the position of the conversation under `key`, if any. */
  function Find(chats: seq<Conversation>, key: string): Option<nat>
  {
    FindFirst(chats, KeyIs(key))
  }

  predicate Unread(m: ChatMessage, from: Sender)
  {
    m.from == from && !m.read
  }

  /** `messages.some(msg => msg.from === from && !msg.read)`. */
  predicate HasUnreadFrom(msgs: seq<ChatMessage>, from: Sender)
  {
    exists i :: 0 <= i < |msgs| && Unread(msgs[i], from)
  }

  /** The messages after marking those from one side read. */
  function ReadMarked(msgs: seq<ChatMessage>, from: Sender): seq<ChatMessage>
  {
    seq(|msgs|, i requires 0 <= i < |msgs| => if Unread(msgs[i], from) then msgs[i].(read := true) else msgs[i])
  }

  /** Marking one side's messages read leaves none of them unread, touches no
      message from the other side and no text or time, changes nothing when
      nothing was unread, and is idempotent. */
  lemma ReadMarkedEffect(msgs: seq<ChatMessage>, from: Sender)
    ensures var r := ReadMarked(msgs, from);
      && |r| == |msgs|
      && !HasUnreadFrom(r, from)
      && (forall i :: 0 <= i < |msgs| && msgs[i].from != from ==> r[i] == msgs[i])
      && (forall i :: 0 <= i < |msgs| ==> r[i].(read := msgs[i].read) == msgs[i])
      && (forall i :: 0 <= i < |msgs| && msgs[i].read ==> r[i] == msgs[i])
      && (!HasUnreadFrom(msgs, from) ==> r == msgs)
      && ReadMarked(r, from) == r
  {
  }

  /** The `forEach` loop of `markMessagesAsRead`: flip every unread message
      from `from` and report whether there was one. */
  method MarkRead(msgs: seq<ChatMessage>, from: Sender) returns (marked: seq<ChatMessage>, hasUnread: bool)
    ensures marked == ReadMarked(msgs, from)
    ensures hasUnread <==> HasUnreadFrom(msgs, from)
  {
    marked := msgs;
    hasUnread := false;
    var i := 0;
    while i < |msgs|
      invariant 0 <= i <= |msgs|
      invariant |marked| == |msgs|
      invariant forall j :: 0 <= j < i ==> marked[j] == ReadMarked(msgs, from)[j]
      invariant forall j :: i <= j < |msgs| ==> marked[j] == msgs[j]
      invariant hasUnread <==> exists j :: 0 <= j < i && Unread(msgs[j], from)
    {
      if marked[i].from == from && !marked[i].read {
        marked := marked[i := marked[i].(read := true)];
        hasUnread := true;
      }
      i := i + 1;
    }
  }

  /** The conversations after appending `m` to the one under `key`, creating
      it from `started` when the key is absent. */
  function Posted(chats: seq<Conversation>, key: string, started: Conversation, m: ChatMessage): seq<Conversation>
  {
    match Find(chats, key)
    case Some(i) => chats[i := chats[i].(messages := chats[i].messages + [m])]
    case None => chats + [started.(key := key, messages := [m])]
  }

  /** Posting appends exactly one message to the conversation under `key`,
      which is created last when missing, and leaves every other
      conversation where and as it was. */
  lemma PostedEffect(chats: seq<Conversation>, key: string, started: Conversation, m: ChatMessage)
    requires DistinctKeys(chats)
    ensures var r := Posted(chats, key, started, m);
      && DistinctKeys(r)
      && (forall j :: 0 <= j < |chats| && chats[j].key != key ==> r[j] == chats[j])
      && match Find(chats, key)
         case Some(i) =>
           |r| == |chats| && r[i].key == key && r[i].messages == chats[i].messages + [m]
           && r[i].(messages := chats[i].messages) == chats[i]
         case None =>
           |r| == |chats| + 1 && r[|chats|] == started.(key := key, messages := [m])
  {
  }

  /** The key of a customer's conversation. */
  function UserChatKey(userId: string): string
  {
    "user_" + userId
  }

  /** The conversations after the customer's `sendMessage`: blank text is
      ignored, otherwise one unread customer message with the trimmed text. */
  function UserSent(chats: seq<Conversation>, userId: string, firstName: string, lastName: string, email: string,
                    text: string, msgId: string, now: int): seq<Conversation>
  {
    var body := Trim(text);
    if body == "" then chats
    else
      Posted(chats, UserChatKey(userId), Conversation(UserChatKey(userId), userId, firstName + " " + lastName, email, []),
             ChatMessage(msgId, User, body, now, false))
  }

  /** The conversations after the administrator's `sendAdminMessage`: nothing
      without an active conversation, with blank text, or when the active
      conversation is missing; otherwise one unread administrator message. */
  function AdminSent(chats: seq<Conversation>, active: Option<string>, text: string, msgId: string, now: int): seq<Conversation>
  {
    var body := Trim(text);
    if active.None? || body == "" then chats
    else
      match Find(chats, active.value)
      case None => chats
      case Some(i) => chats[i := chats[i].(messages := chats[i].messages + [ChatMessage(msgId, Admin, body, now, false)])]
  }

  /** A customer's message is sent exactly when the text is not blank; it
      lands, unread and trimmed, at the end of that customer's conversation. */
  lemma UserSentEffect(chats: seq<Conversation>, userId: string, firstName: string, lastName: string, email: string,
                       text: string, msgId: string, now: int)
    requires DistinctKeys(chats)
    ensures var r := UserSent(chats, userId, firstName, lastName, email, text, msgId, now);
      && DistinctKeys(r)
      && ((forall i :: 0 <= i < |text| ==> IsJsSpace(text[i])) <==> r == chats)
      && (r != chats ==>
            exists i :: 0 <= i < |r| && r[i].key == UserChatKey(userId)
              && r[i].messages[|r[i].messages| - 1] == ChatMessage(msgId, User, Trim(text), now, false))
      && |r| >= |chats|
      && (forall j :: 0 <= j < |chats| && chats[j].key != UserChatKey(userId) ==> r[j] == chats[j])
      && (r != chats ==>
            var m := ChatMessage(msgId, User, Trim(text), now, false);
            match Find(chats, UserChatKey(userId))
            case Some(i) =>
              && |r| == |chats|
              && r[i].messages == chats[i].messages + [m]
              && r[i].(messages := chats[i].messages) == chats[i]
            case None =>
              r == chats + [Conversation(UserChatKey(userId), userId, firstName + " " + lastName, email, [m])])
  {
    TrimEmptyIffBlank(text);
    var key := UserChatKey(userId);
    var m := ChatMessage(msgId, User, Trim(text), now, false);
    var started := Conversation(key, userId, firstName + " " + lastName, email, []);
    if Trim(text) != "" {
      var r := Posted(chats, key, started, m);
      PostedEffect(chats, key, started, m);
      match Find(chats, key)
      case Some(i) =>
        assert r[i].messages != chats[i].messages;
      case None =>
        assert |r| != |chats|;
        assert r == chats + [started.(key := key, messages := [m])];
    }
  }

  /** The administrator's message is sent exactly when there is an active
      conversation that exists and the text is not blank; then it is the last
      message of that conversation, and every other conversation is unchanged. */
  lemma AdminSentEffect(chats: seq<Conversation>, active: Option<string>, text: string, msgId: string, now: int)
    ensures var r := AdminSent(chats, active, text, msgId, now);
      && |r| == |chats|
      && (r != chats <==> active.Some? && Find(chats, active.value).Some? && Trim(text) != "")
      && (r != chats ==>
            var i := Find(chats, active.value).value;
            && r[i].messages == chats[i].messages + [ChatMessage(msgId, Admin, Trim(text), now, false)]
            && r[i].(messages := chats[i].messages) == chats[i]
            && forall j :: 0 <= j < |chats| && j != i ==> r[j] == chats[j])
  {
    var r := AdminSent(chats, active, text, msgId, now);
    if active.Some? && Trim(text) != "" && Find(chats, active.value).Some? {
      var i := Find(chats, active.value).value;
      assert |r[i].messages| != |chats[i].messages|;
    }
  }

  /** Time of the last message, 0 for a conversation without messages. */
  function LastTime(c: Conversation): int
  {
    if |c.messages| > 0 then c.messages[|c.messages| - 1].time else 0
  }

  /** Place `c` before the first conversation that is not more recent. */
  function InsertByRecency(c: Conversation, s: seq<Conversation>): seq<Conversation>
  {
    if s == [] then [c]
    else if LastTime(s[0]) <= LastTime(c) then [c] + s
    else [s[0]] + InsertByRecency(c, s[1..])
  }

  /** The order `loadConversations` lists conversations in: the sort with
      comparator `bTime - aTime`, which is stable. */
  function ByRecency(cs: seq<Conversation>): seq<Conversation>
  {
    if cs == [] then [] else InsertByRecency(cs[0], ByRecency(cs[1..]))
  }

  predicate MostRecentFirst(s: seq<Conversation>)
  {
    forall i, j :: 0 <= i < j < |s| ==> LastTime(s[i]) >= LastTime(s[j])
  }

  function LastTimeIs(t: int): Conversation -> bool
  {
    (c: Conversation) => LastTime(c) == t
  }

  lemma {:induction false} InsertKeepsOrder(c: Conversation, s: seq<Conversation>)
    requires MostRecentFirst(s)
    ensures MostRecentFirst(InsertByRecency(c, s))
    ensures forall x :: x in InsertByRecency(c, s) ==> x == c || x in s
  {
    if s != [] && LastTime(s[0]) > LastTime(c) {
      var rest := InsertByRecency(c, s[1..]);
      InsertKeepsOrder(c, s[1..]);
      forall x | x in rest
        ensures LastTime(x) <= LastTime(s[0])
      {
        if x != c {
          var k :| 0 <= k < |s[1..]| && s[1..][k] == x;
          assert s[k + 1] == x;
        }
      }
      PrependKeepsOrder(s[0], rest);
      assert s == [s[0]] + s[1..];
    } else if s != [] {
      forall x | x in s
        ensures LastTime(x) <= LastTime(c)
      {
        var k :| 0 <= k < |s| && s[k] == x;
      }
      PrependKeepsOrder(c, s);
    }
  }

  /** A conversation at least as recent as all of a sorted list can go first. */
  lemma PrependKeepsOrder(h: Conversation, s: seq<Conversation>)
    requires MostRecentFirst(s)
    requires forall x :: x in s ==> LastTime(x) <= LastTime(h)
    ensures MostRecentFirst([h] + s)
  {
    var r := [h] + s;
    forall i, j | 0 <= i < j < |r|
      ensures LastTime(r[i]) >= LastTime(r[j])
    {
      assert r[j] == s[j - 1] && r[j] in s;
      if i > 0 {
        assert r[i] == s[i - 1];
      }
    }
  }

  lemma {:induction false} InsertPermutes(c: Conversation, s: seq<Conversation>)
    ensures multiset(InsertByRecency(c, s)) == multiset(s) + multiset{c}
  {
    if s != [] && LastTime(s[0]) > LastTime(c) {
      InsertPermutes(c, s[1..]);
      assert s == [s[0]] + s[1..];
    }
  }

  /** Inserting keeps, for every time, the conversations with that time in
      their relative order, the new one first among them. */
  lemma {:induction false} InsertIsStable(c: Conversation, s: seq<Conversation>, t: int)
    ensures Filter(InsertByRecency(c, s), LastTimeIs(t)) == Filter([c], LastTimeIs(t)) + Filter(s, LastTimeIs(t))
  {
    var f := LastTimeIs(t);
    if s == [] {
      assert Filter(s, f) == [];
      assert InsertByRecency(c, s) == [c];
    } else if LastTime(s[0]) <= LastTime(c) {
      assert InsertByRecency(c, s) == [c] + s;
      FilterConcat([c], s, f);
    } else {
      var s0, s1 := s[0], s[1..];
      InsertIsStable(c, s1, t);
      assert InsertByRecency(c, s) == [s0] + InsertByRecency(c, s1);
      assert [s0] + s1 == s;
      FilterSwap(s0, c, s1, InsertByRecency(c, s1), f);
    }
  }

  /** The conversation list is a permutation of the conversations, most
      recent first, and conversations with equal times keep the order in
      which they were created. */
  lemma {:induction false} ByRecencySorts(cs: seq<Conversation>)
    ensures MostRecentFirst(ByRecency(cs))
    ensures multiset(ByRecency(cs)) == multiset(cs)
    ensures forall t :: Filter(ByRecency(cs), LastTimeIs(t)) == Filter(cs, LastTimeIs(t))
  {
    if cs != [] {
      ByRecencySorts(cs[1..]);
      InsertKeepsOrder(cs[0], ByRecency(cs[1..]));
      InsertPermutes(cs[0], ByRecency(cs[1..]));
      assert cs == [cs[0]] + cs[1..];
      forall t ensures Filter(ByRecency(cs), LastTimeIs(t)) == Filter(cs, LastTimeIs(t)) {
        InsertIsStable(cs[0], ByRecency(cs[1..]), t);
        FilterConcat([cs[0]], cs[1..], LastTimeIs(t));
      }
    }
  }

  /** The administrator's badge: some conversation has an unread customer message. */
  predicate AdminBadgeShown(chats: seq<Conversation>)
  {
    exists i :: 0 <= i < |chats| && HasUnreadFrom(chats[i].messages, User)
  }

  /** The customer's badge: their conversation has an unread administrator
      message; with no conversation the badge is left as it is (`None`). */
  function UserBadge(chats: seq<Conversation>, userId: string): (r: Option<bool>)
    ensures r.None? <==> Find(chats, UserChatKey(userId)).None?
  {
    match Find(chats, UserChatKey(userId))
    case None => None
    case Some(i) => Some(HasUnreadFrom(chats[i].messages, Admin))
  }

  /** After the customer reads their conversation, the customer's badge is off. */
  lemma ReadingClearsUserBadge(chats: seq<Conversation>, userId: string)
    requires Find(chats, UserChatKey(userId)).Some?
    ensures var i := Find(chats, UserChatKey(userId)).value;
      UserBadge(chats[i := chats[i].(messages := ReadMarked(chats[i].messages, Admin))], userId) == Some(false)
  {
    var i := Find(chats, UserChatKey(userId)).value;
    var r := chats[i := chats[i].(messages := ReadMarked(chats[i].messages, Admin))];
    ReadMarkedEffect(chats[i].messages, Admin);
    FindFirstIs(r, KeyIs(UserChatKey(userId)), i);
  }

  /** The conversations after marking one conversation's messages from
      `from` read; a missing conversation changes nothing. */
  function ConversationRead(chats: seq<Conversation>, key: string, from: Sender): seq<Conversation>
  {
    match Find(chats, key)
    case None => chats
    case Some(i) => chats[i := chats[i].(messages := ReadMarked(chats[i].messages, from))]
  }
}

=== FILE: common.dfy ===
/** Shared vocabulary of the storefront model: JavaScript values as the
    browser code and the relay store them, optional values, and the
    sequence and string helpers (`filter`, `reduce`, `trim`, `includes`,
    `toLowerCase`, `toString`) that several components use. */
module Common {

  datatype Option<T> = None | Some(value: T)

  /** A JavaScript value. Numbers are integers in this model; arrays and
      objects are opaque and identified by their reference, which is what
      `===` compares for them. */
  datatype Value = Undefined | Null | Bool(b: bool) | Num(n: int) | Str(s: string) | Ref(address: nat)

  /** The own enumerable properties of a plain object. */
  type Fields = map<string, Value>

  /** Property read: a missing property reads as `undefined`. */
  function Get(o: Fields, key: string): Value
  {
    if key in o then o[key] else Undefined
  }

  /** JavaScript truthiness (`if (v)`, `!v`, `v || d`). */
  predicate Truthy(v: Value)
  {
    match v
    case Undefined => false
    case Null => false
    case Bool(b) => b
    case Num(n) => n != 0
    case Str(s) => s != ""
    case Ref(_) => true
  }

  // ---------------------------------------------------------------------------
  // Array.prototype.filter and reduce

  /** `s.filter(keep)`: the elements of `s` that `keep` accepts, in order. */
  function Filter<T>(s: seq<T>, keep: T -> bool): (r: seq<T>)
    ensures |r| <= |s|
  {
    if s == [] then []
    else Filter(s[..|s| - 1], keep) + (if keep(s[|s| - 1]) then [s[|s| - 1]] else [])
  }

  /** Filtering keeps exactly the accepted elements. */
  lemma {:induction false} FilterMembers<T>(s: seq<T>, keep: T -> bool, x: T)
    ensures x in Filter(s, keep) <==> x in s && keep(x)
  {
    if s != [] {
      FilterMembers(s[..|s| - 1], keep, x);
      assert s == s[..|s| - 1] + [s[|s| - 1]];
    }
  }

  /** Filtering a concatenation filters each part and keeps their order. */
  lemma {:induction false} FilterConcat<T>(a: seq<T>, b: seq<T>, keep: T -> bool)
    ensures Filter(a + b, keep) == Filter(a, keep) + Filter(b, keep)
    decreases |b|
  {
    if b == [] {
      assert a + b == a;
    } else {
      var b', x := b[..|b| - 1], b[|b| - 1];
      FilterConcat(a, b', keep);
      assert (a + b)[..|a + b| - 1] == a + b';
      assert (a + b)[|a + b| - 1] == x;
      var tail := if keep(x) then [x] else [];
      calc {
        Filter(a + b, keep);
        Filter(a + b', keep) + tail;
        Filter(a, keep) + Filter(b', keep) + tail;
        Filter(a, keep) + Filter(b, keep);
      }
    }
  }

  /** Filtering a one-element sequence. */
  lemma FilterOne<T>(x: T, keep: T -> bool)
    ensures Filter([x], keep) == if keep(x) then [x] else []
  {
    assert [x][..0] == [];
  }

  /** An element `x` may pass an element `y` without changing the filtered
      sequence when at most one of them is kept. */
  lemma FilterSwap<T>(x: T, y: T, a: seq<T>, b: seq<T>, keep: T -> bool)
    requires !(keep(x) && keep(y))
    requires Filter(b, keep) == Filter([y], keep) + Filter(a, keep)
    ensures Filter([x] + b, keep) == Filter([y], keep) + Filter([x] + a, keep)
  {
    FilterConcat([x], b, keep);
    FilterConcat([x], a, keep);
    FilterOneOfTwo(x, y, keep);
    SwapParts(Filter([x], keep), Filter([y], keep), Filter(a, keep));
  }

  lemma FilterOneOfTwo<T>(x: T, y: T, keep: T -> bool)
    requires !(keep(x) && keep(y))
    ensures Filter([x], keep) == [] || Filter([y], keep) == []
  {
    FilterOne(x, keep);
    FilterOne(y, keep);
  }

  lemma SwapParts<T>(fx: seq<T>, fy: seq<T>, fa: seq<T>)
    requires fx == [] || fy == []
    ensures fx + (fy + fa) == fy + (fx + fa)
  {
  }

  /** A filter that accepts nothing returns nothing. */
  lemma {:induction false} FilterKeepsNone<T>(s: seq<T>, keep: T -> bool)
    requires forall x :: x in s ==> !keep(x)
    ensures Filter(s, keep) == []
  {
    if s != [] {
      FilterKeepsNone(s[..|s| - 1], keep);
      assert s[|s| - 1] in s;
    }
  }

  function Indicator<T>(keep: T -> bool): T -> int
  {
    (x: T) => if keep(x) then 1 else 0
  }

  /** The length of a filtered sequence counts the accepted elements. */
  lemma {:induction false} FilterLength<T>(s: seq<T>, keep: T -> bool)
    ensures |Filter(s, keep)| == SumOf(s, Indicator(keep))
  {
    if s != [] {
      FilterLength(s[..|s| - 1], keep);
    }
  }

  /** A filtered sequence is empty exactly when no element is accepted. */
  lemma FilterEmptyIff<T>(s: seq<T>, keep: T -> bool)
    ensures Filter(s, keep) == [] <==> forall i :: 0 <= i < |s| ==> !keep(s[i])
  {
    if forall i :: 0 <= i < |s| ==> !keep(s[i]) {
      FilterKeepsNone(s, keep);
    } else {
      var i :| 0 <= i < |s| && keep(s[i]);
      FilterMembers(s, keep, s[i]);
    }
  }

  /** Filtering first by another test can only lose accepted elements. */
  lemma {:induction false} FilterFilterShorter<T>(s: seq<T>, first: T -> bool, keep: T -> bool)
    ensures |Filter(Filter(s, first), keep)| <= |Filter(s, keep)|
  {
    if s != [] {
      var init, x := s[..|s| - 1], s[|s| - 1];
      FilterFilterShorter(init, first, keep);
      var f := Filter(init, first);
      if first(x) {
        assert Filter(s, first) == f + [x];
        assert (f + [x])[..|f + [x]| - 1] == f;
        assert Filter(f + [x], keep) == Filter(f, keep) + (if keep(x) then [x] else []);
      } else {
        assert Filter(s, first) == f;
      }
      assert Filter(s, keep) == Filter(init, keep) + (if keep(x) then [x] else []);
    }
  }

  /** A filter that rejects nothing returns its input. */
  lemma {:induction false} FilterKeepsAll<T>(s: seq<T>, keep: T -> bool)
    requires forall x :: x in s ==> keep(x)
    ensures Filter(s, keep) == s
  {
    if s != [] {
      FilterKeepsAll(s[..|s| - 1], keep);
      assert s == s[..|s| - 1] + [s[|s| - 1]];
    }
  }

  /** `s.findIndex(p)`, as a value: the first position whose element `p`
      accepts, or None when there is none. */
  function FindFirst<T>(s: seq<T>, p: T -> bool): (r: Option<nat>)
    ensures r.None? <==> forall i :: 0 <= i < |s| ==> !p(s[i])
    ensures r.Some? ==> r.value < |s| && p(s[r.value])
    ensures r.Some? ==> forall j :: 0 <= j < r.value ==> !p(s[j])
  {
    if s == [] then None
    else if p(s[0]) then Some(0)
    else match FindFirst(s[1..], p)
      case None => None
      case Some(i) => Some(i + 1)
  }

  /** A position whose element is accepted, with no accepted element before
      it, is what FindFirst returns. */
  lemma FindFirstIs<T>(s: seq<T>, p: T -> bool, k: nat)
    requires k < |s| && p(s[k])
    requires forall j :: 0 <= j < k ==> !p(s[j])
    ensures FindFirst(s, p) == Some(k)
  {
    var r := FindFirst(s, p);
    assert r.Some?;
    assert !(r.value < k);
    assert !(r.value > k);
  }

  /** `s.splice(i, 1)`: the sequence without its element at `i`. */
  function RemoveAt<T>(s: seq<T>, i: nat): (r: seq<T>)
    requires i < |s|
    ensures |r| == |s| - 1
    ensures forall j :: 0 <= j < i ==> r[j] == s[j]
    ensures forall j :: i <= j < |r| ==> r[j] == s[j + 1]
  {
    s[..i] + s[i + 1..]
  }

  /** The scan behind `findIndex`: the first accepted position, or -1. */
  method IndexWhere<T>(s: seq<T>, p: T -> bool) returns (index: int)
    ensures -1 <= index < |s|
    ensures index == -1 <==> FindFirst(s, p).None?
    ensures index >= 0 ==> FindFirst(s, p) == Some(index)
  {
    index := 0;
    while index < |s|
      invariant 0 <= index <= |s|
      invariant forall j :: 0 <= j < index ==> !p(s[j])
    {
      if p(s[index]) {
        return;
      }
      index := index + 1;
    }
    index := -1;
  }

  /** `s.reduce((acc, x) => acc + f(x), 0)`. */
  function SumOf<T>(s: seq<T>, f: T -> int): int
  {
    if s == [] then 0 else SumOf(s[..|s| - 1], f) + f(s[|s| - 1])
  }

  /** The fold over a concatenation is the sum of the folds. */
  lemma {:induction false} SumOfConcat<T>(a: seq<T>, b: seq<T>, f: T -> int)
    ensures SumOf(a + b, f) == SumOf(a, f) + SumOf(b, f)
    decreases |b|
  {
    if b == [] {
      assert a + b == a;
    } else {
      SumOfConcat(a, b[..|b| - 1], f);
      assert (a + b)[..|a + b| - 1] == a + b[..|b| - 1];
    }
  }

  /** Splitting a sequence by a predicate and its negation splits its fold. */
  lemma {:induction false} SumOfPartition<T>(s: seq<T>, keep: T -> bool, drop: T -> bool, f: T -> int)
    requires forall x :: drop(x) == !keep(x)
    ensures SumOf(Filter(s, keep), f) + SumOf(Filter(s, drop), f) == SumOf(s, f)
  {
    if s != [] {
      var s', x := s[..|s| - 1], s[|s| - 1];
      SumOfPartition(s', keep, drop, f);
      var a := if keep(x) then [x] else [];
      var b := if drop(x) then [x] else [];
      SumOfConcat(Filter(s', keep), a, f);
      SumOfConcat(Filter(s', drop), b, f);
      assert [x][..0] == [];
    }
  }

  /** The fold over `pre + [y] + post` splits around `y`. */
  lemma SumOfAround<T>(pre: seq<T>, y: T, post: seq<T>, f: T -> int)
    ensures SumOf(pre + [y] + post, f) == SumOf(pre, f) + f(y) + SumOf(post, f)
  {
    SumOfConcat(pre + [y], post, f);
    SumOfConcat(pre, [y], f);
    assert [y][..0] == [];
  }

  /** Changing one element changes the fold by the difference of the two terms. */
  lemma SumOfUpdate<T>(s: seq<T>, i: nat, x: T, f: T -> int)
    requires i < |s|
    ensures SumOf(s[i := x], f) == SumOf(s, f) - f(s[i]) + f(x)
  {
    assert s == s[..i] + [s[i]] + s[i + 1..];
    assert s[i := x] == s[..i] + [x] + s[i + 1..];
    SumOfAround(s[..i], s[i], s[i + 1..], f);
    SumOfAround(s[..i], x, s[i + 1..], f);
  }

  // ---------------------------------------------------------------------------
  // String helpers

  /** The characters String.prototype.trim removes: WhiteSpace and
      LineTerminator of ECMAScript (section 12.2 and 12.3 of ECMA-262). */
  predicate IsJsSpace(c: char)
  {
    var k := c as int;
    k == 0x09 || k == 0x0A || k == 0x0B || k == 0x0C || k == 0x0D || k == 0x20 || k == 0xA0
    || k == 0x1680 || (0x2000 <= k <= 0x200A) || k == 0x2028 || k == 0x2029 || k == 0x202F
    || k == 0x205F || k == 0x3000 || k == 0xFEFF
  }

  /** Leading white space removed: a suffix of `s` that starts with a non-space. */
  function TrimStart(s: string): (r: string)
    ensures |r| <= |s| && r == s[|s| - |r|..]
    ensures r == [] || !IsJsSpace(r[0])
    ensures forall i :: 0 <= i < |s| - |r| ==> IsJsSpace(s[i])
  {
    if s != [] && IsJsSpace(s[0]) then
      var r := TrimStart(s[1..]);
      assert forall i :: 1 <= i < |s| - |r| ==> s[i] == s[1..][i - 1];
      r
    else s
  }

  /** Trailing white space removed: a prefix of `s` that ends with a non-space. */
  function TrimEnd(s: string): (r: string)
    ensures |r| <= |s| && r == s[..|r|]
    ensures r == [] || !IsJsSpace(r[|r| - 1])
    ensures forall i :: |r| <= i < |s| ==> IsJsSpace(s[i])
  {
    if s != [] && IsJsSpace(s[|s| - 1]) then TrimEnd(s[..|s| - 1]) else s
  }

  /** `s.trim()`. */
  function Trim(s: string): string
  {
    TrimEnd(TrimStart(s))
  }

  /** `s.trim()` is empty exactly when `s` holds nothing but white space. */
  lemma TrimEmptyIffBlank(s: string)
    ensures Trim(s) == "" <==> forall i :: 0 <= i < |s| ==> IsJsSpace(s[i])
  {
    var t := TrimStart(s);
    if Trim(s) == "" {
      assert t == [];
    } else {
      assert t != [] && !IsJsSpace(t[0]);
      assert s[|s| - |t|] == t[0];
    }
  }

  /** `s.trim()` keeps the middle of `s`: it is a contiguous piece of it with
      no white space at either end. */
  lemma TrimIsTrimmed(s: string)
    ensures exists i :: OccursAt(s, Trim(s), i)
    ensures Trim(s) == [] || (!IsJsSpace(Trim(s)[0]) && !IsJsSpace(Trim(s)[|Trim(s)| - 1]))
  {
    var t := TrimStart(s);
    var r := TrimEnd(t);
    assert Trim(s) == r;
    var i := |s| - |t|;
    assert t == s[i..];
    assert r == t[..|r|];
    assert s[i..i + |r|] == s[i..][..|r|];
    assert OccursAt(s, r, i);
    if r != [] {
      assert r[0] == t[0];
    }
  }

  /** ASCII case mapping of `toLowerCase`. */
  function LowerChar(c: char): char
  {
    if 'A' <= c <= 'Z' then (c as int + 32) as char else c
  }

  /** `s.toLowerCase()` on ASCII letters. */
  function Lower(s: string): (r: string)
    ensures |r| == |s|
    ensures forall i :: 0 <= i < |s| ==> r[i] == LowerChar(s[i])
  {
    seq(|s|, i requires 0 <= i < |s| => LowerChar(s[i]))
  }

  /** `needle` occurs in `hay` starting at position `i`. */
  predicate OccursAt(hay: string, needle: string, i: int)
  {
    0 <= i && i + |needle| <= |hay| && hay[i..i + |needle|] == needle
  }

  /** An occurrence in the tail is an occurrence one place later in the whole. */
  lemma OccursShift(hay: string, needle: string, i: int)
    requires |hay| > 0 && 0 <= i
    ensures OccursAt(hay[1..], needle, i) <==> OccursAt(hay, needle, i + 1)
  {
    if 0 <= i && i + 1 + |needle| <= |hay| {
      assert hay[1..][i..i + |needle|] == hay[i + 1..i + 1 + |needle|];
    }
  }

  /** `hay.includes(needle)`: a left-to-right scan for an occurrence. */
  function Includes(hay: string, needle: string): (r: bool)
    ensures r <==> exists i :: OccursAt(hay, needle, i)
    decreases |hay|
  {
    if |needle| > |hay| then false
    else if hay[..|needle|] == needle then
      assert OccursAt(hay, needle, 0);
      true
    else
      var r := Includes(hay[1..], needle);
      forall i | OccursAt(hay[1..], needle, i) ensures OccursAt(hay, needle, i + 1) {
        OccursShift(hay, needle, i);
      }
      assert !OccursAt(hay, needle, 0);
      forall i | OccursAt(hay, needle, i) && i != 0 ensures OccursAt(hay[1..], needle, i - 1) {
        OccursShift(hay, needle, i - 1);
      }
      r
  }

  /** One decimal digit. */
  function DigitChar(d: nat): char
    requires d < 10
  {
    "0123456789"[d]
  }

  /** `n.toString()` for a non-negative integer. */
  function NatToString(n: nat): (r: string)
    ensures |r| >= 1
    ensures forall i :: 0 <= i < |r| ==> '0' <= r[i] <= '9'
  {
    if n < 10 then [DigitChar(n)] else NatToString(n / 10) + [DigitChar(n % 10)]
  }

  /** The number a string of decimal digits denotes. */
  function DigitsValue(s: string): int
  {
    if s == [] then 0 else DigitsValue(s[..|s| - 1]) * 10 + (s[|s| - 1] as int - '0' as int)
  }

  /** Reading back the decimal text of a number gives the number. */
  lemma {:induction false} NatToStringRoundTrip(n: nat)
    ensures DigitsValue(NatToString(n)) == n
  {
    var r := NatToString(n);
    if n >= 10 {
      NatToStringRoundTrip(n / 10);
      assert r[..|r| - 1] == NatToString(n / 10);
    }
  }

  /** A number below 100 prints as one or two digits. */
  lemma NatToStringShort(n: nat)
    requires n < 100
    ensures |NatToString(n)| <= 2
  {
    if n >= 10 {
      assert |NatToString(n / 10)| == 1;
    }
  }

  /** `s.replace(from, to)` with a one-character string pattern: only the
      first occurrence is replaced. */
  function ReplaceFirst(s: string, from: char, to: char): (r: string)
    ensures |r| == |s|
    ensures from in s ==> exists i :: 0 <= i < |s| && s[i] == from && r == s[i := to]
                                      && forall j :: 0 <= j < i ==> s[j] != from
    ensures from !in s ==> r == s
  {
    if s == [] then []
    else if s[0] == from then [to] + s[1..]
    else
      var rest := ReplaceFirst(s[1..], from, to);
      if from in s[1..] then
        var i :| 0 <= i < |s[1..]| && s[1..][i] == from && rest == s[1..][i := to]
                 && forall j :: 0 <= j < i ==> s[1..][j] != from;
        assert [s[0]] + rest == s[i + 1 := to];
        [s[0]] + rest
      else
        assert s == [s[0]] + s[1..];
        [s[0]] + rest
  }

  /** How long ago a moment was, in the buckets the portals print ("Just
      now", "5m ago", "3h ago", "2d ago", or a calendar date). */
  datatype Elapsed = JustNow | MinutesAgo(minutes: nat) | HoursAgo(hours: nat) | DaysAgo(days: nat) | OnDate(timestamp: int)

  const MinuteMs: int := 60000
  const HourMs: int := 3600000
  const DayMs: int := 86400000

  /** `formatTimeAgo` / `formatTime`: whole minutes, hours and days elapsed,
      each rounded down (`Math.floor`, which for a positive divisor is
      Dafny's division), tried from the smallest unit up. */
  function TimeAgo(now: int, timestamp: int): Elapsed
  {
    var diff := now - timestamp;
    var minutes, hours, days := diff / MinuteMs, diff / HourMs, diff / DayMs;
    if minutes < 1 then JustNow
    else if minutes < 60 then MinutesAgo(minutes)
    else if hours < 24 then HoursAgo(hours)
    else if days < 7 then DaysAgo(days)
    else OnDate(timestamp)
  }

  /** The text of every bucket but the calendar date. */
  function ElapsedText(e: Elapsed): string
    requires !e.OnDate?
  {
    match e
    case JustNow => "Just now"
    case MinutesAgo(m) => NatToString(m) + "m ago"
    case HoursAgo(h) => NatToString(h) + "h ago"
    case DaysAgo(d) => NatToString(d) + "d ago"
  }

  /** The buckets split the elapsed time at one minute, one hour, one day and
      seven days (a moment in the future counts as just now), and each count
      is the number of whole units elapsed. */
  lemma TimeAgoBuckets(now: int, timestamp: int)
    ensures var diff, e := now - timestamp, TimeAgo(now, timestamp);
      && (e == JustNow <==> diff < MinuteMs)
      && (e.MinutesAgo? <==> MinuteMs <= diff < HourMs)
      && (e.HoursAgo? <==> HourMs <= diff < DayMs)
      && (e.DaysAgo? <==> DayMs <= diff < 7 * DayMs)
      && (e.OnDate? <==> 7 * DayMs <= diff)
      && (e.MinutesAgo? ==> 1 <= e.minutes < 60 && e.minutes * MinuteMs <= diff < (e.minutes + 1) * MinuteMs)
      && (e.HoursAgo? ==> 1 <= e.hours < 24 && e.hours * HourMs <= diff < (e.hours + 1) * HourMs)
      && (e.DaysAgo? ==> 1 <= e.days < 7 && e.days * DayMs <= diff < (e.days + 1) * DayMs)
  {
    var diff := now - timestamp;
    var minutes, hours, days := diff / MinuteMs, diff / HourMs, diff / DayMs;
    assert minutes * MinuteMs <= diff < (minutes + 1) * MinuteMs;
    assert hours * HourMs <= diff < (hours + 1) * HourMs;
    assert days * DayMs <= diff < (days + 1) * DayMs;
  }
}

=== FILE: portal.dfy ===
/** The customer portal: accounts, saved addresses and payment methods, the
    wishlist, persistent notifications and the customer's side of the chat.
    The browser storage lists `donkomi-users`, `donkomi-notifications` and
    `donkomi-chat` are fields of the portal object; ids and clock readings
    are supplied by the caller. */
module Portal {
  import opened Common
  import opened Chat

  /** A saved address or payment method; both carry an id and a default flag. */
  datatype Entry =
    | Address(id: string, title: string, address: string, city: string, postalCode: string, isDefault: bool)
    | PaymentMethod(id: string, kind: string, accountName: string, accountNumber: string, isDefault: bool)

  datatype WishItem = WishItem(id: Value, name: string)

  /** A customer record as `handleSignUp` creates it. */
  datatype Account = Account(id: string, firstName: string, lastName: string, email: string, phone: string,
                             password: string, location: string, dateJoined: string,
                             wishlist: seq<WishItem>, addresses: seq<Entry>, paymentMethods: seq<Entry>)

  datatype SignUpForm = SignUpForm(firstName: string, lastName: string, email: string, phone: string,
                                   password: string, confirmPassword: string, location: string)

  /** A persistent notification (`donkomi-notifications` entry). */
  datatype Note = Note(id: string, title: string, message: string, kind: string, timestamp: int, read: bool, userId: string)

  /** A generated id and the clock reading of the moment it was made. */
  datatype Stamp = Stamp(id: string, now: int)

  // ---------------------------------------------------------------- accounts

  function Credentials(email: string, password: string): Account -> bool
  {
    (u: Account) => u.email == email && u.password == password
  }

  function EmailIs(email: string): Account -> bool
  {
    (u: Account) => u.email == email
  }

  /** `handleSignIn` looks up the first account with both the email and the
      password given. */
  function SignInMatch(users: seq<Account>, email: string, password: string): (r: Option<nat>)
    ensures r.None? <==> forall i :: 0 <= i < |users| ==> !(users[i].email == email && users[i].password == password)
    ensures r.Some? ==> r.value < |users| && users[r.value].email == email && users[r.value].password == password
  {
    FindFirst(users, Credentials(email, password))
  }

  predicate DistinctEmails(users: seq<Account>)
  {
    forall i, j :: 0 <= i < j < |users| ==> users[i].email != users[j].email
  }

  /** With distinct emails a successful sign-in names the one account
      registered under that email. */
  lemma SignInUnique(users: seq<Account>, email: string, password: string, k: nat)
    requires DistinctEmails(users)
    requires k < |users| && users[k].email == email && users[k].password == password
    ensures SignInMatch(users, email, password) == Some(k)
  {
    FindFirstIs(users, Credentials(email, password), k);
  }

  datatype SignUpCheck = PasswordsDiffer | EmailTaken | Accepted

  /** `handleSignUp`'s two refusals, in the order it checks them. */
  function CheckSignUp(users: seq<Account>, form: SignUpForm): (r: SignUpCheck)
    ensures r == PasswordsDiffer <==> form.password != form.confirmPassword
    ensures r == EmailTaken <==>
      form.password == form.confirmPassword && exists i :: 0 <= i < |users| && users[i].email == form.email
  {
    if form.password != form.confirmPassword then PasswordsDiffer
    else if FindFirst(users, EmailIs(form.email)).Some? then EmailTaken
    else Accepted
  }

  /** The toast for a refused sign-up. */
  function SignUpError(check: SignUpCheck): string
  {
    if check == PasswordsDiffer then "Passwords do not match" else "User with this email already exists"
  }

  /** The record `handleSignUp` registers: the form's fields and empty lists. */
  function NewAccount(form: SignUpForm, id: string, joined: string): Account
  {
    Account(id, form.firstName, form.lastName, form.email, form.phone, form.password, form.location, joined, [], [], [])
  }

  /** Registering only accepted sign-ups keeps emails unique, so a new
      account can sign in with the password it registered. */
  lemma SignUpKeepsEmailsDistinct(users: seq<Account>, form: SignUpForm, id: string, joined: string)
    requires DistinctEmails(users) && CheckSignUp(users, form) == Accepted
    ensures DistinctEmails(users + [NewAccount(form, id, joined)])
    ensures SignInMatch(users + [NewAccount(form, id, joined)], form.email, form.password) == Some(|users|)
  {
    var r := users + [NewAccount(form, id, joined)];
    assert forall i :: 0 <= i < |users| ==> r[i] == users[i];
    SignInUnique(r, form.email, form.password, |users|);
  }

  function IdIs(id: string): Account -> bool
  {
    (u: Account) => u.id == id
  }

  /** `saveUserData`: the stored account with the current account's id is
      overwritten by it; nothing changes when there is none. */
  function Saved(users: seq<Account>, current: Option<Account>): seq<Account>
  {
    if current.None? then users
    else
      match FindFirst(users, IdIs(current.value.id))
      case None => users
      case Some(i) => users[i := current.value]
  }

  /** Saving replaces exactly the first stored account with the same id. */
  lemma SavedEffect(users: seq<Account>, current: Option<Account>)
    ensures var r := Saved(users, current);
      && |r| == |users|
      && (current.None? || (forall i :: 0 <= i < |users| ==> users[i].id != current.value.id) ==> r == users)
      && (current.Some? && (exists i :: 0 <= i < |users| && users[i].id == current.value.id) ==>
            exists k :: 0 <= k < |users| && users[k].id == current.value.id && r == users[k := current.value]
                        && forall j :: 0 <= j < k ==> users[j].id != current.value.id)
  {
  }

  // --------------------------------------------- addresses and payment methods

  /** Every entry with its default flag cleared. */
  function Undefaulted(es: seq<Entry>): (r: seq<Entry>)
    ensures |r| == |es|
  {
    seq(|es|, i requires 0 <= i < |es| => es[i].(isDefault := false))
  }

  /** The entries after `addAddress` / `addPaymentMethod`: a new default
      clears the flag on the others; the new entry goes last. */
  function EntryAdded(es: seq<Entry>, e: Entry): seq<Entry>
  {
    (if e.isDefault then Undefaulted(es) else es) + [e]
  }

  function IsDefault(e: Entry): bool
  {
    e.isDefault
  }

  /** At most one saved entry is marked as the default. */
  predicate AtMostOneDefault(es: seq<Entry>)
  {
    |Filter(es, IsDefault)| <= 1
  }

  /** Adding an entry keeps the others (only their default flag may change)
      and keeps at most one default; a new default is the only one. */
  lemma {:induction false} EntryAddedEffect(es: seq<Entry>, e: Entry)
    ensures var r := EntryAdded(es, e);
      && |r| == |es| + 1 && r[|es|] == e
      && (forall i :: 0 <= i < |es| ==> r[i] == es[i].(isDefault := r[i].isDefault))
      && (e.isDefault ==> forall i :: 0 <= i < |es| ==> !r[i].isDefault)
      && (!e.isDefault ==> r[..|es|] == es)
    ensures AtMostOneDefault(es) ==> AtMostOneDefault(EntryAdded(es, e))
  {
    var r := EntryAdded(es, e);
    var kept := if e.isDefault then Undefaulted(es) else es;
    assert r[..|es|] == kept;
    if e.isDefault {
      forall x | x in kept ensures !IsDefault(x) {
        var i :| 0 <= i < |kept| && kept[i] == x;
      }
      FilterKeepsNone(kept, IsDefault);
    }
  }

  /** The `forEach` that clears every default flag, on a copy of the list. */
  method ClearDefaults(es: seq<Entry>) returns (r: seq<Entry>)
    ensures r == Undefaulted(es)
  {
    r := es;
    var i := 0;
    while i < |r|
      invariant 0 <= i <= |r| == |es|
      invariant forall j :: 0 <= j < i ==> r[j] == es[j].(isDefault := false)
      invariant forall j :: i <= j < |r| ==> r[j] == es[j]
    {
      r := r[i := r[i].(isDefault := false)];
      i := i + 1;
    }
  }

  function IdIsNot(id: string): Entry -> bool
  {
    (e: Entry) => e.id != id
  }

  /** The entries after `deleteAddress` / `deletePayment`. */
  function EntriesWithout(es: seq<Entry>, id: string): seq<Entry>
  {
    Filter(es, IdIsNot(id))
  }

  /** Deleting by id removes every entry with that id, keeps all others and
      cannot create a second default. */
  lemma EntriesWithoutEffect(es: seq<Entry>, id: string)
    ensures forall e :: e in EntriesWithout(es, id) <==> e in es && e.id != id
    ensures AtMostOneDefault(es) ==> AtMostOneDefault(EntriesWithout(es, id))
  {
    forall e ensures e in EntriesWithout(es, id) <==> e in es && e.id != id {
      FilterMembers(es, IdIsNot(id), e);
    }
    FilterFilterShorter(es, IdIsNot(id), IsDefault);
  }

  function ItemIsNot(id: Value): WishItem -> bool
  {
    (w: WishItem) => w.id != id
  }

  /** The wishlist after `removeFromWishlist(productId)`. */
  function WishlistWithout(ws: seq<WishItem>, id: Value): seq<WishItem>
  {
    Filter(ws, ItemIsNot(id))
  }

  /** Removal drops exactly the items with that id. */
  lemma WishlistWithoutEffect(ws: seq<WishItem>, id: Value)
    ensures forall w :: w in WishlistWithout(ws, id) <==> w in ws && w.id != id
    ensures |WishlistWithout(ws, id)| <= |ws|
  {
    forall w ensures w in WishlistWithout(ws, id) <==> w in ws && w.id != id {
      FilterMembers(ws, ItemIsNot(id), w);
    }
  }

  /** The notification text of `addAddress`. */
  function AddressMessage(title: string): string
  {
    "New address \"" + title + "\" has been added to your account."
  }

  /** The notification text of `addPaymentMethod`; `replace('-', ' ')` with a
      string pattern replaces only the first hyphen. */
  function PaymentMessage(kind: string): string
  {
    "New " + ReplaceFirst(kind, '-', ' ') + " payment method has been added to your account."
  }

  // ----------------------------------------------------------- notifications

  const KnownKinds: set<string> := {"success", "error", "info", "welcome", "profile", "order", "payment", "address"}

  /** `getNotificationTitle`: a fixed title per known kind, and
      "Notification" for any other kind. */
  function NotificationTitle(kind: string): (r: string)
    ensures r == "Notification" <==> kind !in KnownKinds
  {
    if kind == "success" then "Success"
    else if kind == "error" then "Error"
    else if kind == "info" then "Information"
    else if kind == "welcome" then "Welcome"
    else if kind == "profile" then "Profile Updated"
    else if kind == "order" then "Order Update"
    else if kind == "payment" then "Payment"
    else if kind == "address" then "Address"
    else "Notification"
  }

  /** `title || getNotificationTitle(type)`: an empty title is falsy and
      stands for "no title". */
  function TitleFor(title: string, kind: string): string
  {
    if title != "" then title else NotificationTitle(kind)
  }

  const NotesKept: nat := 50

  function Mine(uid: string): Note -> bool
  {
    (n: Note) => n.userId == uid
  }

  function Others(uid: string): Note -> bool
  {
    (n: Note) => n.userId != uid
  }

  /** The stored list after `addPersistentNotification` pushes `n` to the
      front: the owner's notes, newest first and cut to 50, then everybody
      else's. */
  function WithNote(ns: seq<Note>, n: Note): seq<Note>
  {
    var all := [n] + ns;
    var own := Filter(all, Mine(n.userId));
    (if |own| > NotesKept then own[..NotesKept] else own) + Filter(all, Others(n.userId))
  }

  /** Filtering a list with one note pushed to the front. */
  lemma FilterFront(n: Note, ns: seq<Note>, keep: Note -> bool)
    ensures Filter([n] + ns, keep) == (if keep(n) then [n] else []) + Filter(ns, keep)
  {
    FilterConcat([n], ns, keep);
    FilterOne(n, keep);
  }

  /** Splitting a list whose first part is all the owner's and whose second
      part is nobody's of theirs gives the two parts back. */
  lemma SplitByOwner(kept: seq<Note>, rest: seq<Note>, uid: string)
    requires forall x :: x in kept ==> x.userId == uid
    requires forall x :: x in rest ==> x.userId != uid
    ensures Filter(kept + rest, Mine(uid)) == kept
    ensures Filter(kept + rest, Others(uid)) == rest
  {
    FilterKeepsAll(kept, Mine(uid));
    FilterKeepsNone(rest, Mine(uid));
    FilterConcat(kept, rest, Mine(uid));
    FilterKeepsNone(kept, Others(uid));
    FilterKeepsAll(rest, Others(uid));
    FilterConcat(kept, rest, Others(uid));
  }

  /** The new note comes first; the owner keeps the newest 50 of their notes
      in order; nobody else's notes are touched. */
  lemma {:induction false} WithNoteEffect(ns: seq<Note>, n: Note)
    ensures var r := WithNote(ns, n);
      var own := Filter(ns, Mine(n.userId));
      && |r| >= 1 && r[0] == n
      && Filter(r, Mine(n.userId)) == ([n] + own)[..if |own| + 1 > NotesKept then NotesKept else |own| + 1]
      && |Filter(r, Mine(n.userId))| <= NotesKept
      && Filter(r, Others(n.userId)) == Filter(ns, Others(n.userId))
  {
    var uid := n.userId;
    var all := [n] + ns;
    FilterFront(n, ns, Mine(uid));
    FilterFront(n, ns, Others(uid));
    var own := Filter(all, Mine(uid));
    var kept := if |own| > NotesKept then own[..NotesKept] else own;
    var rest := Filter(all, Others(uid));
    forall x | x in kept ensures x.userId == uid {
      assert x in own;
      FilterMembers(all, Mine(uid), x);
    }
    forall x | x in rest ensures x.userId != uid {
      FilterMembers(all, Others(uid), x);
    }
    SplitByOwner(kept, rest, uid);
  }

  /** The note `addPersistentNotification(message, type, title)` records for
      the current account; without a current account nothing is recorded. */
  function Notified(ns: seq<Note>, current: Option<Account>, message: string, kind: string, title: string, stamp: Stamp): seq<Note>
  {
    if current.None? then ns
    else WithNote(ns, Note(stamp.id, TitleFor(title, kind), message, kind, stamp.now, false, current.value.id))
  }

  /** `hasWelcomeNotification`. */
  predicate HasWelcome(ns: seq<Note>, uid: string)
  {
    exists i :: 0 <= i < |ns| && ns[i].userId == uid && ns[i].kind == "welcome"
  }

  function WelcomeNote(u: Account, stamp: Stamp): Note
  {
    Note(stamp.id, "Welcome to Donkomi", "Welcome to Donkomi, " + u.firstName + "! Start exploring our marketplace.",
         "welcome", stamp.now, false, u.id)
  }

  /** The list after `initializeNotifications`: a signed-in account without
      a welcome note receives one. */
  function Welcomed(ns: seq<Note>, current: Option<Account>, stamp: Stamp): seq<Note>
  {
    if current.Some? && !HasWelcome(ns, current.value.id) then WithNote(ns, WelcomeNote(current.value, stamp))
    else ns
  }

  /** Every signed-in account ends up welcomed, and only once: a second
      initialisation adds nothing. */
  lemma WelcomedOnce(ns: seq<Note>, u: Account, s1: Stamp, s2: Stamp)
    ensures HasWelcome(Welcomed(ns, Some(u), s1), u.id)
    ensures Welcomed(Welcomed(ns, Some(u), s1), Some(u), s2) == Welcomed(ns, Some(u), s1)
  {
    if !HasWelcome(ns, u.id) {
      WithNoteEffect(ns, WelcomeNote(u, s1));
    }
  }

  function UnreadOf(uid: string): Note -> bool
  {
    (n: Note) => n.userId == uid && !n.read
  }

  /** The number `updateNotificationBadge` counts. */
  function UnreadCount(ns: seq<Note>, uid: string): nat
  {
    |Filter(ns, UnreadOf(uid))|
  }

  datatype Badge = Hidden | Shown(text: string)

  /** `updateNotificationBadge`: hidden at zero, "99+" above 99, otherwise
      the count in decimal. */
  function NotificationBadge(count: nat): Badge
  {
    if count == 0 then Hidden else Shown(if count > 99 then "99+" else NatToString(count))
  }

  /** The badge is hidden exactly when nothing is unread, reads "99+"
      exactly above 99, and otherwise shows at most two digits that read
      back as the count. */
  lemma NotificationBadgeShows(count: nat)
    ensures NotificationBadge(count).Hidden? <==> count == 0
    ensures NotificationBadge(count) == Shown("99+") <==> count > 99
    ensures 0 < count <= 99 ==>
      var text := NotificationBadge(count).text;
      |text| <= 2 && DigitsValue(text) == count
  {
    if 0 < count <= 99 {
      NatToStringRoundTrip(count);
      NatToStringShort(count);
    }
  }

  function NoteIs(nid: string, uid: string): Note -> bool
  {
    (n: Note) => n.id == nid && n.userId == uid
  }

  /** The list after `markNotificationAsRead(id)`: the first note with that
      id owned by the account is marked read. */
  function NoteRead(ns: seq<Note>, uid: string, nid: string): seq<Note>
  {
    match FindFirst(ns, NoteIs(nid, uid))
    case None => ns
    case Some(i) => if ns[i].read then ns else ns[i := ns[i].(read := true)]
  }

  /** Marking one note read changes only that note, and the unread count
      falls by one exactly when it was unread. */
  lemma NoteReadEffect(ns: seq<Note>, uid: string, nid: string)
    ensures var r := NoteRead(ns, uid, nid);
      match FindFirst(ns, NoteIs(nid, uid))
      case None => r == ns
      case Some(i) =>
        && |r| == |ns| && r[i] == ns[i].(read := true)
        && (forall j :: 0 <= j < |ns| && j != i ==> r[j] == ns[j])
        && UnreadCount(r, uid) == UnreadCount(ns, uid) - (if ns[i].read then 0 else 1)
  {
    match FindFirst(ns, NoteIs(nid, uid))
    case None =>
    case Some(i) =>
      if !ns[i].read {
        var r := ns[i := ns[i].(read := true)];
        FilterLength(ns, UnreadOf(uid));
        FilterLength(r, UnreadOf(uid));
        SumOfUpdate(ns, i, ns[i].(read := true), Indicator(UnreadOf(uid)));
      }
  }

  /** The list after `markAllNotificationsRead`. */
  function AllNotesRead(ns: seq<Note>, uid: string): (r: seq<Note>)
    ensures |r| == |ns|
  {
    seq(|ns|, i requires 0 <= i < |ns| => if ns[i].userId == uid then ns[i].(read := true) else ns[i])
  }

  /** Afterwards the account has nothing unread, other accounts' notes are
      as they were, and only read flags change. */
  lemma AllNotesReadEffect(ns: seq<Note>, uid: string)
    ensures var r := AllNotesRead(ns, uid);
      && UnreadCount(r, uid) == 0
      && (forall i :: 0 <= i < |ns| ==> r[i] == ns[i].(read := r[i].read))
      && (forall i :: 0 <= i < |ns| && ns[i].userId != uid ==> r[i] == ns[i])
      && (UnreadCount(ns, uid) == 0 ==> r == ns)
  {
    var r := AllNotesRead(ns, uid);
    FilterEmptyIff(r, UnreadOf(uid));
    FilterEmptyIff(ns, UnreadOf(uid));
  }

  // ---------------------------------------------------------------- portal

  class UserPortal {
    var users: seq<Account>
    var currentUser: Option<Account>
    var isLoggedIn: bool
    var notifications: seq<Note>
    var chats: seq<Conversation>

    /** A signed-out portal over the stored lists. */
    constructor (users: seq<Account>, notifications: seq<Note>, chats: seq<Conversation>)
      ensures this.users == users && this.notifications == notifications && this.chats == chats
      ensures currentUser.None? && !isLoggedIn
    {
      this.users := users;
      this.notifications := notifications;
      this.chats := chats;
      currentUser := None;
      isLoggedIn := false;
    }

    /** `addPersistentNotification(message, type, title)`. */
    method AddPersistentNotification(message: string, kind: string, title: string, stamp: Stamp)
      modifies this`notifications
      ensures notifications == Notified(old(notifications), currentUser, message, kind, title, stamp)
    {
      if currentUser.Some? {
        var n := Note(stamp.id, TitleFor(title, kind), message, kind, stamp.now, false, currentUser.value.id);
        var all := [n] + notifications;
        var own := Filter(all, Mine(n.userId));
        var others := Filter(all, Others(n.userId));
        notifications := (if |own| > NotesKept then own[..NotesKept] else own) + others;
      }
    }

    /** `showNotification(message, type)`: the toast itself is not modelled;
      its persistent copy is. */
    method ShowNotification(message: string, kind: string, stamp: Stamp)
      modifies this`notifications
      ensures notifications == Notified(old(notifications), currentUser, message, kind, "", stamp)
    {
      AddPersistentNotification(message, kind, "", stamp);
    }

    /** `initializeNotifications`. */
    method InitializeNotifications(stamp: Stamp)
      modifies this`notifications
      ensures notifications == Welcomed(old(notifications), currentUser, stamp)
    {
      if currentUser.Some? && !HasWelcome(notifications, currentUser.value.id) {
        AddPersistentNotification(WelcomeNote(currentUser.value, stamp).message, "welcome", "Welcome to Donkomi", stamp);
      }
    }

    /** `login`. */
    method Login(stamp: Stamp)
      modifies this`isLoggedIn, this`notifications
      ensures isLoggedIn
      ensures notifications == Welcomed(old(notifications), currentUser, stamp)
    {
      isLoggedIn := true;
      InitializeNotifications(stamp);
    }

    /** `logout`: the farewell toast comes after the account is cleared, so it
      leaves no persistent note. */
    method Logout(stamp: Stamp)
      modifies this`isLoggedIn, this`currentUser, this`notifications
      ensures !isLoggedIn && currentUser.None?
      ensures notifications == old(notifications)
    {
      isLoggedIn := false;
      currentUser := None;
      ShowNotification("Logged out successfully", "success", stamp);
    }

    /** `handleSignIn`. */
    method SignIn(email: string, password: string, welcome: Stamp, toast: Stamp) returns (ok: bool)
      modifies this`currentUser, this`isLoggedIn, this`notifications
      ensures ok <==> SignInMatch(users, email, password).Some?
      ensures ok ==> currentUser == Some(users[SignInMatch(users, email, password).value]) && isLoggedIn
      ensures ok ==> notifications == Notified(Welcomed(old(notifications), currentUser, welcome), currentUser,
                                               "Welcome back!", "success", "", toast)
      ensures !ok ==> currentUser == old(currentUser) && isLoggedIn == old(isLoggedIn)
      ensures !ok ==> notifications == Notified(old(notifications), currentUser,
                                                "Invalid email or password", "error", "", toast)
    {
      var i := IndexWhere(users, Credentials(email, password));
      if i >= 0 {
        currentUser := Some(users[i]);
        Login(welcome);
        ShowNotification("Welcome back!", "success", toast);
        ok := true;
      } else {
        ShowNotification("Invalid email or password", "error", toast);
        ok := false;
      }
    }

    /** `handleSignUp`. */
    method SignUp(form: SignUpForm, id: string, joined: string, welcome: Stamp, toast: Stamp) returns (check: SignUpCheck)
      modifies this`users, this`currentUser, this`isLoggedIn, this`notifications
      ensures check == CheckSignUp(old(users), form)
      ensures check != Accepted ==>
        && users == old(users) && currentUser == old(currentUser) && isLoggedIn == old(isLoggedIn)
        && notifications == Notified(old(notifications), currentUser, SignUpError(check), "error", "", toast)
      ensures check == Accepted ==>
        && users == old(users) + [NewAccount(form, id, joined)]
        && currentUser == Some(NewAccount(form, id, joined)) && isLoggedIn
        && notifications == Notified(Welcomed(old(notifications), currentUser, welcome), currentUser,
                                     "Account created successfully!", "success", "", toast)
    {
      if form.password != form.confirmPassword {
        check := PasswordsDiffer;
        ShowNotification("Passwords do not match", "error", toast);
        return;
      }
      var taken := IndexWhere(users, EmailIs(form.email));
      if taken >= 0 {
        check := EmailTaken;
        ShowNotification("User with this email already exists", "error", toast);
        return;
      }
      check := Accepted;
      var account := NewAccount(form, id, joined);
      users := users + [account];
      currentUser := Some(account);
      Login(welcome);
      ShowNotification("Account created successfully!", "success", toast);
    }

    /** `saveUserData`. */
    method SaveUserData()
      modifies this`users
      ensures users == Saved(old(users), currentUser)
    {
      if currentUser.Some? {
        var i := IndexWhere(users, IdIs(currentUser.value.id));
        if i >= 0 {
          users := users[i := currentUser.value];
        }
      }
    }

    /** `addAddress`. */
    method AddAddress(title: string, address: string, city: string, postalCode: string, isDefault: bool,
                      entryId: string, stamp: Stamp)
      modifies this`currentUser, this`users, this`notifications
      ensures old(currentUser).None? ==> currentUser == old(currentUser) && users == old(users) && notifications == old(notifications)
      ensures old(currentUser).Some? ==>
        var u := old(currentUser).value;
        && currentUser == Some(u.(addresses := EntryAdded(u.addresses, Address(entryId, title, address, city, postalCode, isDefault))))
        && users == Saved(old(users), currentUser)
        && notifications == Notified(old(notifications), currentUser, AddressMessage(title), "address", "Address Added", stamp)
    {
      if currentUser.None? {
        return;
      }
      var entry := Address(entryId, title, address, city, postalCode, isDefault);
      var es := currentUser.value.addresses;
      if isDefault {
        es := ClearDefaults(es);
      }
      currentUser := Some(currentUser.value.(addresses := es + [entry]));
      SaveUserData();
      AddPersistentNotification(AddressMessage(title), "address", "Address Added", stamp);
    }

    /** `addPaymentMethod`. */
    method AddPaymentMethod(kind: string, accountName: string, accountNumber: string, isDefault: bool,
                            entryId: string, stamp: Stamp)
      modifies this`currentUser, this`users, this`notifications
      ensures old(currentUser).None? ==> currentUser == old(currentUser) && users == old(users) && notifications == old(notifications)
      ensures old(currentUser).Some? ==>
        var u := old(currentUser).value;
        && currentUser == Some(u.(paymentMethods := EntryAdded(u.paymentMethods, PaymentMethod(entryId, kind, accountName, accountNumber, isDefault))))
        && users == Saved(old(users), currentUser)
        && notifications == Notified(old(notifications), currentUser, PaymentMessage(kind), "payment", "Payment Method Added", stamp)
    {
      if currentUser.None? {
        return;
      }
      var entry := PaymentMethod(entryId, kind, accountName, accountNumber, isDefault);
      var es := currentUser.value.paymentMethods;
      if isDefault {
        es := ClearDefaults(es);
      }
      currentUser := Some(currentUser.value.(paymentMethods := es + [entry]));
      SaveUserData();
      AddPersistentNotification(PaymentMessage(kind), "payment", "Payment Method Added", stamp);
    }

    /** `removeFromWishlist(productId)`. */
    method RemoveFromWishlist(productId: Value, stamp: Stamp)
      modifies this`currentUser, this`users, this`notifications
      ensures old(currentUser).None? ==> currentUser == old(currentUser) && users == old(users) && notifications == old(notifications)
      ensures old(currentUser).Some? ==>
        var u := old(currentUser).value;
        && currentUser == Some(u.(wishlist := WishlistWithout(u.wishlist, productId)))
        && users == Saved(old(users), currentUser)
        && notifications == Notified(old(notifications), currentUser, "Removed from wishlist", "success", "", stamp)
    {
      if currentUser.None? {
        return;
      }
      currentUser := Some(currentUser.value.(wishlist := Filter(currentUser.value.wishlist, ItemIsNot(productId))));
      SaveUserData();
      ShowNotification("Removed from wishlist", "success", stamp);
    }

    /** `deleteAddress(id)`; `confirmed` is the answer to the confirmation dialog. */
    method DeleteAddress(addressId: string, confirmed: bool, stamp: Stamp)
      modifies this`currentUser, this`users, this`notifications
      ensures old(currentUser).None? || !confirmed ==>
        currentUser == old(currentUser) && users == old(users) && notifications == old(notifications)
      ensures old(currentUser).Some? && confirmed ==>
        var u := old(currentUser).value;
        && currentUser == Some(u.(addresses := EntriesWithout(u.addresses, addressId)))
        && users == Saved(old(users), currentUser)
        && notifications == Notified(old(notifications), currentUser, "Address deleted", "success", "", stamp)
    {
      if currentUser.None? || !confirmed {
        return;
      }
      currentUser := Some(currentUser.value.(addresses := Filter(currentUser.value.addresses, IdIsNot(addressId))));
      SaveUserData();
      ShowNotification("Address deleted", "success", stamp);
    }

    /** `deletePayment(id)`. */
    method DeletePayment(paymentId: string, confirmed: bool, stamp: Stamp)
      modifies this`currentUser, this`users, this`notifications
      ensures old(currentUser).None? || !confirmed ==>
        currentUser == old(currentUser) && users == old(users) && notifications == old(notifications)
      ensures old(currentUser).Some? && confirmed ==>
        var u := old(currentUser).value;
        && currentUser == Some(u.(paymentMethods := EntriesWithout(u.paymentMethods, paymentId)))
        && users == Saved(old(users), currentUser)
        && notifications == Notified(old(notifications), currentUser, "Payment method deleted", "success", "", stamp)
    {
      if currentUser.None? || !confirmed {
        return;
      }
      currentUser := Some(currentUser.value.(paymentMethods := Filter(currentUser.value.paymentMethods, IdIsNot(paymentId))));
      SaveUserData();
      ShowNotification("Payment method deleted", "success", stamp);
    }

    /** `markNotificationAsRead(id)`. */
    method MarkNotificationAsRead(nid: string)
      modifies this`notifications
      ensures currentUser.None? ==> notifications == old(notifications)
      ensures currentUser.Some? ==> notifications == NoteRead(old(notifications), currentUser.value.id, nid)
    {
      if currentUser.None? {
        return;
      }
      var i := IndexWhere(notifications, NoteIs(nid, currentUser.value.id));
      if i >= 0 && !notifications[i].read {
        notifications := notifications[i := notifications[i].(read := true)];
      }
    }

    /** `markAllNotificationsRead`: one pass marking the account's unread
      notes, remembering whether any changed. */
    method MarkAllNotificationsRead() returns (hasChanges: bool)
      modifies this`notifications
      ensures currentUser.None? ==> notifications == old(notifications) && !hasChanges
      ensures currentUser.Some? ==> notifications == AllNotesRead(old(notifications), currentUser.value.id)
      ensures currentUser.Some? ==> (hasChanges <==> UnreadCount(old(notifications), currentUser.value.id) > 0)
    {
      hasChanges := false;
      if currentUser.None? {
        return;
      }
      var uid := currentUser.value.id;
      var ns := notifications;
      var r := ns;
      var i := 0;
      while i < |r|
        invariant 0 <= i <= |r| == |ns|
        invariant forall j :: 0 <= j < i ==> r[j] == AllNotesRead(ns, uid)[j]
        invariant forall j :: i <= j < |r| ==> r[j] == ns[j]
        invariant hasChanges <==> exists j :: 0 <= j < i && UnreadOf(uid)(ns[j])
      {
        if r[i].userId == uid && !r[i].read {
          r := r[i := r[i].(read := true)];
          hasChanges := true;
        }
        i := i + 1;
      }
      assert r == AllNotesRead(ns, uid);
      FilterEmptyIff(ns, UnreadOf(uid));
      notifications := r;
    }

    /** `sendMessage(text)`: a customer message into their own conversation. */
    method SendMessage(text: string, msgId: string, now: int)
      modifies this`chats
      ensures currentUser.None? ==> chats == old(chats)
      ensures currentUser.Some? ==>
        var u := currentUser.value;
        chats == UserSent(old(chats), u.id, u.firstName, u.lastName, u.email, text, msgId, now)
    {
      if currentUser.None? {
        return;
      }
      var u := currentUser.value;
      chats := UserSent(chats, u.id, u.firstName, u.lastName, u.email, text, msgId, now);
    }

    /** `markMessagesAsRead`: the administrator's messages in the customer's
      conversation become read. */
    method MarkMessagesAsRead() returns (hasUnread: bool)
      modifies this`chats
      ensures currentUser.None? ==> chats == old(chats) && !hasUnread
      ensures currentUser.Some? ==> chats == ConversationRead(old(chats), UserChatKey(currentUser.value.id), Admin)
      ensures currentUser.Some? ==>
        (hasUnread <==> var k := Find(old(chats), UserChatKey(currentUser.value.id));
                        k.Some? && HasUnreadFrom(old(chats)[k.value].messages, Admin))
    {
      hasUnread := false;
      if currentUser.None? {
        return;
      }
      var key := UserChatKey(currentUser.value.id);
      var i := IndexWhere(chats, KeyIs(key));
      if i < 0 {
        return;
      }
      var marked;
      marked, hasUnread := MarkRead(chats[i].messages, Admin);
      ReadMarkedEffect(chats[i].messages, Admin);
      if hasUnread {
        chats := chats[i := chats[i].(messages := marked)];
      }
    }
  }
}

=== FILE: relay.dfy ===
/** The order relay: a process-wide, newest-first log of orders and the set of
    connected dashboards. Orders come in over the socket (`new_order`) or over
    REST (`POST /api/orders`); status changes come in the same two ways; after
    every change the whole log is pushed to every open connection.

    Clock readings and the relay-assigned id are parameters; a connection is an
    abstract id, and whether its transport is OPEN at the moment of a broadcast
    is the parameter `open`. */
module Relay {
  import opened Common

  /** A stored order: the payload's own fields plus `id`, `timestamp` and,
      after the first status change, `updatedAt`. */
  type Order = Fields

  /** A socket connection, identified abstractly. */
  type ClientId = nat

  /** The only push the relay sends: `{type: 'orders_update', orders}`. */
  datatype Push = OrdersUpdate(orders: seq<Order>)

  /** One frame written to one connection. */
  datatype Delivery = Delivery(to: ClientId, message: Push)

  /** An inbound socket frame after `JSON.parse`. A missing property is
      `Undefined`. A payload is taken as an object's fields: `null`, numbers
      and booleans spread to no fields, and string and array payloads, which
      JavaScript spreads into index-keyed fields, are not modelled. */
  datatype Inbound =
    | Malformed                                   // JSON.parse or the property read threw
    | NewOrder(order: Fields)                     // type 'new_order'
    | UpdateOrderStatus(orderId: Value, newStatus: Value)  // type 'update_order_status'
    | GetOrders                                   // type 'get_orders'
    | Unrecognized(kind: Value)                   // any other `type`

  /** Answers of the REST mirror. */
  datatype RestReply =
    | Accepted(orderId: Value)                    // { success: true, orderId }
    | OrderList(orders: seq<Order>)               // the log, newest first
    | Updated                                     // { success: true }
    | NotFound(error: string)                     // 404 { error }
    | Healthy(connectedClients: nat, totalOrders: nat)  // { status: 'healthy', ... }

  /** The HTTP status code that goes with a REST reply. The ensures are what
      the REST handlers' contracts below are proved from. */
  function HttpStatus(r: RestReply): (code: nat)
    ensures code == 404 <==> r.NotFound?
    ensures code == 200 <==> !r.NotFound?
  {
    if r.NotFound? then 404 else 200
  }

  // ---------------------------------------------------------------------------
  // The order log, as values

  /** `{...payload, id, timestamp}`: every payload field is carried, except
      that `id` and `timestamp` are overwritten by the relay's values. */
  function Stamp(payload: Fields, id: string, timestamp: string): Order
  {
    payload["id" := Str(id)]["timestamp" := Str(timestamp)]
  }

  /** Ingest carries every payload field and overwrites `id` and `timestamp`. */
  lemma StampCarriesPayload(payload: Fields, id: string, timestamp: string)
    ensures var o := Stamp(payload, id, timestamp);
      && o.Keys == payload.Keys + {"id", "timestamp"}
      && Get(o, "id") == Str(id) && Get(o, "timestamp") == Str(timestamp)
      && forall k :: k in payload && k != "id" && k != "timestamp" ==> o[k] == payload[k]
  {
  }

  /** `o.orderId === key`; an order without `orderId` matches `undefined`. */
  predicate Matches(o: Order, key: Value)
  {
    Get(o, "orderId") == key
  }

  /** `orders.findIndex(o => o.orderId === key)`, as a value. */
  function FindOrder(log: seq<Order>, key: Value): Option<nat>
  {
    FindFirst(log, o => Matches(o, key))
  }

  /** The order after a status change: `status` and `updatedAt` set, every
      other field kept. */
  function Restatus(o: Order, status: Value, at: string): Order
  {
    o["status" := status]["updatedAt" := Str(at)]
  }

  /** The log after a status update keyed by `key`: the first match is
      restatused, or nothing changes when there is no match. */
  function WithStatus(log: seq<Order>, key: Value, status: Value, at: string): seq<Order>
  {
    match FindOrder(log, key)
    case None => log
    case Some(i) => log[i := Restatus(log[i], status, at)]
  }

  /** The log after one inbound socket frame. Only `new_order` and a matching
      `update_order_status` change it. */
  function Step(log: seq<Order>, msg: Inbound, id: string, now: string): seq<Order>
  {
    match msg
    case NewOrder(p) => [Stamp(p, id, now)] + log
    case UpdateOrderStatus(k, s) => WithStatus(log, k, s, now)
    case _ => log
  }

  /** Whether the frame makes the relay broadcast. */
  predicate Broadcasts(log: seq<Order>, msg: Inbound)
  {
    msg.NewOrder? || (msg.UpdateOrderStatus? && FindOrder(log, msg.orderId).Some?)
  }

  /** Ingest puts the new order at index 0 and moves every earlier order one
      place down, unchanged. */
  lemma IngestShifts(log: seq<Order>, payload: Fields, id: string, now: string)
    ensures var r := Step(log, NewOrder(payload), id, now);
      && |r| == |log| + 1
      && r[0] == Stamp(payload, id, now)
      && forall i :: 0 <= i < |log| ==> r[i + 1] == log[i]
  {
  }

  /** A status update touches only the first order with that `orderId`: it
      sets `status` and `updatedAt` there and keeps every other field, every
      other order and the length. */
  lemma {:induction false} StatusUpdateOnlyFirstMatch(log: seq<Order>, key: Value, status: Value, at: string)
    ensures |WithStatus(log, key, status, at)| == |log|
    ensures FindOrder(log, key).None? ==> WithStatus(log, key, status, at) == log
    ensures FindOrder(log, key).Some? ==>
      var i := FindOrder(log, key).value;
      var r := WithStatus(log, key, status, at);
      && Get(r[i], "status") == status
      && Get(r[i], "updatedAt") == Str(at)
      && (forall k :: k in log[i] && k != "status" && k != "updatedAt" ==> k in r[i] && r[i][k] == log[i][k])
      && (forall j :: 0 <= j < |log| && j != i ==> r[j] == log[j])
  {
  }

  /** A frame that is not `new_order` or `update_order_status` never touches
      the log; neither does an update whose `orderId` is absent. */
  lemma {:induction false} QuietFramesKeepLog(log: seq<Order>, msg: Inbound, id: string, now: string)
    requires !Broadcasts(log, msg)
    ensures Step(log, msg, id, now) == log
  {
    match msg
    case NewOrder(_) =>
    case UpdateOrderStatus(k, s) =>
      assert FindOrder(log, k).None?;
    case _ =>
  }

  // ---------------------------------------------------------------------------
  // Many ingests

  /** The log after ingesting the already-stamped orders of `batch`, first to last. */
  function IngestAll(log: seq<Order>, batch: seq<Order>): seq<Order>
    decreases |batch|
  {
    if batch == [] then log else IngestAll([batch[0]] + log, batch[1..])
  }

  function Reverse<T>(s: seq<T>): seq<T>
  {
    if s == [] then [] else Reverse(s[1..]) + [s[0]]
  }

  /** After N ingests and nothing else, the log holds them in exact reverse
      order of ingestion, in front of what was there before. */
  lemma {:induction false} IngestAllReverses(log: seq<Order>, batch: seq<Order>)
    ensures IngestAll(log, batch) == Reverse(batch) + log
    decreases |batch|
  {
    if batch != [] {
      IngestAllReverses([batch[0]] + log, batch[1..]);
      assert Reverse(batch[1..]) + ([batch[0]] + log) == (Reverse(batch[1..]) + [batch[0]]) + log;
    }
  }

  /** The log after a run of socket frames, the i-th processed with the i-th id and clock reading. */
  function Run(log: seq<Order>, msgs: seq<Inbound>, ids: seq<string>, nows: seq<string>): seq<Order>
    requires |ids| == |msgs| == |nows|
    decreases |msgs|
  {
    if msgs == [] then log
    else Run(Step(log, msgs[0], ids[0], nows[0]), msgs[1..], ids[1..], nows[1..])
  }

  /** The orders a run of `new_order` frames stamps, in arrival order. */
  function Stamped(msgs: seq<Inbound>, ids: seq<string>, nows: seq<string>): (r: seq<Order>)
    requires |ids| == |msgs| == |nows|
    requires forall i :: 0 <= i < |msgs| ==> msgs[i].NewOrder?
    ensures |r| == |msgs|
    ensures forall i :: 0 <= i < |msgs| ==> r[i] == Stamp(msgs[i].order, ids[i], nows[i])
    decreases |msgs|
  {
    if msgs == [] then []
    else [Stamp(msgs[0].order, ids[0], nows[0])] + Stamped(msgs[1..], ids[1..], nows[1..])
  }

  /** A run made only of `new_order` frames is the ingestion of the orders
      they stamp, first to last. */
  lemma {:induction false} RunIngestsAll(log: seq<Order>, msgs: seq<Inbound>, ids: seq<string>, nows: seq<string>)
    requires |ids| == |msgs| == |nows|
    requires forall i :: 0 <= i < |msgs| ==> msgs[i].NewOrder?
    ensures Run(log, msgs, ids, nows) == IngestAll(log, Stamped(msgs, ids, nows))
    decreases |msgs|
  {
    if msgs != [] {
      var batch := Stamped(msgs, ids, nows);
      assert batch[0] == Stamp(msgs[0].order, ids[0], nows[0]);
      assert batch[1..] == Stamped(msgs[1..], ids[1..], nows[1..]);
      RunIngestsAll([batch[0]] + log, msgs[1..], ids[1..], nows[1..]);
    }
  }

  /** After a run of `new_order` frames the log holds their stamped orders
      newest first, in front of what was there before. */
  lemma RunOfNewOrdersReverses(log: seq<Order>, msgs: seq<Inbound>, ids: seq<string>, nows: seq<string>)
    requires |ids| == |msgs| == |nows|
    requires forall i :: 0 <= i < |msgs| ==> msgs[i].NewOrder?
    ensures Run(log, msgs, ids, nows) == Reverse(Stamped(msgs, ids, nows)) + log
  {
    RunIngestsAll(log, msgs, ids, nows);
    IngestAllReverses(log, Stamped(msgs, ids, nows));
  }

  function NewOrderCount(msgs: seq<Inbound>): nat
  {
    if msgs == [] then 0 else (if msgs[0].NewOrder? then 1 else 0) + NewOrderCount(msgs[1..])
  }

  predicate SameIdentity(a: Order, b: Order)
  {
    Get(a, "id") == Get(b, "id") && Get(a, "timestamp") == Get(b, "timestamp")
  }

  /** A status change never touches the relay's own `id` and `timestamp`. */
  lemma RestatusKeepsIdentity(o: Order, status: Value, at: string)
    ensures SameIdentity(Restatus(o, status, at), o)
  {
    assert "id"[0] != "status"[0] && "id"[0] != "updatedAt"[0];
    assert "timestamp"[1] != "status"[1] && "timestamp"[0] != "updatedAt"[0];
  }

  /** Pointwise, `a` and `b` carry the same relay ids and timestamps. */
  predicate SameIdentities(a: seq<Order>, b: seq<Order>)
  {
    |a| == |b| && forall j :: 0 <= j < |a| ==> SameIdentity(a[j], b[j])
  }

  /** A single frame keeps every existing order's relay id and timestamp, at
      the same position counted from the oldest end. */
  lemma {:induction false} StepKeepsOlder(log: seq<Order>, msg: Inbound, id: string, now: string)
    ensures var r := Step(log, msg, id, now);
      && |r| == |log| + (if msg.NewOrder? then 1 else 0)
      && SameIdentities(r[|r| - |log|..], log)
  {
    var r := Step(log, msg, id, now);
    match msg
    case NewOrder(p) => {
      assert r == [Stamp(p, id, now)] + log;
      assert r[1..] == log;
    }
    case UpdateOrderStatus(k, s) => {
      match FindOrder(log, k) {
        case None =>
          assert r == log;
        case Some(i) =>
          assert r == log[i := Restatus(log[i], s, now)];
          assert r[0..] == r;
          forall j | 0 <= j < |log| ensures SameIdentity(r[j], log[j]) {
            if j == i {
              RestatusKeepsIdentity(log[i], s, now);
            } else {
              assert r[j] == log[j];
            }
          }
      }
    }
    case GetOrders =>
      assert r[0..] == log;
    case Unrecognized(_) =>
      assert r[0..] == log;
    case Malformed =>
      assert r[0..] == log;
  }

  /** Identity-equality survives a further frame: chaining two suffix relations. */
  lemma SameIdentitiesChain(r: seq<Order>, mid: seq<Order>, log: seq<Order>)
    requires |log| <= |mid| <= |r|
    requires SameIdentities(r[|r| - |mid|..], mid)
    requires SameIdentities(mid[|mid| - |log|..], log)
    ensures SameIdentities(r[|r| - |log|..], log)
  {
    forall j | 0 <= j < |log| ensures SameIdentity(r[|r| - |log|..][j], log[j]) {
      var jm := |mid| - |log| + j;
      assert r[|r| - |log|..][j] == r[|r| - |mid|..][jm];
      assert mid[|mid| - |log|..][j] == mid[jm];
    }
  }

  /** Orders are never deleted and their relay id and timestamp never change:
      after any run of frames the log grows by exactly the number of
      `new_order` frames, and the orders that were there before are still at
      its tail with the same id and timestamp. */
  lemma {:induction false} RunKeepsHistory(log: seq<Order>, msgs: seq<Inbound>, ids: seq<string>, nows: seq<string>)
    requires |ids| == |msgs| == |nows|
    ensures var r := Run(log, msgs, ids, nows);
      && |r| == |log| + NewOrderCount(msgs)
      && SameIdentities(r[|r| - |log|..], log)
    decreases |msgs|
  {
    var r := Run(log, msgs, ids, nows);
    if msgs == [] {
      assert r == log && r[0..] == log;
    } else {
      var mid := Step(log, msgs[0], ids[0], nows[0]);
      assert r == Run(mid, msgs[1..], ids[1..], nows[1..]);
      StepKeepsOlder(log, msgs[0], ids[0], nows[0]);
      RunKeepsHistory(mid, msgs[1..], ids[1..], nows[1..]);
      SameIdentitiesChain(r, mid, log);
    }
  }

  // ---------------------------------------------------------------------------
  // The relay process

  /** All deliveries of one broadcast: `message` to exactly the members of
      `clients` that are in `open`, once each. */
  predicate IsBroadcast(sent: seq<Delivery>, clients: set<ClientId>, open: set<ClientId>, message: Push)
  {
    && (forall d :: d in sent ==> d.message == message && d.to in clients && d.to in open)
    && (forall c :: c in clients && c in open ==> Delivery(c, message) in sent)
    && |sent| == |clients * open|
  }

  class RelayServer {
    /** The order log, newest first. */
    var orders: seq<Order>
    /** The connections eligible for broadcasts. */
    var clients: set<ClientId>

    constructor ()
      ensures orders == [] && clients == {}
    {
      orders := [];
      clients := {};
    }

    /** A connection is added to the set and sent a snapshot of the log. */
    method Connect(c: ClientId) returns (snapshot: Delivery)
      modifies this
      ensures clients == old(clients) + {c}
      ensures orders == old(orders)
      ensures snapshot == Delivery(c, OrdersUpdate(orders))
    {
      clients := clients + {c};
      snapshot := Delivery(c, OrdersUpdate(orders));
    }

    /** A closed connection leaves the set; closing one that is not there changes nothing. */
    method Close(c: ClientId)
      modifies this
      ensures clients == old(clients) - {c}
      ensures c !in old(clients) ==> clients == old(clients)
      ensures orders == old(orders)
    {
      clients := clients - {c};
    }

    /** Sends the same serialized message to every member whose transport is
      OPEN; a member that is not open is skipped. */
    method Broadcast(message: Push, open: set<ClientId>) returns (sent: seq<Delivery>)
      ensures IsBroadcast(sent, clients, open, message)
    {
      var pending := clients;
      sent := [];
      while pending != {}
        invariant pending <= clients
        invariant forall d :: d in sent ==> d.message == message && d.to in clients - pending && d.to in open
        invariant forall c :: c in clients - pending && c in open ==> Delivery(c, message) in sent
        invariant |sent| == |(clients - pending) * open|
        decreases pending
      {
        var c :| c in pending;
        var done := (clients - pending) * open;
        assert c !in done;
        if c in open {
          assert (clients - (pending - {c})) * open == done + {c};
          sent := sent + [Delivery(c, message)];
        } else {
          assert (clients - (pending - {c})) * open == done;
        }
        pending := pending - {c};
      }
      assert clients - pending == clients;
    }

    /** Ingest: the stamped order goes to the head of the log. */
    method Ingest(payload: Fields, id: string, now: string) returns (stored: Order)
      modifies this
      ensures stored == Stamp(payload, id, now)
      ensures orders == [stored] + old(orders)
      ensures clients == old(clients)
    {
      stored := Stamp(payload, id, now);
      orders := [stored] + orders;
    }

    /** Status update: the first order whose `orderId` equals `key` gets the
      new status and `updatedAt`; `found` says whether there was one. */
    method UpdateStatus(key: Value, status: Value, now: string) returns (found: bool)
      modifies this
      ensures found <==> FindOrder(old(orders), key).Some?
      ensures orders == WithStatus(old(orders), key, status, now)
      ensures clients == old(clients)
    {
      var i := IndexWhere(orders, o => Matches(o, key));
      found := i != -1;
      if found {
        orders := orders[i := Restatus(orders[i], status, now)];
      }
    }

    /** The socket message handler of one connection. A parse failure is
      caught and changes nothing; `get_orders` answers the sender only; an
      unrecognized type is ignored. */
    method HandleMessage(sender: ClientId, msg: Inbound, id: string, now: string, open: set<ClientId>)
      returns (sent: seq<Delivery>)
      modifies this
      ensures orders == Step(old(orders), msg, id, now)
      ensures clients == old(clients)
      ensures Broadcasts(old(orders), msg) ==> IsBroadcast(sent, clients, open, OrdersUpdate(orders))
      ensures msg.GetOrders? ==> sent == [Delivery(sender, OrdersUpdate(orders))]
      ensures !Broadcasts(old(orders), msg) && !msg.GetOrders? ==> sent == []
    {
      sent := [];
      match msg {
        case NewOrder(p) =>
          var _ := Ingest(p, id, now);
          sent := Broadcast(OrdersUpdate(orders), open);
        case UpdateOrderStatus(k, s) =>
          var found := UpdateStatus(k, s, now);
          if found {
            sent := Broadcast(OrdersUpdate(orders), open);
          }
        case GetOrders =>
          sent := [Delivery(sender, OrdersUpdate(orders))];
        case Unrecognized(_) =>
        case Malformed =>
      }
    }

    /** `POST /api/orders`: ingest, broadcast, answer with the payload's `orderId`. */
    method PostOrder(body: Fields, id: string, now: string, open: set<ClientId>)
      returns (reply: RestReply, sent: seq<Delivery>)
      modifies this
      ensures orders == Step(old(orders), NewOrder(body), id, now)
      ensures clients == old(clients)
      ensures reply == Accepted(Get(body, "orderId")) && HttpStatus(reply) == 200
      ensures IsBroadcast(sent, clients, open, OrdersUpdate(orders))
    {
      var stored := Ingest(body, id, now);
      sent := Broadcast(OrdersUpdate(orders), open);
      reply := Accepted(Get(stored, "orderId"));
    }

    /** `GET /api/orders`: the log, newest first. */
    method ListOrders() returns (reply: RestReply)
      ensures reply == OrderList(orders) && HttpStatus(reply) == 200
    {
      reply := OrderList(orders);
    }

    /** `PUT /api/orders/:orderId/status`: the same update as the socket path,
      keyed by the path parameter; 404 "Order not found" when absent. */
    method PutStatus(orderId: string, body: Fields, now: string, open: set<ClientId>)
      returns (reply: RestReply, sent: seq<Delivery>)
      modifies this
      ensures orders == WithStatus(old(orders), Str(orderId), Get(body, "status"), now)
      ensures clients == old(clients)
      ensures FindOrder(old(orders), Str(orderId)).Some? ==>
        reply == Updated && IsBroadcast(sent, clients, open, OrdersUpdate(orders))
      ensures FindOrder(old(orders), Str(orderId)).None? ==>
        reply == NotFound("Order not found") && HttpStatus(reply) == 404 && sent == [] && orders == old(orders)
    {
      var found := UpdateStatus(Str(orderId), Get(body, "status"), now);
      if found {
        sent := Broadcast(OrdersUpdate(orders), open);
        reply := Updated;
      } else {
        sent := [];
        reply := NotFound("Order not found");
      }
    }

    /** `GET /health`: the number of connections and of orders. */
    method Health() returns (reply: RestReply)
      ensures reply == Healthy(|clients|, |orders|)
    {
      reply := Healthy(|clients|, |orders|);
    }
  }

  /** A socket scenario: two dashboards connected, then an order placed over
      the socket reaches both of them. */
  method SocketScenario(order: Fields)
    requires Get(order, "orderId") == Str("ORD-1000")
  {
    var relay := new RelayServer();
    var snapA := relay.Connect(1);
    assert snapA.message == OrdersUpdate([]);
    var snapB := relay.Connect(2);
    assert relay.clients == {1, 2};
    var sent := relay.HandleMessage(2, NewOrder(order), "1", "t1", {1, 2});
    assert |relay.orders| == 1 && Get(relay.orders[0], "orderId") == Str("ORD-1000");
    assert Delivery(1, OrdersUpdate(relay.orders)) in sent;
  }

  /** A REST scenario: a status change for a logged order is applied, and one
      for an unknown order is refused with 404 and sends nothing. */
  method RestScenario(log: seq<Order>)
    requires |log| > 0 && Get(log[0], "orderId") == Str("ORD-1000")
    requires forall k :: 0 <= k < |log| ==> Get(log[k], "orderId") != Str("ORD-9999")
  {
    var relay := new RelayServer();
    relay.orders := log;
    assert FindOrder(relay.orders, Str("ORD-9999")).None?;
    var miss, sent0 := relay.PutStatus("ORD-9999", map["status" := Str("shipped")], "t1", {});
    assert HttpStatus(miss) == 404;
    assert relay.orders == log;
    assert FindOrder(relay.orders, Str("ORD-1000")) == Some(0);
    var reply, sent := relay.PutStatus("ORD-1000", map["status" := Str("shipped")], "t2", {});
    assert reply == Updated;
    assert Get(relay.orders[0], "status") == Str("shipped");
  }
}

=== FILE: showcase.dfy ===
/** What the storefront's product grid shows for a category button: category
    display names, the four category groups, up to four products from each
    subcategory, and the mixed "featured" selection of at most twelve. */
module Showcase {
  import opened Common
  import opened Catalogue

  /** The display names `getCategoryDisplayName` knows. */
  const CategoryNames: map<string, string> := map[
    "vitamins" := "Vitamins & Supplements",
    "fragrances" := "Fragrances",
    "face-care" := "Face Care",
    "hair-beauty" := "Hair Beauty",
    "body-care" := "Body Care",
    "sexual-wellness" := "Sexual Wellness",
    "oral-care" := "Oral Care",
    "makeup" := "Make-Up",
    "tools-accessories" := "Tools & Accessories",
    "tv-dvd" := "TV & DVD Equipment",
    "audio-music" := "Audio & Music Equipment",
    "laptops-computers" := "Laptops & Computers",
    "electronics-accessories" := "Electronics Accessories",
    "computer-accessories" := "Computer Accessories",
    "networking" := "Networking Products",
    "printers-scanners" := "Printers & Scanners",
    "security-surveillance" := "Security & Surveillance",
    "computer-hardware" := "Computer Hardware",
    "cars" := "Cars",
    "motorcycles" := "Motorcycles & Scooters",
    "vehicle-parts" := "Vehicle Parts & Accessories",
    "trucks-trailers" := "Trucks & Trailers",
    "buses" := "Buses & Microbuses",
    "construction-machinery" := "Construction & Heavy Machinery",
    "watercraft" := "Watercraft & Boats",
    "food-beverages" := "Food & Beverages",
    "farm-machinery" := "Farm Machinery & Equipment",
    "feeds-supplements" := "Feeds, Supplements & Seeds",
    "farm-animals" := "Farm Animals",
    "health-beauty" := "Health & Beauty",
    "electronics" := "Electronics",
    "vehicles" := "Vehicles",
    "agriculture" := "Food & Agriculture"
  ]

  /** `getCategoryDisplayName`: the table's name, or the key itself. */
  function CategoryDisplayName(category: string): string
  {
    if category in CategoryNames then CategoryNames[category] else category
  }

  /** A key is shown as itself exactly when the table does not know it: no
      entry maps a key to itself. */
  lemma DisplayNameFallback(category: string)
    ensures CategoryDisplayName(category) == category <==> category !in CategoryNames
  {
    if category in CategoryNames {
      assert category[0] != CategoryNames[category][0];
    }
  }

  const HealthBeauty: seq<string> := ["vitamins", "fragrances", "face-care", "hair-beauty", "body-care", "sexual-wellness", "oral-care", "makeup"]
  const Electronics: seq<string> := ["tv-dvd", "audio-music", "laptops-computers", "electronics-accessories", "computer-accessories", "networking", "printers-scanners", "security-surveillance", "computer-hardware"]
  const Vehicles: seq<string> := ["vehicle-parts", "cars", "motorcycles", "trucks-trailers", "buses", "construction-machinery", "watercraft"]
  const Agriculture: seq<string> := ["food-beverages", "farm-machinery", "feeds-supplements", "farm-animals"]

  predicate IsGroup(category: string)
  {
    category == "health-beauty" || category == "electronics" || category == "vehicles" || category == "agriculture"
  }

  /** The subcategories a grouped button expands to; any other key is shown alone. */
  function CategoriesToShow(category: string): (r: seq<string>)
    ensures !IsGroup(category) ==> r == [category]
    ensures IsGroup(category) ==> 4 <= |r| <= 9
  {
    if category == "health-beauty" then HealthBeauty
    else if category == "electronics" then Electronics
    else if category == "vehicles" then Vehicles
    else if category == "agriculture" then Agriculture
    else [category]
  }

  /** Every subcategory of a group has a display name and is not itself a
      group, so a group expands only once. */
  lemma GroupMembersNamed(g: string, c: string)
    requires IsGroup(g) && c in CategoriesToShow(g)
    ensures c in CategoryNames && !IsGroup(c)
  {
    var cats := CategoriesToShow(g);
    var i :| 0 <= i < |cats| && cats[i] == c;
    if g == "health-beauty" {
      assert c == HealthBeauty[i];
    } else if g == "electronics" {
      assert c == Electronics[i];
    } else if g == "vehicles" {
      assert c == Vehicles[i];
    } else {
      assert c == Agriculture[i];
    }
  }

  /** `loadProductsForCategory(category, limit)`: the first `limit` products.
      The ensures give the proofs below the prefix without unfolding. */
  function LoadProductsForCategory(db: seq<Shelf>, category: string, limit: nat): (r: seq<Product>)
    ensures |r| == if |ProductsOf(db, category)| < limit then |ProductsOf(db, category)| else limit
    ensures r == ProductsOf(db, category)[..|r|]
  {
    var ps := ProductsOf(db, category);
    if |ps| < limit then ps else ps[..limit]
  }

  /** A larger limit shows more of the same leading products, and a limit no
      smaller than the category shows all of it. */
  lemma LeadingProductsNest(db: seq<Shelf>, category: string, small: nat, large: nat)
    requires small <= large
    ensures var a, b := LoadProductsForCategory(db, category, small), LoadProductsForCategory(db, category, large);
      |a| <= |b| && a == b[..|a|]
    ensures large >= |ProductsOf(db, category)| ==> LoadProductsForCategory(db, category, large) == ProductsOf(db, category)
  {
    var ps := ProductsOf(db, category);
    var a, b := LoadProductsForCategory(db, category, small), LoadProductsForCategory(db, category, large);
    assert a == ps[..|a|] && b == ps[..|b|];
    assert b[..|a|] == ps[..|a|];
  }

  /** One product card and the category key its button adds to the cart under. */
  datatype Card = Card(product: Product, category: string)

  /** The grid: cards, or the "No products found" notice when there are none. */
  datatype Grid = NoProducts | Cards(cards: seq<Card>)

  function CardsFor(db: seq<Shelf>, category: string): seq<Card>
  {
    var ps := LoadProductsForCategory(db, category, 4);
    seq(|ps|, j requires 0 <= j < |ps| => Card(ps[j], category))
  }

  /** The cards of a list of subcategories, four at most from each, in order. */
  function GroupCards(db: seq<Shelf>, cats: seq<string>): seq<Card>
  {
    if cats == [] then [] else GroupCards(db, cats[..|cats| - 1]) + CardsFor(db, cats[|cats| - 1])
  }

  function ShownFrom(db: seq<Shelf>): string -> int
  {
    (c: string) => if |ProductsOf(db, c)| < 4 then |ProductsOf(db, c)| else 4
  }

  /** A subcategory contributes min(4, its size) cards, each one of its own
      products under its own key, and among the first four of them. */
  lemma {:induction false} GroupCardsContents(db: seq<Shelf>, cats: seq<string>)
    ensures |GroupCards(db, cats)| == SumOf(cats, ShownFrom(db))
    ensures |GroupCards(db, cats)| <= 4 * |cats|
    ensures forall card :: card in GroupCards(db, cats) ==>
      card.category in cats && card.product in ProductsOf(db, card.category)[..ShownFrom(db)(card.category)]
  {
    if cats != [] {
      var cats', c := cats[..|cats| - 1], cats[|cats| - 1];
      GroupCardsContents(db, cats');
      forall card | card in GroupCards(db, cats)
        ensures card.category in cats && card.product in ProductsOf(db, card.category)[..ShownFrom(db)(card.category)]
      {
        if card in GroupCards(db, cats') {
          assert card.category in cats';
          var k :| 0 <= k < |cats'| && cats'[k] == card.category;
          assert cats[k] == card.category;
        } else {
          var cs := CardsFor(db, c);
          var j :| 0 <= j < |cs| && cs[j] == card;
          assert card.product == LoadProductsForCategory(db, c, 4)[j];
        }
      }
    }
  }

  /** `slice(0, 2)`. */
  function FirstTwo(ps: seq<Product>): seq<Product>
  {
    if |ps| < 2 then ps else ps[..2]
  }

  /** The "all"/"featured" pool: the first two products of every category,
      in key order, each with the key it came from. */
  function FeaturedPool(db: seq<Shelf>): seq<Card>
  {
    if db == [] then []
    else
      var s := db[|db| - 1];
      var two := FirstTwo(s.products);
      FeaturedPool(db[..|db| - 1]) + seq(|two|, j requires 0 <= j < |two| => Card(two[j], s.key))
  }

  /** The pool holds at most two cards per category, each one of the first two
      products stored under its card's key. */
  lemma {:induction false} FeaturedPoolContents(db: seq<Shelf>)
    ensures |FeaturedPool(db)| <= 2 * |db|
    ensures forall card :: card in FeaturedPool(db) ==>
      exists c :: 0 <= c < |db| && db[c].key == card.category && card.product in FirstTwo(db[c].products)
  {
    if db != [] {
      var db', s := db[..|db| - 1], db[|db| - 1];
      FeaturedPoolContents(db');
      forall card | card in FeaturedPool(db)
        ensures exists c :: 0 <= c < |db| && db[c].key == card.category && card.product in FirstTwo(db[c].products)
      {
        if card in FeaturedPool(db') {
          var c :| 0 <= c < |db'| && db'[c].key == card.category && card.product in FirstTwo(db'[c].products);
          assert db[c] == db'[c];
        } else {
          var two := FirstTwo(s.products);
          var cards := seq(|two|, j requires 0 <= j < |two| => Card(two[j], s.key));
          assert card in cards;
          var j :| 0 <= j < |cards| && cards[j] == card;
          assert card.product == two[j];
          assert db[|db| - 1] == s;
        }
      }
    }
  }

  /** `order` lists each index below `n` once: the outcome of the random sort. */
  predicate IsPermutation(order: seq<nat>, n: nat)
  {
    && |order| == n
    && (forall i :: 0 <= i < n ==> order[i] < n)
    && (forall i, j :: 0 <= i < j < n ==> order[i] != order[j])
  }

  /** The pool shuffled into `order`, cut to twelve. */
  function FeaturedShown(pool: seq<Card>, order: seq<nat>): (r: seq<Card>)
    requires IsPermutation(order, |pool|)
    ensures |r| == if |pool| < 12 then |pool| else 12
    ensures forall k :: 0 <= k < |r| ==> r[k] in pool
    ensures forall k, m :: 0 <= k < m < |r| ==> r[k] == pool[order[k]] && r[m] == pool[order[m]] && order[k] != order[m]
  {
    var n := if |pool| < 12 then |pool| else 12;
    seq(n, k requires 0 <= k < n => pool[order[k]])
  }

  /** `displayProducts(category)`; `order` is the order the random sort
      leaves the featured pool in. */
  function DisplayProducts(db: seq<Shelf>, category: string, order: seq<nat>): Grid
    requires category == "all" || category == "featured" ==> IsPermutation(order, |FeaturedPool(db)|)
  {
    var cards :=
      if category == "all" || category == "featured" then FeaturedShown(FeaturedPool(db), order)
      else GroupCards(db, CategoriesToShow(category));
    if cards == [] then NoProducts else Cards(cards)
  }

  /** A category (or group) shows the notice exactly when each of its
      subcategories is empty; otherwise every card is one of the first four
      products of a subcategory it names, and there are at most four per
      subcategory. */
  lemma DisplayCategory(db: seq<Shelf>, category: string, order: seq<nat>)
    requires category != "all" && category != "featured"
    ensures var g := DisplayProducts(db, category, order);
      && (g == NoProducts <==> forall c :: c in CategoriesToShow(category) ==> ProductsOf(db, c) == [])
      && (g.Cards? ==> |g.cards| <= 4 * |CategoriesToShow(category)|)
      && (g.Cards? ==> forall card :: card in g.cards ==>
            card.category in CategoriesToShow(category) && card.product in ProductsOf(db, card.category)[..ShownFrom(db)(card.category)])
  {
    var cats := CategoriesToShow(category);
    GroupCardsContents(db, cats);
    EmptyGroup(db, cats);
  }

  lemma {:induction false} EmptyGroup(db: seq<Shelf>, cats: seq<string>)
    ensures GroupCards(db, cats) == [] <==> forall c :: c in cats ==> ProductsOf(db, c) == []
  {
    if cats != [] {
      var cats', c := cats[..|cats| - 1], cats[|cats| - 1];
      EmptyGroup(db, cats');
      assert cats == cats' + [c];
      if ProductsOf(db, c) != [] {
        assert |CardsFor(db, c)| > 0;
      }
    }
  }

  /** The featured view shows the notice exactly when every category is
      empty, and otherwise at most twelve cards, all from the pool. */
  lemma DisplayFeatured(db: seq<Shelf>, category: string, order: seq<nat>)
    requires category == "all" || category == "featured"
    requires IsPermutation(order, |FeaturedPool(db)|)
    ensures var g := DisplayProducts(db, category, order);
      && (g == NoProducts <==> forall c :: 0 <= c < |db| ==> db[c].products == [])
      && (g.Cards? ==> |g.cards| <= 12 && forall card :: card in g.cards ==> card in FeaturedPool(db))
  {
    EmptyPool(db);
  }

  lemma {:induction false} EmptyPool(db: seq<Shelf>)
    ensures FeaturedPool(db) == [] <==> forall c :: 0 <= c < |db| ==> db[c].products == []
  {
    if db != [] {
      EmptyPool(db[..|db| - 1]);
      assert forall c :: 0 <= c < |db| - 1 ==> db[..|db| - 1][c] == db[c];
    }
  }
}
